=== FILE: README.md ===
# diane, modelled in Dafny

diane is a command-line journal. Each entry, a *record*, holds some text, a timestamp, a list of
sources and an optional audio file. It is stored as one markdown file that opens with a small
YAML header between `---` lines. The file is named after the record's second and the first words
of its text. When git is enabled, every save is committed to a git repository in the records
directory.

This project models diane's core:

- the record codec and file naming (`diane/record.py`);
- the store, which initialises the directory, saves, lists and searches (`diane/storage.py`);
- git synchronisation: remote, push, pull, sync and status (`diane/sync.py`);
- the statistics over a list of records (`diane/stats.py`);
- GPG encryption of files (`diane/encryption.py`).

The model is arranged by module:

- `Records` holds the pure codec. `ToMarkdown`, `Decode` and `FileName` are functions. `Decode` is
  the parse as written, and `DecodeAtLine` is the same parse with the header closed at a line that
  is exactly `---` (see Findings). `Load` is what `from_file` returns: the text-mode read (`Text.ReadText`)
  followed by `Decode`. `LoadAtLine` is the corrected read: the same text-mode read followed by
  `DecodeAtLine`. The round trips are proved for both, and so is where they differ.
- `Storage` is a class, `Store`. It holds the records directory as a map from file name to text,
  an abstract git repository, and the log of git commands issued. Each method is proved equal to
  a specification function, and the lemmas state what those functions promise.
- `Sync` models git as a snapshot. The snapshot records whether `.git` exists, the `origin` remote,
  what the queries print, and which commands fail with which error. Each operation is a function
  returning the reply, the new snapshot and the commands run. The `GitSync` class runs the same
  steps one command at a time.
- `Stats` keeps the source's counting loops as methods. Each method is proved against the table
  it must produce, and the table's properties are proved as lemmas.
- `Encryption` keeps the key-listing loop as a method. `encrypt_file` and `decrypt_file` are
  methods on a `Directory` of files, with read, write and removal faults as parameters.
- Supporting modules model the Python and library behaviour the core relies on:
  - `Text`: `str.strip`, `str.split`, `str.lower`, `in` and `find` on strings, string `<`, and the
    newline translation of a text-mode read;
  - `Clock`: `datetime`, `strftime`, `strptime` and `timedelta` arithmetic;
  - `Bags`: the multiset of a loop over a set of names.

## Model

| member | source | states |
|---|---|---|
| Records.NewRecord | diane/record.py:12-22 | the content is the stripped text (kept as-is when already stripped); sources that are missing or empty become `["stdin"]`, given ones are kept; a missing timestamp becomes the clock's time, a given one is kept; the audio path is kept |
| Records.ToFrontmatter | diane/record.py:24-34 | the header is newline-terminated lines, and for one-line labels no line of it is exactly the delimiter `---` |
| Records.ToMarkdown | diane/record.py:36-39 | the file opens with the delimiter and ends in a newline; for one-line labels the first delimiter line after the opening one is the one right after the header |
| Records.Decode | diane/record.py:59-89 | as written: a decoded record has stripped content and at least one source; text that does not open with `---\n` is all content, with the clock's time, `["stdin"]` and no audio |
| Records.DecodeEncode | diane/record.py:24-89 | with the parse as written, a saved record's file decodes to its content, its sources, its audio path (when non-empty) and its timestamp cut to the minute, for labels that are plain one-line texts |
| Records.DecodeAtLine | diane/record.py:66-89 | the parse with the header closed at its own delimiter line: a decoded record has stripped content and at least one source; text that does not open with `---\n` is all content with the default metadata |
| Records.DecodeAtLineEncode | diane/record.py:24-89 | with the header closed at its delimiter line, every record whose labels are one-line texts reads back as itself (time cut to the minute, an empty audio path as none), labels ending in `---` included |
| Records.DecodersAgree | diane/record.py:66-70 | on a file the encoder wrote for plain labels, the parse as written and the parse closed at the delimiter line agree |
| Records.Load | diane/record.py:59-89 | `from_file` reads in text mode and then parses as written: a loaded record has stripped content and at least one source; a file whose translated text has no header is all content |
| Records.LoadAtLine | diane/record.py:59-89 | the corrected `from_file`, with the header closed at its delimiter line: a loaded record has stripped content and at least one source; a file whose translated text has no header is all content |
| Records.MarkdownRead | diane/record.py:62-63 | reading a saved file in text mode gives the file the record with its content so translated would have been saved as |
| Records.LoadEncoded | diane/record.py:24-89 | a file saved for a record with plain labels loads through `from_file` as written as the record: its time cut to the minute, its content as the text-mode read gives it, and exactly as saved when the content holds no carriage return |
| Records.LoadAtLineEncoded | diane/record.py:24-89 | through the corrected read, a file saved for any record with one-line labels, dashes included, loads as the record in the same sense |
| Records.LoadsAgree | diane/record.py:59-89 | on a file saved for a record with plain labels, `from_file` as written and the corrected read give the same record |
| Records.HeaderLineEndingInDashes | diane/record.py:66-75 | a file such as `---\nfoo---\nbar\n`, whose header line ends in `---`, makes `from_file` raise (the cut header `foo` is no mapping), while the corrected read takes the whole text as content |
| Records.LoadCrlf | diane/record.py:62-63 | a saved file whose line ends were turned into `\r\n` loads as the original file does, through either read |
| Records.ParseEncodedHeader | diane/record.py:24-34 | loading the header `to_frontmatter` writes gives exactly the timestamp text, the source list and the audio path |
| Records.EncodedFields | diane/record.py:73-85 | the timestamp, sources and audio that `from_file` reads from an encoded header are the record's own, the time cut to the minute |
| Records.FromEncodedHeader | diane/record.py:66-87 | a header written by the encoder, with a body that strips to the content, reads back as the record |
| Records.SplitEncoded | diane/record.py:66-70 | a file made of delimiter, header, delimiter and body splits into the empty text, the header and the body |
| Records.SecondDelimiter | diane/record.py:66-70 | the encoder's header contains no delimiter, so the second delimiter in the file is the one that follows the header |
| Records.DecodeWithoutHeader | diane/record.py:66-89 | text without a leading delimiter, or without a second one, decodes to its stripped self with the default metadata |
| Records.HeaderTimestampFallback | diane/record.py:73-79 | a missing or unparsable timestamp falls back to the clock; a parsable one is used; a null or list value makes the decode fail |
| Records.ParseItems | diane/record.py:72 | the `- item` lines after `key:` load as that key's list, in order |
| Records.Slug | diane/record.py:47-50 | the slug is at most 40 characters of lower-case letters, digits, `-` and `_` |
| Records.FileName | diane/record.py:41-57 | the name is the 20-character time stamp, then `--` and the slug when the slug is non-empty, then `.md` |
| Records.FileNameOrder | diane/record.py:44-55 | names sort as the records' times do, at second precision, whatever the slugs |
| Records.SameSecondSameName | diane/record.py:41-57 | two records with the same content in the same second get the same name |
| Records.DashEndedSourceSplitsHeader | diane/record.py:66-70 | as written, a record whose one source ends in `---` decodes with that source stripped of its dashes and with `---` and a blank line in front of its content |
| Records.BuyMilkFileName | diane/record.py:41-57 | a worked example: "Buy milk\nand eggs" at 2024-11-06 13:30:45 is named `2024-11-06--13-30-45--buy-milk-and.md` |
| Text.Strip | diane/record.py:19 | the result has no whitespace at either end, is no longer than its input, and equals text that is already stripped |
| Text.StripPadded | diane/record.py:70 | stripping whitespace-padded text gives back the stripped middle |
| Text.StripEmptyIffBlank | diane/sync.py:102 | `strip()` is empty exactly when the text is all whitespace |
| Text.Words | diane/record.py:47 | `split()` yields non-empty words that contain no whitespace |
| Text.WordsEmptyIffBlank | diane/stats.py:54 | a text has no words exactly when it is all whitespace |
| Text.Split | diane/encryption.py:49-53 | `split(sep)` yields at least one part, and no part contains the separator |
| Text.SplitJoin | diane/encryption.py:49-53 | joining the parts of `split(sep)` with the separator gives the text back |
| Text.SplitTerminated | diane/encryption.py:49 | splitting newline-terminated lines gives the lines back, plus the empty text after the last newline |
| Text.Find | diane/record.py:66-67 | `find` returns the first occurrence at or after the start position, or nothing when there is none |
| Text.SplitTwice | diane/record.py:67 | `split(sep, 2)` yields between one and three parts |
| Text.SplitTwiceCuts | diane/record.py:67 | `split(sep, 2)` gives the whole text when `sep` does not occur; otherwise it cuts at the first occurrence, then at the first occurrence after that one, if any |
| Text.SplitTwiceJoin | diane/record.py:67 | the two or three parts of `split(sep, 2)`, joined with `sep`, give the text back |
| Text.ContainsEmpty | diane/storage.py:170 | the empty query occurs in every text |
| Text.ReadText | diane/record.py:62-63 | a text-mode read holds no carriage return and is no longer than the stored text |
| Text.ReadTextIdentity | diane/encryption.py:151-152 | a text-mode read gives the stored text back exactly when it holds no carriage return |
| Text.ReadTextAppend | diane/record.py:62-63 | the read is piecewise, wherever the cut does not fall between `\r` and `\n` |
| Text.ReadCrlf | diane/record.py:62-63 | text stored with `\r\n` line ends reads as its `\n` form |
| Lex.LexLessTransitive | diane/storage.py:128 | string `<` is transitive |
| Lex.LexLessTotal | diane/storage.py:128 | any two strings are equal or ordered one way or the other |
| Lex.LexLessAppend | diane/record.py:44-55 | between texts whose prefixes have equal length, the prefixes decide the order unless they are equal |
| Lex.SortedAscProperties | diane/storage.py:128 | `sorted()` of a set lists every element exactly once, in strictly ascending order |
| Lex.Sort | diane/storage.py:128 | the sorting loop returns the ascending order of the set |
| Lex.Least | diane/storage.py:128 | the scan finds the least name of a non-empty set |
| Clock.BeforeTransitive | diane/storage.py:135 | `<` on datetimes is transitive |
| Clock.BeforeTotal | diane/storage.py:135 | any two datetimes are equal or ordered one way or the other |
| Clock.DigitsValueOfDigits | diane/record.py:27 | reading back a zero-padded field gives the number that was written |
| Clock.DigitsOrder | diane/record.py:44 | zero-padded fields of equal width sort as their numbers do, and are equal exactly when the numbers are |
| Clock.FileStampOrder | diane/record.py:44 | the file-name time stamps sort as text exactly as the times do, at second precision |
| Clock.DateKeyOrder | diane/stats.py:26 | the day keys sort as text in calendar order, and are equal exactly when the dates are |
| Clock.ParseMinute | diane/record.py:77 | a parsed timestamp is a valid date and time with zero seconds |
| Clock.ParseFormatMinute | diane/record.py:27 | parsing the header timestamp of a valid time gives that time cut to the minute |
| Clock.MicrosOrder | diane/stats.py:40-44 | comparing datetimes is comparing their microsecond counts, which `timedelta` arithmetic uses |
| Clock.OrdinalInYear | diane/stats.py:40 | a valid date's ordinal lies within the days of its year |
| Storage.InitializedKeepsGitIffNoRefusal | diane/storage.py:19-59 | git stays enabled exactly when no git command that initialisation issued was refused |
| Storage.Initialized | diane/storage.py:19-59 | initialisation writes at most `.gitignore`, and only where it is missing; git stays on only with a repository in place; the command log only grows |
| Storage.InitializedIdempotent | diane/storage.py:24-26 | initialising twice is the same as initialising once |
| Storage.SavedReadsBack | diane/storage.py:61-87 | for a record with plain labels, the saved file, read back by `from_file` as written, gives the record with its time cut to the minute and its content as the text-mode read translates it, exactly as saved when it holds no carriage return; no other file changes; the git setting is unchanged |
| Storage.SavedReadsBackAtLine | diane/storage.py:61-87 | through the corrected read, the saved file of any record with one-line labels, dashes included, reads back in the same sense |
| Storage.Saved | diane/storage.py:61-87 | `save` writes exactly the one file, under the record's name, and leaves the git setting alone |
| Storage.FromFile | diane/record.py:59-89 | `from_file` as written: whatever a file holds, a record read from it has stripped content and at least one source |
| Storage.FromFileAtLine | diane/record.py:59-89 | the corrected `from_file`: whatever a file holds, a record read from it has stripped content and at least one source |
| Storage.ReadersAgree | diane/record.py:59-89 | in a directory whose every markdown file `save` wrote for a record with plain labels, both reads give each file the same record |
| Storage.ListingsAgree | diane/storage.py:109-149 | in such a directory, `list_records` lists the same records through either read |
| Storage.SearchesAgree | diane/storage.py:151-180 | in such a directory, `search` finds the same records through either read |
| Storage.SavedCommitsOnlyThatFile | diane/storage.py:83-107 | with git enabled, save issues `add` and then (unless the add is refused) `commit` with the message `Record: <name>`, and the commit holds only that file; with git off, nothing is issued |
| Storage.RefusedCommitLeavesFileStaged | diane/storage.py:89-107 | a file whose commit is refused after `add` stays staged, and the history is unchanged |
| Storage.KeptSound | diane/storage.py:128-146 | every kept entry is a listed file that decodes to its record and passes the filters |
| Storage.KeptComplete | diane/storage.py:128-146 | every listed file that decodes to a record passing the filters is kept |
| Storage.KeptDescending | diane/storage.py:128 | names visited in strictly descending order are kept in that order |
| Storage.NewestFirstDescending | diane/storage.py:128 | the listing visits every markdown file once, newest name first |
| Storage.Listing | diane/storage.py:109-149 | every listed record comes from a markdown file that reads as it and is not before `since`; names strictly descend; a limit bounds the count |
| Storage.ListingComplete | diane/storage.py:109-149 | without a limit, every markdown file that reads as a record passing the filters is listed |
| Storage.TagsEmptyTheListing | diane/storage.py:137-139 | a non-empty `tags` argument empties the listing, because records have no tags |
| Storage.KeepNewest | diane/storage.py:128-149 | the loop returns the records kept from the names, cut at the limit |
| Storage.KeepStops | diane/storage.py:141-142 | once the limit is reached, the remaining files cannot change the result |
| Storage.CollectMatches | diane/storage.py:166-176 | the search loop gathers one entry per matching file, whatever the order of the directory listing |
| Storage.MatchBagMembers | diane/storage.py:151-180 | a record is in the results exactly when some markdown file reads as it and it matches the query |
| Storage.InsertByTime | diane/storage.py:178-179 | inserting into a newest-first list keeps it newest first and adds exactly the one record |
| Storage.SortNewestFirst | diane/storage.py:178-179 | the sort is a permutation of its input, newest first |
| Storage.EmptyQueryMatchesAll | diane/storage.py:163-170 | the empty query matches every record, in either mode |
| Storage.CaseSensitiveMatchImpliesInsensitive | diane/storage.py:163-170 | a case-sensitive match is also a case-insensitive one |
| Storage.Store.constructor | diane/storage.py:15-17 | the store starts from the directory and the git setting, then initialises |
| Storage.Store.EnsureInitialized | diane/storage.py:19-59 | the store's new state is the initialised state |
| Storage.Store.GitCommit | diane/storage.py:89-107 | the store's new state is the committed state |
| Storage.Store.Save | diane/storage.py:61-87 | returns the record's file name, and the new state is the saved state |
| Storage.Store.ListRecords | diane/storage.py:109-149 | returns the records of the listing, each file read by `from_file` as written, in text mode |
| Storage.Store.Search | diane/storage.py:151-180 | returns exactly the matching records of the files read by `from_file` as written, in text mode, newest first |
| Sync.RunOutputs | diane/sync.py:17-36 | a failing command reports its error; the queries print what the snapshot says; every other command prints nothing |
| Sync.RemoteUrl | diane/sync.py:21-36 | a URL is reported exactly in a repository where the query succeeds, and it is stripped |
| Sync.BranchName | diane/sync.py:102 | the branch is the stripped output, or `master` when the output is blank; never empty |
| Sync.SetRemoteEffect | diane/sync.py:38-74 | outside a repository nothing runs; with a remote, `set-url` runs, otherwise `add`; the reply follows the command's outcome, and a failure changes nothing |
| Sync.RemoteArgv | diane/sync.py:56-70 | the two command lines `set_remote` may run |
| Sync.SetRemoteThenGet | diane/sync.py:21-74 | after a successful `set_remote`, `get_remote_url` returns the URL |
| Sync.GuardRefuses | diane/sync.py:83-87 | a guard that stops push or pull reports failure |
| Sync.GuardOrder | diane/sync.py:83-87 | the repository is checked before the remote, and nothing runs when either check fails |
| Sync.PushEffect | diane/sync.py:76-120 | push succeeds exactly when the directory is a repository with a remote and the branch query and the push succeed; the snapshot is unchanged |
| Sync.PushArgv | diane/sync.py:91-106 | the push command names the branch, and ends in `--force` exactly when forced |
| Sync.PushShape | diane/sync.py:89-120 | push runs the branch query and then the push; it succeeds exactly when both do; it reports `Push failed:` otherwise |
| Sync.PullShape | diane/sync.py:122-177 | a plain pull runs `git pull origin`; a forced pull runs fetch and then reset; each succeeds exactly when its commands do |
| Sync.PullEffect | diane/sync.py:122-177 | pull succeeds exactly when the guards pass and `git pull origin` (or, forced, fetch, the branch query and reset) succeed; the snapshot is unchanged |
| Sync.ForcedPullSteps | diane/sync.py:138-163 | the outcome of each step of a forced pull |
| Sync.PullArgv | diane/sync.py:138-170 | the fetch, reset and pull command lines |
| Sync.SyncEffect | diane/sync.py:179-195 | sync succeeds exactly when the guards pass and the pull, the branch query and the push all succeed |
| Sync.SyncShortCircuit | diane/sync.py:179-195 | sync succeeds exactly when the pull and then the push succeed; a failed pull is reported and no push runs |
| Sync.SyncCommands | diane/sync.py:179-195 | a successful sync ran exactly the pull and then the push |
| Sync.PushDecodeRaises | diane/sync.py:118-120 | as written, a rejected push with standard error raises, where the corrected code answers `Push failed: <stderr>` |
| Sync.PullDecodeRaises | diane/sync.py:175-177 | as written, a rejected plain pull with standard error raises, where the corrected code answers `Pull failed: <stderr>` |
| Sync.PushAsWrittenAgrees | diane/sync.py:76-120 | apart from raising, push as written answers what the corrected push does |
| Sync.PullAsWrittenAgrees | diane/sync.py:122-177 | apart from raising, pull as written answers what the corrected pull does |
| Sync.QuietFailuresAgree | diane/sync.py:76-177 | when no failing command prints to standard error, push and pull as written never raise |
| Sync.ParseDecimal | diane/sync.py:251-252 | `int(str(n)) == n` |
| Sync.CountsOfRevList | diane/sync.py:240-254 | the output of `rev-list --left-right --count` reads back as the two counts, behind first |
| Sync.GetStatus | diane/sync.py:197-275 | `is_repo` tells whether the directory is a repository; only a readable repository with a remote can fail, on a malformed count |
| Sync.StatusOutsideRepo | diane/sync.py:203-212 | outside a repository, every field of the status is at its default |
| Sync.StatusUnreadable | diane/sync.py:266-275 | when the branch or porcelain query fails, only `is_repo` is set |
| Sync.StatusFields | diane/sync.py:214-264 | the branch, changes, remote and counts fields of the status, with counts of zero when they cannot be read |
| Sync.StatusCounts | diane/sync.py:240-254 | with a remote, the status reports the counts git prints |
| Sync.GitSync.SetRemote | diane/sync.py:38-74 | the reply, the new snapshot and the commands logged are those of the `set_remote` effect |
| Sync.GitSync.PushToRemote | diane/sync.py:76-120 | the reply, snapshot and log are those of the corrected push |
| Sync.GitSync.Pull | diane/sync.py:122-177 | the reply, snapshot and log are those of the corrected pull |
| Sync.GitSync.Sync | diane/sync.py:179-195 | the reply, snapshot and log are those of sync |
| Stats.RecordsByDate | diane/stats.py:21-29 | the loop returns one entry per day, in ascending day order |
| Stats.CountKeys | diane/stats.py:23-28 | the counting loop builds the counter of every key |
| Stats.SortedItems | diane/stats.py:29 | the counter's entries, in ascending key order |
| Stats.ByDayFacts | diane/stats.py:21-29 | each day is listed once, in strictly ascending order, with its number of records, and that number is positive |
| Stats.TotalCount | diane/stats.py:16-29 | the number of records, which the per-day counts of `records_by_date()` add up to |
| Stats.ByDateChronological | diane/stats.py:29 | an earlier entry in the table is an earlier calendar day |
| Stats.RecentActivity | diane/stats.py:31-48 | the per-day table of the records at or after the cutoff; nothing where computing the cutoff overflows |
| Stats.RecentCounter | diane/stats.py:41-46 | the counting loop counts exactly the records at or after the cutoff |
| Stats.RecentKeysMembers | diane/stats.py:43-46 | a day is counted exactly when some record at or after the cutoff falls on it |
| Stats.RecentCountBound | diane/stats.py:31-48 | no day counts more recent records than it has records in all |
| Stats.RecentSum | diane/stats.py:31-48 | the recent counts add up to the number of recent records, which is at most `total_count()` |
| Stats.RecentAll | diane/stats.py:31-48 | a cutoff no later than every record counts them all |
| Stats.WordCount | diane/stats.py:50-55 | the loop returns the sum of the whitespace-split word counts |
| Stats.WordTotalAppend | diane/stats.py:50-55 | word totals add over concatenated record lists |
| Stats.WordTotalZero | diane/stats.py:50-55 | there are no words exactly when every content is blank |
| Stats.AverageWords | diane/stats.py:57-63 | zero for no records; otherwise the total spread evenly over the records; never negative |
| Stats.FirstMax | diane/stats.py:75 | `max(..., key=count)` picks the first entry with the largest count |
| Stats.BusiestFacts | diane/stats.py:65-76 | no day without records; otherwise a day with the most records, the earliest of those on a tie, with its count |
| Stats.BusiestDay | diane/stats.py:65-76 | the same facts about the records' own days |
| Stats.Summarize | diane/stats.py:78-88 | the summary's fields are the total, the word count, the average and the busiest day; the busiest count never exceeds the total |
| Encryption.ListKeys | diane/encryption.py:33-75 | nothing when gpg is missing or the listing fails; otherwise the keys of the listing's lines |
| Encryption.KeysPub | diane/encryption.py:55-63 | a `pub` line opens a new key with the id from field 4, the date from field 5 and no user id |
| Encryption.KeysUid | diane/encryption.py:64-66 | a `uid` line read while a key is open sets that key's user id to field 9 |
| Encryption.KeysIgnored | diane/encryption.py:49-66 | empty lines, other record types, and `uid` lines before the first key change nothing |
| Encryption.KeysFollowPubLines | diane/encryption.py:49-72 | one key per `pub` line, in order, with that line's id and date |
| Encryption.NoPubNoKeys | diane/encryption.py:49-72 | there are no keys exactly when there is no `pub` line |
| Encryption.RecipientChoice | diane/encryption.py:90-92 | an explicit recipient wins over the configured key, and there is none exactly when neither is given |
| Encryption.Encrypt | diane/encryption.py:77-107 | availability is checked first, then the recipient; encryption succeeds exactly when gpg succeeds, and then answers with gpg's output |
| Encryption.Decrypt | diane/encryption.py:109-134 | decryption succeeds exactly when gpg is available and decrypts, and then answers with the plaintext; otherwise it reports the failure |
| Encryption.RFind | diane/encryption.py:162 | the last position of the character, or -1 when it does not occur |
| Encryption.Suffix | diane/encryption.py:162 | a suffix is empty, or a dot-led proper tail of the name |
| Encryption.SuffixAtLastDot | diane/encryption.py:162 | a non-empty suffix is at least two characters, starts with a dot and holds no other; it is empty exactly when no dot stands strictly inside the name or the name ends in a dot |
| Encryption.WithSuffix | diane/encryption.py:162 | the new name ends in the given suffix, and what precedes it is the name without its old suffix |
| Encryption.EncryptedName | diane/encryption.py:162 | the encrypted file's name is the name with `.gpg` appended, whatever its suffix |
| Encryption.DecryptedName | diane/encryption.py:201-205 | a `.gpg` name loses that suffix; any other name gets `.decrypted` before its suffix |
| Encryption.SuffixOfEncrypted | diane/encryption.py:202 | the encrypted name's suffix is `.gpg` |
| Encryption.DecryptedEncryptedName | diane/encryption.py:202-205 | decrypting the encrypted name gives back the original name |
| Encryption.NamesDiffer | diane/encryption.py:162-205 | neither direction writes over the file it reads |
| Encryption.EncryptFileEffect | diane/encryption.py:136-175 | a missing file is reported and nothing changes; `encrypt_file` succeeds exactly when the read, the encryption, the write and the removal all succeed |
| Encryption.DecryptFileEffect | diane/encryption.py:177-220 | a missing file is reported and nothing changes; `decrypt_file` succeeds exactly when the read, the decryption, the write and the removal all succeed |
| Encryption.EncryptFileSafe | diane/encryption.py:136-175 | the original is removed only on success, after the ciphertext of its text-mode reading is written; a failure leaves it unchanged; no other file changes |
| Encryption.DecryptFileSafe | diane/encryption.py:177-220 | the encrypted file is removed only on success, after the plaintext of its text-mode reading is written; a failure leaves it unchanged; no other file changes |
| Encryption.EncryptDecryptRoundTrip | diane/encryption.py:136-220 | encrypting a file and then decrypting the result restores the directory, with the file's text as the text-mode read gives it and exactly when it holds no carriage return, when gpg inverts itself and nothing fails |
| Encryption.Directory.EncryptFile | diane/encryption.py:136-175 | the reply and the new files are those of the `encrypt_file` effect, which reads the file in text mode |
| Encryption.Directory.DecryptFile | diane/encryption.py:177-220 | the reply and the new files are those of the `decrypt_file` effect, which reads the file in text mode |

## Left out

- git, gpg, `subprocess` and the file system are not run. Git is a snapshot with a set of commands that fail. Gpg is a pair of functions from input to output or failure. The directory is a map from name to text, with faults given as sets of names.
- `datetime.now()` is a `now` parameter, wherever the source reads the clock.
- Paths are names in one directory. `config`, `records_dir` and `config.ensure_directories()` are not part of this model.
- Storage.Store.Save: the `encrypt` branch of `save` writes the same plain text as the other branch, as the source does. Its encryption is a TODO there.
- The YAML header is modelled as a line-based subset: `key: value`, `key:`, `- item` and flow lists `[a, b]`. YAML quoting is not modelled: labels are written verbatim, where `yaml.dump` quotes some (`123`, `yes`, `a: b`, `#x`, `'x'`) and `safe_load` reads them back, so such labels read back as themselves here by construction.
- Records.Encodable: the round trip of the parse as written, `Records.DecodeEncode`, is stated for records whose sources and audio path are plain one-line labels not ending in `-`. A label ending in `---` genuinely breaks that round trip (see Findings). A label ending in one or two dashes is excluded only to keep the proof simple.
- Records.LineEncodable: the corrected parse `Records.DecodeAtLine` is proved to round-trip every record whose labels are one-line texts that do not start with `[`, dashes included. Labels holding `\n` or `\r`, or starting with `[`, are excluded, because `yaml.dump` quotes them and quoting is not modelled.
- Records.LoadEncoded: the read-back through `from_file` as written is stated for records whose labels are plain (`Records.Encodable`). A label ending in `---` is garbled by that parse (see Findings). `Records.LoadAtLineEncoded` states it for every one-line label through the corrected read.
- Storage.SavedReadsBack: stated for plain labels, for the same reason. `Storage.SavedReadsBackAtLine` states it for every one-line label through the corrected read, `Storage.FromFileAtLine`.
- The text-mode reads in `from_file`, `encrypt_file` and `decrypt_file` are modelled by `Text.ReadText`: `\r\n` and a lone `\r` become `\n`. The writes (`write_text`, `open(..., 'w')`) are modelled untranslated, as on POSIX, where the line separator is `\n`. Windows' `\r\n` on write is not modelled. UTF-8 decoding is not modelled either: files hold characters.
- The outputs of git and gpg are parameters of the snapshot and of `Gpg`. gpg's output is read with `.decode()` and is not translated. The translation `text=True` applies to git's output is folded into the given strings.
- Unicode: `isspace`, `isalnum` and `lower` are modelled on ASCII only.
- `Records.Decode` and `Records.Load` return nothing wherever `from_file` raises. The listing and the search skip those files, as the source's `except` does. `Storage.Reader` lets any decoder stand in.
- `Records.DecodeAtLine` and `Records.LoadAtLine` differ from `from_file` on any header line that ends in `---`, not only on the encoder's labels. The source cuts the header there and then raises or misreads the file. The corrected read goes on to the delimiter line, or takes the whole text as content when there is none (`Records.HeaderLineEndingInDashes`). The store's own listing and search use `from_file` as written.
- Records.HeaderSources / Records.HeaderAudio: a scalar `sources` or a list `audio` makes `from_file` build a record holding a string as its sources, or a list as its audio path. It does not raise there. The model's records cannot hold these, so `Records.Decode` returns nothing for such a file, and the listing and the search skip it where the source would list it.
- Stats.AverageWords: computed exactly as a real number. Floating-point division and `round(..., 1)` in `summary` are not modelled.
- Stats.RecentActivity: `datetime.now() - timedelta(days)` is exact microsecond arithmetic. An out-of-range cutoff, where Python raises `OverflowError`, is modelled as `None`.
- Stats: the records arrive as a sequence. Where `Statistics` gets them from is not part of this model.
- Storage.CollectMatches: the order in which the directory listing yields files is left open. Only the multiset of results is fixed, and `Store.Search` then sorts it.
- Storage.SortNewestFirst: an insertion sort on values, newest first. Python's sort is stable, but the relative order of records with equal timestamps is not stated.
- Encryption.ListKeys: requires every `pub` line to have at least 6 fields, and every `uid` line read while a key is open to have at least 10. On shorter lines the source raises `IndexError`, which is not caught.
- `Sync.GetStatus` returns `None` where `int()` raises `ValueError` on a malformed rev-list count, which `status` does not catch.
- `_check_gpg_available`, `is_available` and `setup_gpg_key` are not modelled: they probe the system or prompt the user interactively. Availability is a parameter.
- `GitSync.__init__`, `Storage.__init__` and `Statistics.__init__` only wire the directory or the list. They are covered by the constructors.

## Findings

| source | as written | input that shows it | evidently intended | confidence | as-written member | corrected member |
|---|---|---|---|---|---|---|
| diane/sync.py:119 | `e.stderr.decode()` on output captured with `text=True`, which is a `str` and has no `decode` | a push that git rejects with a non-empty message on standard error | report `Push failed: <stderr>` | high (not executed) | Sync.PushDecodeRaises | Sync.PushShape |
| diane/record.py:67 | `content.split('---\n', 2)` cuts at the first `---\n` after the opening one, even inside the header | a record with the source `draft---`: `yaml.dump` writes the line `- draft---`, so the header ends there, the source reads back as `draft` and the content gains `---` and a blank line in front | the header closes at the first line that is exactly `---`, so every saved record reads back as itself | medium (not executed) | Records.DashEndedSourceSplitsHeader | Records.DecodeAtLineEncode |
| diane/sync.py:176 | the same `e.stderr.decode()` after `git pull origin` run with `text=True` | a plain pull that git rejects with a non-empty message on standard error | report `Pull failed: <stderr>` | high (not executed) | Sync.PullDecodeRaises | Sync.PullShape |

=== FILE: bags.dfy ===
/** Bags gathered over a set of names, one name at a time in an order
    left open, as a loop over a directory listing does. */
module Bags {
  /** The sum of `f(n)` over every name in `names`. */
  ghost function Gather<T>(names: set<string>, f: string -> multiset<T>): multiset<T>
    decreases |names|
  {
    if names == {} then multiset{}
    else
      var n :| n in names;
      Gather(names - {n}, f) + f(n)
  }

  /** The sum does not depend on which name is taken first. */
  lemma {:induction false} GatherRemove<T>(names: set<string>, n: string, f: string -> multiset<T>)
    requires n in names
    ensures Gather(names, f) == Gather(names - {n}, f) + f(n)
    decreases |names|
  {
    var m :| m in names && Gather(names, f) == Gather(names - {m}, f) + f(m);
    if m != n {
      GatherRemove(names - {m}, n, f);
      GatherRemove(names - {n}, m, f);
      assert names - {m} - {n} == names - {n} - {m};
    }
  }

  /** Functions that agree on every name gather the same bag. */
  lemma {:induction false} GatherAgree<T>(names: set<string>, f: string -> multiset<T>, g: string -> multiset<T>)
    requires forall n :: n in names ==> f(n) == g(n)
    ensures Gather(names, f) == Gather(names, g)
    decreases |names|
  {
    if names != {} {
      var n :| n in names;
      GatherRemove(names, n, f);
      GatherRemove(names, n, g);
      GatherAgree(names - {n}, f, g);
    }
  }
}

=== FILE: clock.dfy ===
/**
 * Python's naive `datetime` as a value: the calendar fields, the
 * `strftime` renderings the record store uses, the `strptime` parse of the
 * header timestamp, ordering, and the absolute microsecond count that
 * `timedelta` arithmetic works on.
 */
module Clock {
  import opened Wrappers
  import opened Text
  import opened Lex

  datatype DateTime = DateTime(year: int, month: int, day: int,
                               hour: int, minute: int, second: int, micro: int)

  predicate IsLeap(y: int) {
    y % 4 == 0 && (y % 100 != 0 || y % 400 == 0)
  }

  function DaysInMonth(y: int, m: int): int {
    if m == 2 then (if IsLeap(y) then 29 else 28)
    else if m == 4 || m == 6 || m == 9 || m == 11 then 30
    else 31
  }

  /** The range `datetime` accepts: years 1 to 9999 and in-range fields. */
  predicate Valid(t: DateTime) {
    && 1 <= t.year <= 9999
    && 1 <= t.month <= 12
    && 1 <= t.day <= DaysInMonth(t.year, t.month)
    && 0 <= t.hour < 24
    && 0 <= t.minute < 60
    && 0 <= t.second < 60
    && 0 <= t.micro < 1000000
  }

  /** `a < b` on datetimes: field by field, most significant first. */
  predicate Before(a: DateTime, b: DateTime) {
    if a.year != b.year then a.year < b.year
    else if a.month != b.month then a.month < b.month
    else if a.day != b.day then a.day < b.day
    else if a.hour != b.hour then a.hour < b.hour
    else if a.minute != b.minute then a.minute < b.minute
    else if a.second != b.second then a.second < b.second
    else a.micro < b.micro
  }

  /** `<` on datetimes is a strict total order. */
  lemma BeforeIrreflexive(a: DateTime)
    ensures !Before(a, a)
  {
  }

  lemma BeforeTransitive(a: DateTime, b: DateTime, c: DateTime)
    requires Before(a, b) && Before(b, c)
    ensures Before(a, c)
  {
  }

  lemma BeforeTotal(a: DateTime, b: DateTime)
    ensures a == b || Before(a, b) || Before(b, a)
  {
  }

  /** `a < b` once both are cut to whole seconds. */
  predicate BeforeSecond(a: DateTime, b: DateTime) {
    if a.year != b.year then a.year < b.year
    else if a.month != b.month then a.month < b.month
    else if a.day != b.day then a.day < b.day
    else if a.hour != b.hour then a.hour < b.hour
    else if a.minute != b.minute then a.minute < b.minute
    else a.second < b.second
  }

  function TruncateToMinute(t: DateTime): DateTime {
    t.(second := 0, micro := 0)
  }

  // ---------------------------------------------------------------------
  // Zero-padded decimal fields
  // ---------------------------------------------------------------------

  function DigitChar(d: int): char
    requires 0 <= d < 10
  {
    ('0' as int + d) as char
  }

  function DigitValue(c: char): int {
    c as int - '0' as int
  }

  function Pow10(w: nat): nat {
    if w == 0 then 1 else 10 * Pow10(w - 1)
  }

  /** The last `w` decimal digits of `n`, zero-padded (`%0wd`). */
  function Digits(n: nat, w: nat): (s: string)
    ensures |s| == w
    ensures forall i :: 0 <= i < w ==> IsDigit(s[i])
  {
    if w == 0 then [] else Digits(n / 10, w - 1) + [DigitChar(n % 10)]
  }

  /** The number a string of decimal digits denotes. */
  function DigitsValue(s: string): int {
    if s == [] then 0 else 10 * DigitsValue(s[..|s| - 1]) + DigitValue(s[|s| - 1])
  }

  /** Reading back a padded field gives the number that was written. */
  lemma {:induction false} DigitsValueOfDigits(n: nat, w: nat)
    requires n < Pow10(w)
    ensures DigitsValue(Digits(n, w)) == n
  {
    if w > 0 {
      var s := Digits(n, w);
      assert s[..|s| - 1] == Digits(n / 10, w - 1);
      DigitsValueOfDigits(n / 10, w - 1);
    }
  }

  /** A string of `w` digits denotes a number below 10^w. */
  lemma {:induction false} DigitsValueBound(s: string)
    requires forall i :: 0 <= i < |s| ==> IsDigit(s[i])
    ensures 0 <= DigitsValue(s) < Pow10(|s|)
  {
    if s != [] {
      DigitsValueBound(s[..|s| - 1]);
    }
  }

  /** For numbers of at most `w` digits, the padded texts sort as the
      numbers do, and are equal exactly when the numbers are. */
  lemma {:induction false} DigitsOrder(a: nat, b: nat, w: nat)
    requires a < Pow10(w) && b < Pow10(w)
    ensures LexLess(Digits(a, w), Digits(b, w)) <==> a < b
    ensures Digits(a, w) == Digits(b, w) <==> a == b
  {
    if w == 0 {
      LexLessIrreflexive([]);
    } else {
      var pa, pb := Digits(a / 10, w - 1), Digits(b / 10, w - 1);
      var ca, cb := DigitChar(a % 10), DigitChar(b % 10);
      DigitsOrder(a / 10, b / 10, w - 1);
      LexLessAppend(pa, [ca], pb, [cb]);
      assert LexLess([ca], [cb]) <==> a % 10 < b % 10 by {
        assert [ca][1..] == [] && [cb][1..] == [];
        LexLessIrreflexive([]);
      }
      assert Digits(a, w) == pa + [ca] && Digits(b, w) == pb + [cb];
      if pa + [ca] == pb + [cb] {
        assert pa == (pa + [ca])[..w - 1] && pb == (pb + [cb])[..w - 1];
        assert ca == (pa + [ca])[w - 1];
      }
    }
  }

  /** One fixed-width field followed by the rest of a rendering. */
  lemma FieldStep(x: nat, y: nat, w: nat, ra: string, rb: string)
    requires x < Pow10(w) && y < Pow10(w)
    ensures LexLess(Digits(x, w) + ra, Digits(y, w) + rb) <==> x < y || (x == y && LexLess(ra, rb))
  {
    DigitsOrder(x, y, w);
    LexLessAppend(Digits(x, w), ra, Digits(y, w), rb);
  }

  /** A separator both renderings share does not affect their order. */
  lemma SepStep(sep: string, ra: string, rb: string)
    ensures LexLess(sep + ra, sep + rb) <==> LexLess(ra, rb)
  {
    LexLessAppend(sep, ra, sep, rb);
    LexLessIrreflexive(sep);
  }

  // ---------------------------------------------------------------------
  // strftime
  // ---------------------------------------------------------------------

  /** `strftime('%Y-%m-%d %H:%M')`, the header timestamp. */
  function FormatMinute(t: DateTime): (s: string)
    requires Valid(t)
    ensures |s| == 16
  {
    Digits(t.year, 4) + "-" + Digits(t.month, 2) + "-" + Digits(t.day, 2) + " "
      + Digits(t.hour, 2) + ":" + Digits(t.minute, 2)
  }

  /** `strftime('%Y-%m-%d--%H-%M-%S')`, the file-name prefix. */
  function FileStamp(t: DateTime): (s: string)
    requires Valid(t)
    ensures |s| == 20
  {
    Digits(t.year, 4) + ("-" + (Digits(t.month, 2) + ("-" + (Digits(t.day, 2) + ("--"
      + (Digits(t.hour, 2) + ("-" + (Digits(t.minute, 2) + ("-" + Digits(t.second, 2))))))))))
  }

  /** `strftime('%Y-%m-%d')`, the per-day statistics key. */
  function DateKey(t: DateTime): (s: string)
    requires Valid(t)
    ensures |s| == 10
  {
    Digits(t.year, 4) + ("-" + (Digits(t.month, 2) + ("-" + Digits(t.day, 2))))
  }

  /** The file-name prefix sorts, as text, exactly as the times it renders
      sort at second precision. */
  lemma FileStampOrder(a: DateTime, b: DateTime)
    requires Valid(a) && Valid(b)
    ensures LexLess(FileStamp(a), FileStamp(b)) <==> BeforeSecond(a, b)
  {
    var s2a := Digits(a.second, 2);
    var s2b := Digits(b.second, 2);
    var mia := Digits(a.minute, 2) + ("-" + s2a);
    var mib := Digits(b.minute, 2) + ("-" + s2b);
    var ha := Digits(a.hour, 2) + ("-" + mia);
    var hb := Digits(b.hour, 2) + ("-" + mib);
    var da := Digits(a.day, 2) + ("--" + ha);
    var db := Digits(b.day, 2) + ("--" + hb);
    var ma := Digits(a.month, 2) + ("-" + da);
    var mb := Digits(b.month, 2) + ("-" + db);
    DigitsOrder(a.second, b.second, 2);
    SepStep("-", s2a, s2b);
    FieldStep(a.minute, b.minute, 2, "-" + s2a, "-" + s2b);
    SepStep("-", mia, mib);
    FieldStep(a.hour, b.hour, 2, "-" + mia, "-" + mib);
    SepStep("--", ha, hb);
    FieldStep(a.day, b.day, 2, "--" + ha, "--" + hb);
    SepStep("-", da, db);
    FieldStep(a.month, b.month, 2, "-" + da, "-" + db);
    SepStep("-", ma, mb);
    FieldStep(a.year, b.year, 4, "-" + ma, "-" + mb);
  }

  /** The per-day key sorts, as text, in calendar order. */
  lemma DateKeyOrder(a: DateTime, b: DateTime)
    requires Valid(a) && Valid(b)
    ensures LexLess(DateKey(a), DateKey(b)) <==>
              a.year < b.year || (a.year == b.year && (a.month < b.month || (a.month == b.month && a.day < b.day)))
    ensures DateKey(a) == DateKey(b) <==> a.year == b.year && a.month == b.month && a.day == b.day
  {
    var ma := Digits(a.month, 2) + ("-" + Digits(a.day, 2));
    var mb := Digits(b.month, 2) + ("-" + Digits(b.day, 2));
    DigitsOrder(a.day, b.day, 2);
    DigitsOrder(a.month, b.month, 2);
    DigitsOrder(a.year, b.year, 4);
    SepStep("-", Digits(a.day, 2), Digits(b.day, 2));
    FieldStep(a.month, b.month, 2, "-" + Digits(a.day, 2), "-" + Digits(b.day, 2));
    SepStep("-", ma, mb);
    FieldStep(a.year, b.year, 4, "-" + ma, "-" + mb);
    if DateKey(a) == DateKey(b) {
      assert DateKey(a)[..4] == Digits(a.year, 4) && DateKey(b)[..4] == Digits(b.year, 4);
      assert DateKey(a)[5..7] == Digits(a.month, 2) && DateKey(b)[5..7] == Digits(b.month, 2);
      assert DateKey(a)[8..] == Digits(a.day, 2) && DateKey(b)[8..] == Digits(b.day, 2);
    }
  }

  // ---------------------------------------------------------------------
  // strptime('%Y-%m-%d %H:%M')
  // ---------------------------------------------------------------------

  /** The value of the two digits at `p`. */
  function Two(s: string, p: nat): int
    requires p + 2 <= |s|
  {
    DigitsValue(s[p..p + 2])
  }

  /** `(?P<m>1[0-2]|0[1-9]|[1-9])` followed by `-`: the month and the
      position of the `-`. Only one alternative can be followed by `-`, so
      the regex's backtracking cannot pick another. */
  function MatchMonth(s: string, p: nat): Option<(int, nat)> {
    if p + 2 < |s| && ((s[p] == '1' && '0' <= s[p + 1] <= '2') || (s[p] == '0' && '1' <= s[p + 1] <= '9'))
       && s[p + 2] == '-'
    then Some((Two(s, p), p + 2))
    else if p + 1 < |s| && '1' <= s[p] <= '9' && s[p + 1] == '-' then Some((DigitValue(s[p]), p + 1))
    else None
  }

  /** `(?P<d>3[01]|[12]\d|0[1-9]|[1-9]| [1-9])` followed by whitespace. */
  function MatchDay(s: string, p: nat): Option<(int, nat)> {
    if p + 2 < |s| && ((s[p] == '3' && '0' <= s[p + 1] <= '1') || ('1' <= s[p] <= '2' && IsDigit(s[p + 1]))
                       || (s[p] == '0' && '1' <= s[p + 1] <= '9'))
       && IsSpace(s[p + 2])
    then Some((Two(s, p), p + 2))
    else if p + 1 < |s| && '1' <= s[p] <= '9' && IsSpace(s[p + 1]) then Some((DigitValue(s[p]), p + 1))
    else if p + 2 < |s| && s[p] == ' ' && '1' <= s[p + 1] <= '9' && IsSpace(s[p + 2])
    then Some((DigitValue(s[p + 1]), p + 2))
    else None
  }

  /** The end of the run of whitespace starting at `p` (the `\s+` that
      replaces the format's space). */
  function SkipSpace(s: string, p: nat): (q: nat)
    requires p <= |s|
    ensures p <= q <= |s|
    ensures q == |s| || !IsSpace(s[q])
    decreases |s| - p
  {
    if p < |s| && IsSpace(s[p]) then SkipSpace(s, p + 1) else p
  }

  /** `(?P<H>2[0-3]|[0-1]\d|\d)` followed by `:`. */
  function MatchHour(s: string, p: nat): Option<(int, nat)> {
    if p + 2 < |s| && ((s[p] == '2' && '0' <= s[p + 1] <= '3') || ('0' <= s[p] <= '1' && IsDigit(s[p + 1])))
       && s[p + 2] == ':'
    then Some((Two(s, p), p + 2))
    else if p + 1 < |s| && IsDigit(s[p]) && s[p + 1] == ':' then Some((DigitValue(s[p]), p + 1))
    else None
  }

  /** `(?P<M>[0-5]\d|\d)` at the end of the pattern: the first alternative
      that matches wins, and the match must then reach the end of the text
      ("unconverted data remains" otherwise). */
  function MatchMinute(s: string, p: nat): Option<int> {
    if p + 2 == |s| && '0' <= s[p] <= '5' && IsDigit(s[p + 1]) then Some(Two(s, p))
    else if p + 1 < |s| && '0' <= s[p] <= '5' && IsDigit(s[p + 1]) then None
    else if p + 1 == |s| && IsDigit(s[p]) then Some(DigitValue(s[p]))
    else None
  }

  /** `datetime.strptime(s, '%Y-%m-%d %H:%M')`: `None` where Python raises
      `ValueError` (no match, trailing text, year 0, or a day the month does
      not have). */
  function ParseMinute(s: string): (r: Option<DateTime>)
    ensures r.Some? ==> Valid(r.value) && r.value.second == 0 && r.value.micro == 0
  {
    if !(|s| > 5 && IsDigit(s[0]) && IsDigit(s[1]) && IsDigit(s[2]) && IsDigit(s[3]) && s[4] == '-') then None
    else
      var year := DigitsValue(s[..4]);
      DigitsValueBound(s[..4]);
      assert Pow10(4) == 10000;
      match MatchMonth(s, 5)
      case None => None
      case Some((month, p)) =>
        match MatchDay(s, p + 1)
        case None => None
        case Some((day, q)) =>
          var h := SkipSpace(s, q);
          match MatchHour(s, h)
          case None => None
          case Some((hour, k)) =>
            match MatchMinute(s, k + 1)
            case None => None
            case Some(minute) =>
              if 1 <= year && 1 <= month <= 12 && 1 <= day <= DaysInMonth(year, month)
                 && 0 <= hour < 24 && 0 <= minute < 60
              then Some(DateTime(year, month, day, hour, minute, 0, 0))
              else None
  }

  lemma TwoDigits(n: nat)
    requires n < 100
    ensures Digits(n, 2) == [DigitChar(n / 10), DigitChar(n % 10)]
    ensures DigitsValue(Digits(n, 2)) == n
  {
    var a, b := n / 10, n % 10;
    assert a < 10 && a / 10 == 0 && a % 10 == a;
    assert Digits(a, 1) == Digits(0, 0) + [DigitChar(a)] == [DigitChar(a)];
    var s := Digits(n, 2);
    assert s == [DigitChar(a), DigitChar(b)];
    assert s[..1] == [DigitChar(a)];
    assert [DigitChar(a)][..0] == [];
    assert DigitsValue([DigitChar(a)]) == a;
  }

  /** A two-digit field at `p` as `Two` reads it. */
  lemma TwoField(s: string, p: nat, n: nat)
    requires n < 100 && p + 2 <= |s| && s[p..p + 2] == Digits(n, 2)
    ensures s[p] == DigitChar(n / 10) && s[p + 1] == DigitChar(n % 10)
    ensures Two(s, p) == n
  {
    TwoDigits(n);
    assert s[p] == s[p..p + 2][0] && s[p + 1] == s[p..p + 2][1];
  }

  lemma MonthField(s: string, p: nat, m: nat)
    requires 1 <= m <= 12 && p + 3 <= |s| && s[p..p + 2] == Digits(m, 2) && s[p + 2] == '-'
    ensures MatchMonth(s, p) == Some((m, p + 2))
  {
    TwoField(s, p, m);
  }

  lemma DayField(s: string, p: nat, d: nat)
    requires 1 <= d <= 31 && p + 3 <= |s| && s[p..p + 2] == Digits(d, 2) && s[p + 2] == ' '
    ensures MatchDay(s, p) == Some((d, p + 2))
  {
    TwoField(s, p, d);
  }

  lemma HourField(s: string, p: nat, h: nat)
    requires h < 24 && p + 3 <= |s| && s[p..p + 2] == Digits(h, 2) && s[p + 2] == ':'
    ensures MatchHour(s, p) == Some((h, p + 2))
  {
    TwoField(s, p, h);
  }

  lemma MinuteField(s: string, p: nat, m: nat)
    requires m < 60 && p + 2 == |s| && s[p..p + 2] == Digits(m, 2)
    ensures MatchMinute(s, p) == Some(m)
  {
    TwoField(s, p, m);
  }

  /** Where the fields of the header rendering sit. */
  lemma FormatMinuteFields(t: DateTime)
    requires Valid(t)
    ensures var s := FormatMinute(t);
            && s[..4] == Digits(t.year, 4) && s[4] == '-'
            && s[5..7] == Digits(t.month, 2) && s[7] == '-'
            && s[8..10] == Digits(t.day, 2) && s[10] == ' '
            && s[11..13] == Digits(t.hour, 2) && s[13] == ':'
            && s[14..16] == Digits(t.minute, 2)
  {
    var s := FormatMinute(t);
    var y, mo, d, h, mi := Digits(t.year, 4), Digits(t.month, 2), Digits(t.day, 2), Digits(t.hour, 2), Digits(t.minute, 2);
    assert s == y + "-" + mo + "-" + d + " " + h + ":" + mi;
  }

  /** Parsing the header rendering of a valid time gives that time cut to
      the minute. */
  lemma ParseFormatMinute(t: DateTime)
    requires Valid(t)
    ensures ParseMinute(FormatMinute(t)) == Some(TruncateToMinute(t))
  {
    var s := FormatMinute(t);
    FormatMinuteFields(t);
    assert Pow10(4) == 10000;
    DigitsValueOfDigits(t.year, 4);
    assert s[0] == s[..4][0] && s[1] == s[..4][1] && s[2] == s[..4][2] && s[3] == s[..4][3];
    MonthField(s, 5, t.month);
    DayField(s, 8, t.day);
    assert SkipSpace(s, 11) == 11 by { assert s[11] == s[11..13][0]; }
    assert SkipSpace(s, 10) == 11;
    HourField(s, 11, t.hour);
    MinuteField(s, 14, t.minute);
  }

  // ---------------------------------------------------------------------
  // Absolute time, as `timedelta` arithmetic sees it
  // ---------------------------------------------------------------------

  function DaysBeforeYear(y: int): int {
    var p := y - 1;
    365 * p + p / 4 - p / 100 + p / 400
  }

  function DaysBeforeMonth(y: int, m: int): int {
    var base :=
      if m <= 1 then 0 else if m == 2 then 31 else if m == 3 then 59 else if m == 4 then 90
      else if m == 5 then 120 else if m == 6 then 151 else if m == 7 then 181 else if m == 8 then 212
      else if m == 9 then 243 else if m == 10 then 273 else if m == 11 then 304 else 334;
    if m > 2 && IsLeap(y) then base + 1 else base
  }

  /** `date.toordinal()`: 1 for 0001-01-01. */
  function Ordinal(t: DateTime): int {
    DaysBeforeYear(t.year) + DaysBeforeMonth(t.year, t.month) + t.day
  }

  /** Microseconds since the start of day 0 of the proleptic calendar. */
  function Micros(t: DateTime): int {
    (((Ordinal(t) * 24 + t.hour) * 60 + t.minute) * 60 + t.second) * 1000000 + t.micro
  }

  const MicrosPerDay: int := 86400000000

  /** `datetime.min` and `datetime.max`. */
  const MinDateTime: DateTime := DateTime(1, 1, 1, 0, 0, 0, 0)
  const MaxDateTime: DateTime := DateTime(9999, 12, 31, 23, 59, 59, 999999)

  /** `now - timedelta(days=days)` as an absolute time: `None` where
      Python raises `OverflowError` (a `timedelta` beyond 999999999 days,
      or a result outside `datetime.min`..`datetime.max`). */
  function CutoffMicros(now: DateTime, days: int): Option<int> {
    var c := Micros(now) - days * MicrosPerDay;
    if -999999999 <= days <= 999999999 && Micros(MinDateTime) <= c <= Micros(MaxDateTime) then Some(c)
    else None
  }

  lemma DaysBeforeYearStep(y: int)
    requires y >= 1
    ensures DaysBeforeYear(y + 1) == DaysBeforeYear(y) + (if IsLeap(y) then 366 else 365)
  {
    assert y / 4 - (y - 1) / 4 == if y % 4 == 0 then 1 else 0;
    assert y / 100 - (y - 1) / 100 == if y % 100 == 0 then 1 else 0;
    assert y / 400 - (y - 1) / 400 == if y % 400 == 0 then 1 else 0;
  }

  lemma {:induction false} DaysBeforeYearMonotone(a: int, b: int)
    requires 1 <= a <= b
    ensures DaysBeforeYear(a) <= DaysBeforeYear(b)
    decreases b - a
  {
    if a < b {
      DaysBeforeYearStep(a);
      DaysBeforeYearMonotone(a + 1, b);
    }
  }

  /** A valid date's ordinal lies within its year's days. */
  lemma OrdinalInYear(t: DateTime)
    requires Valid(t)
    ensures DaysBeforeYear(t.year) < Ordinal(t) <= DaysBeforeYear(t.year + 1)
  {
    DaysBeforeYearStep(t.year);
  }

  /** Comparing valid datetimes is comparing their absolute microsecond
      counts, which is what makes `timedelta` arithmetic order-preserving. */
  lemma MicrosOrder(a: DateTime, b: DateTime)
    requires Valid(a) && Valid(b)
    ensures Before(a, b) <==> Micros(a) < Micros(b)
  {
    if Before(a, b) {
      BeforeMicros(a, b);
    } else if a != b {
      BeforeMicros(b, a);
    }
  }

  lemma BeforeMicros(a: DateTime, b: DateTime)
    requires Valid(a) && Valid(b) && Before(a, b)
    ensures Micros(a) < Micros(b)
  {
    if a.year != b.year {
      OrdinalInYear(a);
      OrdinalInYear(b);
      DaysBeforeYearMonotone(a.year + 1, b.year);
      assert Ordinal(a) < Ordinal(b);
    } else if a.month != b.month || a.day != b.day {
      assert Ordinal(a) < Ordinal(b);
    } else {
      assert Ordinal(a) == Ordinal(b);
    }
  }
}

=== FILE: encryption.dfy ===
// GPG support: the `--with-colons` key listing parser, the checks made
// before encrypting, the `.gpg` / `.decrypted` file names, and encrypting
// or decrypting a file in place (write the new file, then remove the old).

module Encryption {
  import opened Wrappers
  import opened Text

  /** `(success, message)`: the message is the ciphertext, plaintext or
      error text. */
  datatype Reply = Reply(ok: bool, message: string)

  /** What a `gpg` run gives back: its standard output, or the captured
      standard error together with `str()` of the exception. */
  datatype GpgResult = Done(output: string) | Refused(stderr: string, summary: string)

  /** A `GPGEncryption` object: whether `gpg --version` ran, the key it was
      configured with, and the external `gpg` it drives, given the
      recipient and the plaintext, or the ciphertext. */
  datatype Gpg = Gpg(available: bool, keyId: Option<string>,
                     encryptFor: (string, string) -> GpgResult,
                     decryptWith: string -> GpgResult)

  // ---------------------------------------------------------------------
  // list_keys
  // ---------------------------------------------------------------------

  /** A key as `list_keys` reports it. */
  datatype GpgKey = GpgKey(keyId: string, created: string, uid: Option<string>)

  function Fields(line: string): seq<string> {
    Split(line, ':')
  }

  predicate IsPub(line: string) {
    line != [] && Fields(line)[0] == "pub"
  }

  predicate IsUid(line: string) {
    line != [] && Fields(line)[0] == "uid"
  }

  /** Some line of `ls` starts a public key. */
  predicate HasPub(ls: seq<string>) {
    ls != [] && (HasPub(ls[..|ls| - 1]) || IsPub(ls[|ls| - 1]))
  }

  /** No line makes the parser index past its fields: a `pub` line has at
      least 6 of them, and a `uid` line read while a key is open at least
      10. */
  predicate Readable(ls: seq<string>) {
    ls == [] ||
    (var init, line := ls[..|ls| - 1], ls[|ls| - 1];
     && Readable(init)
     && (IsPub(line) ==> |Fields(line)| >= 6)
     && (IsUid(line) && HasPub(init) ==> |Fields(line)| >= 10))
  }

  /** The loop's state between lines: the keys already closed, and the
      `current_key` dict (`None` while it is still empty). */
  datatype Scan = Scan(keys: seq<GpgKey>, current: Option<GpgKey>)

  /** One line of the loop body. */
  function ScanLine(st: Scan, line: string): Scan
    requires IsPub(line) ==> |Fields(line)| >= 6
    requires IsUid(line) && st.current.Some? ==> |Fields(line)| >= 10
  {
    if line == [] then st
    else if Fields(line)[0] == "pub" then
      var f := Fields(line);
      Scan(st.keys + (if st.current.Some? then [st.current.value] else []), Some(GpgKey(f[4], f[5], None)))
    else if Fields(line)[0] == "uid" && st.current.Some? then
      Scan(st.keys, Some(st.current.value.(uid := Some(Fields(line)[9]))))
    else st
  }

  /** The state after every line of `ls`; a key is open exactly when some
      `pub` line has been read. */
  function ScanAll(ls: seq<string>): (st: Scan)
    requires Readable(ls)
    ensures st.current.Some? <==> HasPub(ls)
  {
    if ls == [] then Scan([], None)
    else ScanLine(ScanAll(ls[..|ls| - 1]), ls[|ls| - 1])
  }

  /** The keys of a listing: those closed, then the one still open. */
  function Keys(ls: seq<string>): seq<GpgKey>
    requires Readable(ls)
  {
    var st := ScanAll(ls);
    st.keys + (if st.current.Some? then [st.current.value] else [])
  }

  lemma {:induction false} ReadablePrefix(ls: seq<string>, n: nat)
    requires Readable(ls) && n <= |ls|
    ensures Readable(ls[..n])
    decreases |ls| - n
  {
    if n < |ls| {
      assert ls[..|ls| - 1][..n] == ls[..n];
      ReadablePrefix(ls[..|ls| - 1], n);
    } else {
      assert ls[..n] == ls;
    }
  }

  /** `list_keys()`: nothing when gpg is missing or the listing command
      fails (`None`); otherwise the keys of the listing's lines. */
  method ListKeys(gpgAvailable: bool, listing: Option<string>) returns (keys: seq<GpgKey>)
    requires gpgAvailable && listing.Some? ==> Readable(Split(listing.value, '\n'))
    ensures !gpgAvailable || listing.None? ==> keys == []
    ensures gpgAvailable && listing.Some? ==> keys == Keys(Split(listing.value, '\n'))
  {
    if !gpgAvailable || listing.None? {
      return [];
    }
    var lines := Split(listing.value, '\n');
    keys := [];
    var current: Option<GpgKey> := None;
    for i := 0 to |lines|
      invariant Readable(lines[..i])
      invariant Scan(keys, current) == ScanAll(lines[..i])
    {
      ReadablePrefix(lines, i + 1);
      assert lines[..i + 1][..i] == lines[..i];
      var line := lines[i];
      if line == [] {
        continue;
      }
      var parts := Split(line, ':');
      if parts[0] == "pub" {
        if current.Some? {
          keys := keys + [current.value];
        }
        current := Some(GpgKey(parts[4], parts[5], None));
      } else if parts[0] == "uid" && current.Some? {
        current := Some(current.value.(uid := Some(parts[9])));
      }
    }
    assert lines[..|lines|] == lines;
    if current.Some? {
      keys := keys + [current.value];
    }
  }

  /** A `pub` line opens a new key with the key id from field 4, the
      creation date from field 5 and no user id yet. */
  lemma KeysPub(ls: seq<string>, line: string)
    requires Readable(ls + [line]) && IsPub(line)
    ensures Readable(ls)
    ensures Keys(ls + [line]) == Keys(ls) + [GpgKey(Fields(line)[4], Fields(line)[5], None)]
  {
    var s := ls + [line];
    assert s[..|s| - 1] == ls && s[|s| - 1] == line;
  }

  /** A `uid` line read while a key is open sets that key's user id to
      field 9, replacing any earlier one; the other keys stay. */
  lemma KeysUid(ls: seq<string>, line: string)
    requires Readable(ls + [line]) && IsUid(line) && HasPub(ls)
    ensures Readable(ls) && |Keys(ls)| > 0
    ensures var ks := Keys(ls);
            Keys(ls + [line]) == ks[|ks| - 1 := ks[|ks| - 1].(uid := Some(Fields(line)[9]))]
  {
    ScanSnoc(ls, line);
    var st := ScanAll(ls);
    assert Keys(ls) == st.keys + [st.current.value];
  }

  /** The scan of one line more is one more step of the loop. */
  lemma ScanSnoc(ls: seq<string>, line: string)
    requires Readable(ls + [line])
    ensures Readable(ls)
    ensures ScanAll(ls + [line]) == ScanLine(ScanAll(ls), line)
  {
    var s := ls + [line];
    assert s[..|s| - 1] == ls && s[|s| - 1] == line;
  }

  /** Empty lines, record types other than `pub` and `uid`, and `uid` lines
      before the first key change nothing. */
  lemma KeysIgnored(ls: seq<string>, line: string)
    requires Readable(ls + [line]) && !IsPub(line) && !(IsUid(line) && HasPub(ls))
    ensures Readable(ls)
    ensures Keys(ls + [line]) == Keys(ls)
  {
    var s := ls + [line];
    assert s[..|s| - 1] == ls && s[|s| - 1] == line;
  }

  /** The `pub` lines of a listing, in order. */
  function PubLines(ls: seq<string>): seq<string> {
    if ls == [] then []
    else PubLines(ls[..|ls| - 1]) + (if IsPub(ls[|ls| - 1]) then [ls[|ls| - 1]] else [])
  }

  /** `list_keys` reports one key per `pub` line, in order, with that
      line's key id and creation date. */
  lemma {:induction false} KeysFollowPubLines(ls: seq<string>)
    requires Readable(ls)
    ensures |Keys(ls)| == |PubLines(ls)|
    ensures forall k :: 0 <= k < |Keys(ls)| ==>
              |Fields(PubLines(ls)[k])| >= 6
              && Keys(ls)[k].keyId == Fields(PubLines(ls)[k])[4]
              && Keys(ls)[k].created == Fields(PubLines(ls)[k])[5]
  {
    if ls != [] {
      var init, line := ls[..|ls| - 1], ls[|ls| - 1];
      assert ls == init + [line];
      KeysFollowPubLines(init);
      if IsPub(line) {
        KeysPub(init, line);
      } else if IsUid(line) && HasPub(init) {
        KeysUid(init, line);
      } else {
        KeysIgnored(init, line);
      }
    }
  }

  /** A listing without any `pub` line lists no keys. */
  lemma {:induction false} NoPubNoKeys(ls: seq<string>)
    requires Readable(ls)
    ensures Keys(ls) == [] <==> !HasPub(ls)
  {
    if ls != [] {
      var init := ls[..|ls| - 1];
      NoPubNoKeys(init);
    }
  }

  // ---------------------------------------------------------------------
  // encrypt and decrypt
  // ---------------------------------------------------------------------

  const GpgMissing := "GPG is not available on this system"
  const NoKeyConfigured := "No GPG key configured. Set DIANE_GPG_KEY or use --gpg-key"

  /** `e.stderr.decode() if e.stderr else str(e)`. */
  function Failure(stderr: string, summary: string): string {
    if stderr != "" then stderr else summary
  }

  /** `recipient or self.key_id`, with an empty string as no recipient. */
  function Recipient(gpg: Gpg, recipient: Option<string>): Option<string> {
    if recipient.Some? && recipient.value != "" then recipient
    else if gpg.keyId.Some? && gpg.keyId.value != "" then gpg.keyId
    else None
  }

  /** `encrypt(content, recipient)`: a missing gpg is reported before a
      missing key; it succeeds exactly when gpg is there, a recipient is
      known and gpg encrypts for it, and then answers with gpg's output. */
  function Encrypt(gpg: Gpg, content: string, recipient: Option<string>): (r: Reply)
    ensures !gpg.available ==> r == Reply(false, "GPG is not available on this system")
    ensures gpg.available && Recipient(gpg, recipient).None? ==>
              r == Reply(false, "No GPG key configured. Set DIANE_GPG_KEY or use --gpg-key")
    ensures r.ok <==> gpg.available && Recipient(gpg, recipient).Some?
                      && gpg.encryptFor(Recipient(gpg, recipient).value, content).Done?
    ensures r.ok ==> r.message == gpg.encryptFor(Recipient(gpg, recipient).value, content).output
  {
    if !gpg.available then Reply(false, GpgMissing)
    else
      match Recipient(gpg, recipient)
      case None => Reply(false, NoKeyConfigured)
      case Some(who) =>
        match gpg.encryptFor(who, content)
        case Done(out) => Reply(true, out)
        case Refused(e, s) => Reply(false, "Encryption failed: " + Failure(e, s))
  }

  /** `decrypt(encrypted_content)`: it succeeds exactly when gpg is there
      and decrypts the text, and then answers with the plaintext. */
  function Decrypt(gpg: Gpg, ciphertext: string): (r: Reply)
    ensures !gpg.available ==> r == Reply(false, "GPG is not available on this system")
    ensures r.ok <==> gpg.available && gpg.decryptWith(ciphertext).Done?
    ensures r.ok ==> r.message == gpg.decryptWith(ciphertext).output
    ensures gpg.available && !r.ok ==> "Decryption failed: " <= r.message
  {
    if !gpg.available then Reply(false, GpgMissing)
    else
      match gpg.decryptWith(ciphertext)
      case Done(out) => Reply(true, out)
      case Refused(e, s) =>
        var prefix := "Decryption failed: ";
        assert prefix <= prefix + Failure(e, s);
        Reply(false, prefix + Failure(e, s))
  }

  /** An explicit recipient wins over the configured key; with neither
      there is none. */
  lemma RecipientChoice(gpg: Gpg, recipient: Option<string>)
    ensures recipient.Some? && recipient.value != "" ==> Recipient(gpg, recipient) == recipient
    ensures Recipient(gpg, recipient).None? <==>
              (recipient.None? || recipient.value == "") && (gpg.keyId.None? || gpg.keyId.value == "")
    ensures Recipient(gpg, recipient).Some? ==> Recipient(gpg, recipient).value != ""
  {
  }

  // ---------------------------------------------------------------------
  // File names
  // ---------------------------------------------------------------------

  /** `name.rfind(c)`: the last position of `c`, or -1. */
  function RFind(s: string, c: char): (i: int)
    ensures -1 <= i < |s|
    ensures i >= 0 ==> s[i] == c
    ensures forall k :: i < k < |s| ==> s[k] != c
  {
    if s == [] then -1
    else if s[|s| - 1] == c then |s| - 1
    else RFind(s[..|s| - 1], c)
  }

  /** `PurePath.suffix`: from the last dot, unless that dot starts or ends
      the name. */
  function Suffix(name: string): (sfx: string)
    ensures sfx == "" || (|sfx| < |name| && sfx == name[|name| - |sfx|..] && sfx[0] == '.')
  {
    var i := RFind(name, '.');
    if 0 < i < |name| - 1 then name[i..] else ""
  }

  /** `PurePath.with_suffix(suffix)` for a non-empty name and a suffix that
      is empty or starts with a dot: the name ends in the new suffix, and
      what comes before it is the name without its old suffix. */
  function WithSuffix(name: string, suffix: string): (n: string)
    requires name != []
    ensures |n| >= |suffix| && n[|n| - |suffix|..] == suffix
    ensures n[..|n| - |suffix|] + Suffix(name) == name
  {
    var current := Suffix(name);
    SuffixIsTail(name);
    if current == "" then
      assert (name + suffix)[..|name|] == name;
      name + suffix
    else
      var stem := name[..|name| - |current|];
      assert (stem + suffix)[..|stem|] == stem;
      stem + suffix
  }

  /** `filepath.with_suffix(filepath.suffix + '.gpg')`. Encrypting `x.md`
      writes `x.md.gpg`: the name gains `.gpg`, whatever its suffix. */
  function EncryptedName(name: string): (n: string)
    requires name != []
    ensures n == name + ".gpg"
  {
    SuffixIsTail(name);
    var current := Suffix(name);
    if current != "" then
      assert name[..|name| - |current|] + (current + ".gpg") == (name[..|name| - |current|] + current) + ".gpg";
      WithSuffix(name, current + ".gpg")
    else WithSuffix(name, current + ".gpg")
  }

  /** The name `decrypt_file` writes: without `.gpg`, or with `.decrypted`
      before the suffix. */
  function DecryptedName(name: string): (n: string)
    requires name != []
    ensures Suffix(name) == ".gpg" ==> n + ".gpg" == name
    ensures Suffix(name) != ".gpg" ==> n == name[..|name| - |Suffix(name)|] + ".decrypted" + Suffix(name)
  {
    if Suffix(name) == ".gpg" then
      var n := WithSuffix(name, "");
      assert n[..|n|] == n;
      n
    else
      var sfx := ".decrypted" + Suffix(name);
      var n := WithSuffix(name, sfx);
      assert n == n[..|n| - |sfx|] + n[|n| - |sfx|..];
      n
  }

  /** The suffix runs from the last dot, and there is none exactly when no
      dot stands strictly inside the name or the name ends in a dot. */
  lemma SuffixAtLastDot(name: string)
    ensures Suffix(name) != "" ==> |Suffix(name)| >= 2 && Suffix(name)[0] == '.' && '.' !in Suffix(name)[1..]
    ensures Suffix(name) == "" <==>
              (forall k :: 0 < k < |name| - 1 ==> name[k] != '.') || (name != [] && name[|name| - 1] == '.')
  {
    var i := RFind(name, '.');
    if 0 < i < |name| - 1 {
      var sfx := name[i..];
      forall k | 0 <= k < |sfx| - 1
        ensures sfx[1..][k] != '.'
      {
        assert sfx[1..][k] == name[i + 1 + k];
      }
      assert name[i] == '.';
    }
  }

  lemma SuffixIsTail(name: string)
    ensures Suffix(name) != "" ==> name == name[..|name| - |Suffix(name)|] + Suffix(name)
  {
    var i := RFind(name, '.');
    if 0 < i < |name| - 1 {
      assert name == name[..i] + name[i..];
    }
  }

  lemma SuffixOfEncrypted(name: string)
    requires name != []
    ensures Suffix(name + ".gpg") == ".gpg"
  {
    var s := name + ".gpg";
    assert s[|name|] == '.' && s[|name| + 1] == 'g' && s[|name| + 2] == 'p' && s[|name| + 3] == 'g';
    assert RFind(s, '.') == |name|;
    assert s[|name|..] == ".gpg";
  }

  /** Decrypting the encrypted name gives back the original name. */
  lemma DecryptedEncryptedName(name: string)
    requires name != []
    ensures EncryptedName(name) != []
    ensures DecryptedName(EncryptedName(name)) == name
  {
    SuffixOfEncrypted(name);
    var s := name + ".gpg";
    assert s[..|s| - 4] == name;
  }

  /** Neither direction writes over the file it reads. */
  lemma NamesDiffer(name: string)
    requires name != []
    ensures EncryptedName(name) != name
    ensures DecryptedName(name) != name
  {
    var current := Suffix(name);
    if current == ".gpg" {
      assert |DecryptedName(name)| == |name| - 4;
    } else if current == "" {
      assert |DecryptedName(name)| == |name| + 10;
    } else {
      assert |DecryptedName(name)| == |name| + 10;
    }
  }

  // ---------------------------------------------------------------------
  // encrypt_file and decrypt_file
  // ---------------------------------------------------------------------

  /** The error texts opening, writing or removing a file raises with, by
      file name; a name not listed succeeds. */
  datatype Faults = Faults(read: map<string, string>, write: map<string, string>, unlink: map<string, string>)

  /** A reply and the files after an operation. */
  datatype FileEffect = FileEffect(reply: Reply, files: map<string, string>)

  /** `encrypt_file(filepath, recipient)` on the directory `files`:
      check, read in text mode, encrypt, write `<name>.gpg`, and only then
      remove the original. */
  function EncryptFileEffect(files: map<string, string>, faults: Faults, gpg: Gpg, name: string,
                             recipient: Option<string>): (e: FileEffect)
    requires name != []
    ensures name !in files ==> !e.reply.ok && e.files == files
    ensures e.reply.ok <==> name in files && name !in faults.read && Encrypt(gpg, ReadText(files[name]), recipient).ok
                            && EncryptedName(name) !in faults.write && name !in faults.unlink
  {
    if name !in files then FileEffect(Reply(false, "File not found: " + name), files)
    else if name in faults.read then FileEffect(Reply(false, "Failed to read file: " + faults.read[name]), files)
    else
      var r := Encrypt(gpg, ReadText(files[name]), recipient);
      if !r.ok then FileEffect(r, files)
      else
        var target := EncryptedName(name);
        if target in faults.write then
          FileEffect(Reply(false, "Failed to write encrypted file: " + faults.write[target]), files)
        else
          var written := files[target := r.message];
          if name in faults.unlink then
            FileEffect(Reply(false, "Failed to remove original file: " + faults.unlink[name]), written)
          else FileEffect(Reply(true, "Encrypted to " + target), written - {name})
  }

  /** `decrypt_file(filepath)`: check, read in text mode, decrypt, write
      the decrypted name, and only then remove the encrypted file. */
  function DecryptFileEffect(files: map<string, string>, faults: Faults, gpg: Gpg, name: string): (e: FileEffect)
    requires name != []
    ensures name !in files ==> !e.reply.ok && e.files == files
    ensures e.reply.ok <==> name in files && name !in faults.read && Decrypt(gpg, ReadText(files[name])).ok
                            && DecryptedName(name) !in faults.write && name !in faults.unlink
  {
    if name !in files then FileEffect(Reply(false, "File not found: " + name), files)
    else if name in faults.read then FileEffect(Reply(false, "Failed to read file: " + faults.read[name]), files)
    else
      var r := Decrypt(gpg, ReadText(files[name]));
      if !r.ok then FileEffect(r, files)
      else
        var target := DecryptedName(name);
        if target in faults.write then
          FileEffect(Reply(false, "Failed to write decrypted file: " + faults.write[target]), files)
        else
          var written := files[target := r.message];
          if name in faults.unlink then
            FileEffect(Reply(false, "Failed to remove encrypted file: " + faults.unlink[name]), written)
          else FileEffect(Reply(true, "Decrypted to " + target), written - {name})
  }

  /** `encrypt_file` never loses the record: the original goes only on
      success, once the ciphertext of its text-mode reading is in
      `<name>.gpg`; a failure leaves the original as it was; and no file
      but those two changes. */
  lemma EncryptFileSafe(files: map<string, string>, faults: Faults, gpg: Gpg, name: string, recipient: Option<string>)
    requires name != [] && name in files
    ensures var e := EncryptFileEffect(files, faults, gpg, name, recipient);
            var target := EncryptedName(name);
            && (name !in e.files ==> e.reply.ok && target in e.files
                                     && e.files[target] == Encrypt(gpg, ReadText(files[name]), recipient).message)
            && (!e.reply.ok ==> name in e.files && e.files[name] == files[name])
            && (e.reply.ok ==> e.files == files[target := Encrypt(gpg, ReadText(files[name]), recipient).message] - {name})
            && (forall n :: n != name && n != target ==> (n in e.files <==> n in files))
            && (forall n :: n != name && n != target && n in files ==> e.files[n] == files[n])
  {
    NamesDiffer(name);
    var target := EncryptedName(name);
    var m := Encrypt(gpg, ReadText(files[name]), recipient).message;
    var e := EncryptFileEffect(files, faults, gpg, name, recipient);
    EncryptFileOutcomes(files, faults, gpg, name, recipient);
    WriteThenRemove(files, name, target, m, e.files, e.reply.ok);
  }

  /** The three ways `encrypt_file` can end on an existing file. */
  lemma EncryptFileOutcomes(files: map<string, string>, faults: Faults, gpg: Gpg, name: string, recipient: Option<string>)
    requires name != [] && name in files
    ensures var e := EncryptFileEffect(files, faults, gpg, name, recipient);
            var written := files[EncryptedName(name) := Encrypt(gpg, ReadText(files[name]), recipient).message];
            || (e.files == files && !e.reply.ok)
            || (e.files == written && !e.reply.ok)
            || (e.files == written - {name} && e.reply.ok)
  {
  }

  /** `decrypt_file` removes the encrypted file only on success, once the
      plaintext of its text-mode reading is written; a failure leaves it as
      it was. */
  lemma DecryptFileSafe(files: map<string, string>, faults: Faults, gpg: Gpg, name: string)
    requires name != [] && name in files
    ensures var e := DecryptFileEffect(files, faults, gpg, name);
            var target := DecryptedName(name);
            && (name !in e.files ==> e.reply.ok && target in e.files && e.files[target] == Decrypt(gpg, ReadText(files[name])).message)
            && (!e.reply.ok ==> name in e.files && e.files[name] == files[name])
            && (e.reply.ok ==> e.files == files[target := Decrypt(gpg, ReadText(files[name])).message] - {name})
            && (forall n :: n != name && n != target ==> (n in e.files <==> n in files))
            && (forall n :: n != name && n != target && n in files ==> e.files[n] == files[n])
  {
    NamesDiffer(name);
    var target := DecryptedName(name);
    var m := Decrypt(gpg, ReadText(files[name])).message;
    var e := DecryptFileEffect(files, faults, gpg, name);
    DecryptFileOutcomes(files, faults, gpg, name);
    WriteThenRemove(files, name, target, m, e.files, e.reply.ok);
  }

  /** The three ways `decrypt_file` can end on an existing file. */
  lemma DecryptFileOutcomes(files: map<string, string>, faults: Faults, gpg: Gpg, name: string)
    requires name != [] && name in files
    ensures var e := DecryptFileEffect(files, faults, gpg, name);
            var written := files[DecryptedName(name) := Decrypt(gpg, ReadText(files[name])).message];
            || (e.files == files && !e.reply.ok)
            || (e.files == written && !e.reply.ok)
            || (e.files == written - {name} && e.reply.ok)
  {
  }

  /** Writing `target` and only then removing `name`: whichever step is
      the last to succeed, `name` is kept or `target` holds the new text,
      and no other file changes. */
  lemma WriteThenRemove(files: map<string, string>, name: string, target: string, m: string,
                        out: map<string, string>, ok: bool)
    requires name in files && name != target
    requires || (out == files && !ok)
             || (out == files[target := m] && !ok)
             || (out == files[target := m] - {name} && ok)
    ensures name !in out ==> ok && target in out && out[target] == m
    ensures !ok ==> name in out && out[name] == files[name]
    ensures ok ==> out == files[target := m] - {name}
    ensures forall n :: n != name && n != target ==> (n in out <==> n in files)
    ensures forall n :: n != name && n != target && n in files ==> out[n] == files[n]
  {
  }

  /** Encrypting a file and then decrypting what was written restores the
      directory, with the file's text as a text-mode read gives it, when
      gpg's decryption inverts its encryption, no file operation fails and
      `<name>.gpg` was not already taken. gpg's armored output ends its
      lines in `\n`, so it holds no `\r`. A file without a carriage return
      comes back exactly. */
  lemma EncryptDecryptRoundTrip(files: map<string, string>, faults: Faults, gpg: Gpg, name: string,
                                recipient: Option<string>, ciphertext: string)
    requires name != [] && name in files && name + ".gpg" !in files
    requires name !in faults.read && name !in faults.write && name !in faults.unlink
    requires name + ".gpg" !in faults.read && name + ".gpg" !in faults.write && name + ".gpg" !in faults.unlink
    requires gpg.available && Recipient(gpg, recipient).Some?
    requires gpg.encryptFor(Recipient(gpg, recipient).value, ReadText(files[name])) == Done(ciphertext)
    requires '\r' !in ciphertext && gpg.decryptWith(ciphertext) == Done(ReadText(files[name]))
    ensures EncryptedName(name) == name + ".gpg"
    ensures var e := EncryptFileEffect(files, faults, gpg, name, recipient);
            var d := DecryptFileEffect(e.files, faults, gpg, name + ".gpg");
            && e.reply == Reply(true, "Encrypted to " + name + ".gpg")
            && d.reply == Reply(true, "Decrypted to " + name)
            && d.files == files[name := ReadText(files[name])]
            && ('\r' !in files[name] ==> d.files == files)
  {
    DecryptedEncryptedName(name);
    ReadTextIdentity(ciphertext);
    RoundTripSteps(files, faults, gpg, name, recipient, ciphertext, name + ".gpg");
    AppendAssoc("Encrypted to ", name, ".gpg");
    ReadBackExactly(files, name);
  }

  /** A file without a carriage return reads back as itself. */
  lemma ReadBackExactly(files: map<string, string>, name: string)
    requires name in files
    ensures '\r' !in files[name] ==> files[name := ReadText(files[name])] == files
  {
    ReadTextIdentity(files[name]);
    if '\r' !in files[name] {
      assert files[name := files[name]] == files;
    }
  }

  /** The round trip with the encrypted file's name given. */
  lemma RoundTripSteps(files: map<string, string>, faults: Faults, gpg: Gpg, name: string,
                       recipient: Option<string>, ciphertext: string, target: string)
    requires name != [] && name in files && target !in files && target != []
    requires EncryptedName(name) == target && DecryptedName(target) == name
    requires name !in faults.read && name !in faults.write && name !in faults.unlink
    requires target !in faults.read && target !in faults.write && target !in faults.unlink
    requires gpg.available && Recipient(gpg, recipient).Some?
    requires gpg.encryptFor(Recipient(gpg, recipient).value, ReadText(files[name])) == Done(ciphertext)
    requires gpg.decryptWith(ReadText(ciphertext)) == Done(ReadText(files[name]))
    ensures var e := EncryptFileEffect(files, faults, gpg, name, recipient);
            var d := DecryptFileEffect(e.files, faults, gpg, target);
            e.reply == Reply(true, "Encrypted to " + target)
            && d.reply == Reply(true, "Decrypted to " + name)
            && d.files == files[name := ReadText(files[name])]
  {
    var moved := files[target := ciphertext] - {name};
    EncryptSucceeds(files, faults, gpg, name, recipient, ciphertext);
    MoveBack(files, name, target, ciphertext, ReadText(files[name]));
    DecryptSucceeds(moved, faults, gpg, target, ReadText(files[name]));
  }

  /** The successful path of `encrypt_file`. */
  lemma EncryptSucceeds(files: map<string, string>, faults: Faults, gpg: Gpg, name: string,
                        recipient: Option<string>, ciphertext: string)
    requires name != [] && name in files
    requires name !in faults.read && name !in faults.unlink && EncryptedName(name) !in faults.write
    requires gpg.available && Recipient(gpg, recipient).Some?
    requires gpg.encryptFor(Recipient(gpg, recipient).value, ReadText(files[name])) == Done(ciphertext)
    ensures EncryptFileEffect(files, faults, gpg, name, recipient)
            == FileEffect(Reply(true, "Encrypted to " + EncryptedName(name)), files[EncryptedName(name) := ciphertext] - {name})
  {
    assert Encrypt(gpg, ReadText(files[name]), recipient) == Reply(true, ciphertext);
  }

  /** The successful path of `decrypt_file`. */
  lemma DecryptSucceeds(files: map<string, string>, faults: Faults, gpg: Gpg, name: string, plaintext: string)
    requires name != [] && name in files
    requires name !in faults.read && name !in faults.unlink && DecryptedName(name) !in faults.write
    requires gpg.available && gpg.decryptWith(ReadText(files[name])) == Done(plaintext)
    ensures DecryptFileEffect(files, faults, gpg, name)
            == FileEffect(Reply(true, "Decrypted to " + DecryptedName(name)), files[DecryptedName(name) := plaintext] - {name})
  {
    assert Decrypt(gpg, ReadText(files[name])) == Reply(true, plaintext);
  }

  /** Moving a file's text to a fresh name puts it there; moving it back
      leaves the map as it was, but for what the file now holds. */
  lemma MoveBack(files: map<string, string>, name: string, target: string, text: string, back: string)
    requires name in files && target !in files
    ensures target in files[target := text] - {name} && (files[target := text] - {name})[target] == text
    ensures (files[target := text] - {name})[name := back] - {target} == files[name := back]
  {
    var m := (files[target := text] - {name})[name := back] - {target};
    assert m.Keys == files[name := back].Keys;
  }

  /** A directory of files that `encrypt_file` and `decrypt_file` change in
      place. */
  class Directory {
    var files: map<string, string>
    const faults: Faults

    constructor (initial: map<string, string>, faults: Faults)
      ensures files == initial && this.faults == faults
    {
      files := initial;
      this.faults := faults;
    }

    method EncryptFile(gpg: Gpg, name: string, recipient: Option<string>) returns (ok: bool, message: string)
      requires name != []
      modifies this
      ensures var e := EncryptFileEffect(old(files), faults, gpg, name, recipient);
              Reply(ok, message) == e.reply && files == e.files
    {
      if name !in files {
        return false, "File not found: " + name;
      }
      if name in faults.read {
        return false, "Failed to read file: " + faults.read[name];
      }
      var content := ReadText(files[name]);
      var r := Encrypt(gpg, content, recipient);
      if !r.ok {
        return false, r.message;
      }
      var target := EncryptedName(name);
      if target in faults.write {
        return false, "Failed to write encrypted file: " + faults.write[target];
      }
      files := files[target := r.message];
      if name in faults.unlink {
        return false, "Failed to remove original file: " + faults.unlink[name];
      }
      files := files - {name};
      return true, "Encrypted to " + target;
    }

    method DecryptFile(gpg: Gpg, name: string) returns (ok: bool, message: string)
      requires name != []
      modifies this
      ensures var e := DecryptFileEffect(old(files), faults, gpg, name);
              Reply(ok, message) == e.reply && files == e.files
    {
      if name !in files {
        return false, "File not found: " + name;
      }
      if name in faults.read {
        return false, "Failed to read file: " + faults.read[name];
      }
      var ciphertext := ReadText(files[name]);
      var r := Decrypt(gpg, ciphertext);
      if !r.ok {
        return false, r.message;
      }
      var target := DecryptedName(name);
      if target in faults.write {
        return false, "Failed to write decrypted file: " + faults.write[target];
      }
      files := files[target := r.message];
      if name in faults.unlink {
        return false, "Failed to remove encrypted file: " + faults.unlink[name];
      }
      files := files - {name};
      return true, "Decrypted to " + target;
    }
  }
}

=== FILE: record.dfy ===
/**
 * A diane record and its file form: construction, the `---`-delimited
 * header plus body (`to_frontmatter`/`to_markdown`), reading a file's text
 * back (`from_file`), and the file name (`get_filename`).
 *
 * The YAML header is modelled as the line-oriented key/value form the
 * encoder writes: `key: value`, `key:` (null, or the head of a block list),
 * `- item` lines, and the flow list `[a, b]`. Quoting is abstracted away:
 * labels are written verbatim, where the YAML dumper would quote some of
 * them (numbers, `yes`, text holding `: ` or starting with `#` or a quote),
 * and loading reads them back as the same text.
 */
module Records {
  import opened Wrappers
  import opened Text
  import opened Lex
  import opened Clock

  datatype Record = Record(content: string, timestamp: DateTime, sources: seq<string>, audioFile: Option<string>)

  /** `Record(content, timestamp, sources, audio_file)` with `now` standing
      for `datetime.now()`: the content is stripped, a missing timestamp
      becomes `now`, and missing or empty sources become `["stdin"]`. */
  function NewRecord(content: string, timestamp: Option<DateTime>, sources: Option<seq<string>>,
                     audioFile: Option<string>, now: DateTime): (r: Record)
    ensures r.content == Strip(content)
    ensures IsStripped(r.content) && |r.content| <= |content|
    ensures IsStripped(content) ==> r.content == content
    ensures |r.sources| > 0
    ensures sources.Some? && sources.value != [] ==> r.sources == sources.value
    ensures sources.None? || sources.value == [] ==> r.sources == ["stdin"]
    ensures timestamp.Some? ==> r.timestamp == timestamp.value
    ensures timestamp.None? ==> r.timestamp == now
    ensures r.audioFile == audioFile
  {
    var src := if sources.Some? && sources.value != [] then sources.value else ["stdin"];
    Record(Strip(content), timestamp.GetOr(now), src, audioFile)
  }

  /** What every constructed record satisfies (given a valid time). */
  predicate WellFormed(r: Record) {
    IsStripped(r.content) && |r.sources| > 0 && Valid(r.timestamp)
  }

  // ---------------------------------------------------------------------
  // Encoding
  // ---------------------------------------------------------------------

  /** A label the header can carry verbatim: non-empty, on one line (no
      `\n`, and no `\r`, which the dumper would escape and a text-mode
      read would turn into a line break), and not opening a flow list with
      `[`. */
  predicate LineLabel(s: string) {
    |s| > 0 && '\n' !in s && '\r' !in s && s[0] != '['
  }

  /** A one-line label that does not end in `-`, so no line of the header
      can end in the `---` delimiter (`DashEndedSourceSplitsHeader` shows
      what a label ending in `---` does). */
  predicate PlainLabel(s: string) {
    LineLabel(s) && s[|s| - 1] != '-'
  }

  /** `if self.audio_file:` -- an empty path counts as absent. */
  predicate HasAudio(r: Record) {
    r.audioFile.Some? && r.audioFile.value != ""
  }

  /** A record whose labels all fit on one header line. */
  predicate LineEncodable(r: Record) {
    && WellFormed(r)
    && (forall k :: 0 <= k < |r.sources| ==> LineLabel(r.sources[k]))
    && (HasAudio(r) ==> LineLabel(r.audioFile.value))
  }

  /** A record whose labels are plain as well: none ends in `-`. */
  predicate Encodable(r: Record) {
    && WellFormed(r)
    && (forall k :: 0 <= k < |r.sources| ==> PlainLabel(r.sources[k]))
    && (HasAudio(r) ==> PlainLabel(r.audioFile.value))
  }

  function ItemLines(xs: seq<string>): (ls: seq<string>)
    ensures |ls| == |xs|
  {
    if xs == [] then [] else ["- " + xs[0]] + ItemLines(xs[1..])
  }

  lemma {:induction false} ItemLinesAt(xs: seq<string>, k: nat)
    requires k < |xs|
    ensures ItemLines(xs)[k] == "- " + xs[k]
  {
    if k > 0 {
      ItemLinesAt(xs[1..], k - 1);
    }
  }

  /** The header lines: the minute-precision timestamp, the sources as a
      block list (an empty list is written `[]`), and `audio` only when the
      record has one. */
  function HeaderLines(r: Record): seq<string>
    requires Valid(r.timestamp)
  {
    ["timestamp: " + FormatMinute(r.timestamp)]
    + (if r.sources == [] then ["sources: []"] else ["sources:"] + ItemLines(r.sources))
    + (if HasAudio(r) then ["audio: " + r.audioFile.value] else [])
  }

  /** `to_frontmatter()`: the header lines, each ended by a newline. The
      header of a record whose labels are one-line texts holds no line that
      is exactly the delimiter. */
  function ToFrontmatter(r: Record): (h: string)
    requires Valid(r.timestamp)
    ensures h != [] && h[|h| - 1] == '\n'
    ensures LineEncodable(r) ==> NoDelimiterLine(h)
  {
    TerminatedLast(HeaderLines(r));
    if LineEncodable(r) then
      HeaderLinesShape(r);
      TerminatedNoDelimiter(HeaderLines(r));
      Terminated(HeaderLines(r), '\n')
    else Terminated(HeaderLines(r), '\n')
  }

  /** `to_markdown()`: delimiter, header, delimiter, a blank line, the
      content and a final newline. For one-line labels, the first
      delimiter line after the opening one is the one that follows the
      header. */
  function ToMarkdown(r: Record): (s: string)
    requires Valid(r.timestamp)
    ensures "---\n" <= s && s[|s| - 1] == '\n'
    ensures LineEncodable(r) ==> Find(s, "\n---\n", 3) == Some(3 + |ToFrontmatter(r)|)
  {
    var h := ToFrontmatter(r);
    if LineEncodable(r) then
      ClosingAfterHeader(h, r.content);
      "---\n" + h + "---\n\n" + r.content + "\n"
    else "---\n" + h + "---\n\n" + r.content + "\n"
  }

  /** The encoder's layout around a header with no delimiter line. */
  lemma ClosingAfterHeader(h: string, content: string)
    requires NoDelimiterLine(h) && h != [] && h[|h| - 1] == '\n'
    ensures var s := "---\n" + h + "---\n\n" + content + "\n";
            "---\n" <= s && s[|s| - 1] == '\n' && Find(s, "\n---\n", 3) == Some(3 + |h|)
  {
    var body := "\n" + content + "\n";
    assert "---\n" + h + "---\n\n" + content + "\n" == "---\n" + h + "---\n" + body;
    ClosingLine(h, body);
  }

  // ---------------------------------------------------------------------
  // Decoding the header
  // ---------------------------------------------------------------------

  /** A header value after loading: null, a string, or a list of strings. */
  datatype Value = Null | Scalar(text: string) | List(items: seq<string>)

  /** The loader's state after some lines: the mapping so far, the key a
      `- item` line would extend, and whether the text failed to load. */
  datatype HeaderState = HeaderState(entries: map<string, Value>, open: Option<string>, failed: bool)

  const EmptyHeader := HeaderState(map[], None, false)

  /** `key: value` (cut at the first `": "`) or `key:`. */
  function KeyValue(line: string): Option<(string, string)> {
    match Find(line, ": ", 0)
    case Some(i) => Some((line[..i], line[i + 2..]))
    case None => if line != [] && line[|line| - 1] == ':' then Some((line[..|line| - 1], "")) else None
  }

  /** The items of a flow list `[a, b]`, each stripped. */
  function FlowItems(inner: string): seq<string> {
    if AllSpace(inner) then [] else StripAll(Split(inner, ','))
  }

  function StripAll(xs: seq<string>): seq<string> {
    if xs == [] then [] else [Strip(xs[0])] + StripAll(xs[1..])
  }

  function ItemsOf(v: Value): seq<string> {
    if v.List? then v.items else []
  }

  function ValueOf(v: string): Value {
    if v == "" then Null
    else if |v| >= 2 && v[0] == '[' && v[|v| - 1] == ']' then List(FlowItems(v[1..|v| - 1]))
    else Scalar(v)
  }

  /** One header line. Blank lines are skipped; an item extends the open
      key's list; any other line must be a key. */
  function HeaderStep(st: HeaderState, line: string): HeaderState {
    if st.failed || line == "" then st
    else if "- " <= line then
      match st.open
      case None => st.(failed := true)
      case Some(k) =>
        var v := if k in st.entries then st.entries[k] else Null;
        st.(entries := st.entries[k := List(ItemsOf(v) + [line[2..]])])
    else
      match KeyValue(line)
      case None => st.(failed := true)
      case Some((k, v)) => st.(entries := st.entries[k := ValueOf(v)], open := if v == "" then Some(k) else None)
  }

  function ParseLines(st: HeaderState, lines: seq<string>): HeaderState
    decreases lines
  {
    if lines == [] then st else ParseLines(HeaderStep(st, lines[0]), lines[1..])
  }

  /** `yaml.safe_load(header)` followed by the `.get` calls: `None` where
      the text is not a mapping (it fails to load, or holds no key at all,
      which makes `.get` raise). */
  function ParseHeader(text: string): Option<map<string, Value>> {
    var st := ParseLines(EmptyHeader, Split(text, '\n'));
    if st.failed || st.entries == map[] then None else Some(st.entries)
  }

  // ---------------------------------------------------------------------
  // from_file
  // ---------------------------------------------------------------------

  /** `metadata.get('timestamp', '')` through `strptime`: a string that does
      not parse falls back to `now` (a missing key reads as `''`, which does
      not parse); a null or a list raises `TypeError`. */
  function HeaderTimestamp(m: map<string, Value>, now: DateTime): Option<DateTime> {
    if "timestamp" !in m then Some(now)
    else match m["timestamp"]
      case Scalar(s) => Some(ParseMinute(s).GetOr(now))
      case _ => None
  }

  /** `metadata.get('sources', ['stdin'])`; null passes on as `None`. A
      scalar `sources` loads as a string, which `from_file` would keep as
      the record's sources; a `Record` here holds a list, so this model
      yields `None` for it instead, and the listing and the search skip the
      file. */
  function HeaderSources(m: map<string, Value>): Option<Option<seq<string>>> {
    if "sources" !in m then Some(Some(["stdin"]))
    else match m["sources"]
      case Null => Some(None)
      case List(xs) => Some(Some(xs))
      case Scalar(_) => None
  }

  /** `metadata.get('audio')`. A list `audio`, which `from_file` would keep
      as the audio path, yields `None` here, as a scalar `sources` does. */
  function HeaderAudio(m: map<string, Value>): Option<Option<string>> {
    if "audio" !in m then Some(None)
    else match m["audio"]
      case Null => Some(None)
      case Scalar(a) => Some(Some(a))
      case List(_) => None
  }

  /** The record a loaded header and the text after it describe. */
  function FromHeader(header: string, body: string, now: DateTime): Option<Record> {
    match ParseHeader(header)
    case None => None
    case Some(m) =>
      var ts := HeaderTimestamp(m, now);
      var src := HeaderSources(m);
      var audio := HeaderAudio(m);
      if ts.Some? && src.Some? && audio.Some? then Some(NewRecord(body, ts, src.value, audio.value, now))
      else None
  }

  /** The parse of `Record.from_file` as written, on the text it read:
      `None` where it raises. A decoded record has stripped content and at
      least one source, and a text that does not open with the delimiter is
      all content. */
  function Decode(text: string, now: DateTime): (r: Option<Record>)
    ensures r.Some? ==> IsStripped(r.value.content) && r.value.sources != []
    ensures !("---\n" <= text) ==> r == Some(Record(Strip(text), now, ["stdin"], None))
  {
    var parts := SplitTwice(text, "---\n");
    if "---\n" <= text && |parts| >= 3 then FromHeader(parts[1], parts[2], now)
    else Some(NewRecord(text, None, None, None, now))
  }

  /** Text without a complete header (no leading delimiter, or no second
      one) is the whole stripped text with default metadata. */
  lemma DecodeWithoutHeader(text: string, now: DateTime)
    requires !("---\n" <= text) || Find(text, "---\n", 4).None?
    ensures Decode(text, now) == Some(Record(Strip(text), now, ["stdin"], None))
  {
    if "---\n" <= text {
      FindAt(text, "---\n", 0, 0);
      SplitTwiceOnce(text, "---\n", 0);
    }
  }

  /** A header whose timestamp is missing or does not parse yields a record
      stamped `now` rather than an error; one that parses yields that time. */
  lemma HeaderTimestampFallback(header: string, body: string, now: DateTime)
    requires FromHeader(header, body, now).Some?
    ensures var m := ParseHeader(header).value;
            var ts := FromHeader(header, body, now).value.timestamp;
            && ("timestamp" !in m ==> ts == now)
            && ("timestamp" in m ==> m["timestamp"].Scalar?)
            && ("timestamp" in m && ParseMinute(m["timestamp"].text).None? ==> ts == now)
            && ("timestamp" in m && ParseMinute(m["timestamp"].text).Some? ==> ts == ParseMinute(m["timestamp"].text).value)
  {
  }

  // ---------------------------------------------------------------------
  // The round trip
  // ---------------------------------------------------------------------

  /** Every newline of `h` follows a character that is not `-`. */
  predicate NoDashBeforeNewline(h: string) {
    forall i :: 0 <= i < |h| && h[i] == '\n' ==> i > 0 && h[i - 1] != '-'
  }

  lemma {:induction false} TerminatedNoDash(ls: seq<string>)
    requires forall k :: 0 <= k < |ls| ==> ls[k] != [] && '\n' !in ls[k] && ls[k][|ls[k]| - 1] != '-'
    ensures NoDashBeforeNewline(Terminated(ls, '\n'))
  {
    if ls != [] {
      TerminatedNoDash(ls[1..]);
      var h := Terminated(ls, '\n');
      var rest := Terminated(ls[1..], '\n');
      var n := |ls[0]|;
      assert h == ls[0] + ['\n'] + rest;
      forall i | 0 <= i < |h|
        ensures h[i] == '\n' ==> i > 0 && h[i - 1] != '-'
      {
        if i < n {
          assert h[i] == ls[0][i];
        } else if i > n {
          assert h[i] == rest[i - n - 1];
          if i - n - 1 > 0 {
            assert h[i - 1] == rest[i - n - 2];
          }
        }
      }
    }
  }

  /** The header of an encodable record holds no delimiter, so the second
      delimiter of the file is the one after the header. */
  lemma SecondDelimiter(h: string, body: string)
    requires NoDashBeforeNewline(h)
    ensures Find("---\n" + h + "---\n" + body, "---\n", 4) == Some(4 + |h|)
  {
    var text := "---\n" + h + "---\n" + body;
    assert text[4 + |h|..4 + |h| + 4] == "---\n";
    forall j | 4 <= j < 4 + |h|
      ensures !("---\n" <= text[j..])
    {
      if j + 3 < 4 + |h| {
        assert text[j + 3] == h[j - 1];
        if h[j - 1] == '\n' {
          assert text[j + 2] == h[j - 2];
        }
      } else {
        assert text[j + 3] == "---\n"[j + 3 - 4 - |h|];
      }
    }
    FindAt(text, "---\n", 4, 4 + |h|);
  }

  lemma {:induction false} ParseLinesAppend(st: HeaderState, a: seq<string>, b: seq<string>)
    ensures ParseLines(st, a + b) == ParseLines(ParseLines(st, a), b)
    decreases a
  {
    if a != [] {
      assert (a + b)[1..] == a[1..] + b;
      ParseLinesAppend(HeaderStep(st, a[0]), a[1..], b);
    } else {
      assert a + b == b;
    }
  }

  lemma KeyLine(key: string, v: string)
    requires key != [] && ':' !in key
    ensures KeyValue(key + ": " + v) == Some((key, v))
  {
    var line := key + ": " + v;
    var n := |key|;
    assert line[n..n + 2] == ": ";
    forall j | 0 <= j < n
      ensures !(": " <= line[j..])
    {
      assert line[j] == key[j];
    }
    FindAt(line, ": ", 0, n);
    assert line[..n] == key && line[n + 2..] == v;
  }

  lemma KeyStep(st: HeaderState, key: string, v: string)
    requires !st.failed && key != [] && ':' !in key && key[0] != '-'
    ensures HeaderStep(st, key + ": " + v) ==
            st.(entries := st.entries[key := ValueOf(v)], open := if v == "" then Some(key) else None)
  {
    var line := key + ": " + v;
    assert line[0] == key[0];
    assert !("- " <= line);
    KeyLine(key, v);
  }

  /** The value a `- item` line would extend. */
  function OpenValue(st: HeaderState, key: string): Value {
    if key in st.entries then st.entries[key] else Null
  }

  lemma OpenStep(st: HeaderState, key: string)
    requires !st.failed && key != [] && ' ' !in key && key[0] != '-'
    ensures HeaderStep(st, key + ":") == st.(entries := st.entries[key := Null], open := Some(key))
  {
    var line := key + ":";
    assert line[0] == key[0];
    assert !("- " <= line);
    forall j | 0 <= j <= |line| - 2
      ensures !(": " <= line[j..])
    {
      if j + 1 < |key| {
        assert line[j + 1] == key[j + 1];
      } else {
        assert line[j + 1] == ':';
      }
    }
    FindNone(line, ": ", 0);
    assert line[..|line| - 1] == key;
  }

  lemma ItemStep(st: HeaderState, key: string, x: string)
    requires !st.failed && st.open == Some(key)
    ensures HeaderStep(st, "- " + x) == st.(entries := st.entries[key := List(ItemsOf(OpenValue(st, key)) + [x])])
  {
    var line := "- " + x;
    assert "- " <= line && line != "" && line[2..] == x;
  }

  lemma ParseLinesCons(st: HeaderState, x: string, rest: seq<string>)
    ensures ParseLines(st, [x] + rest) == ParseLines(HeaderStep(st, x), rest)
  {
    assert ([x] + rest)[1..] == rest;
  }

  /** Loading the item lines of a list opened by `key:`. */
  lemma {:induction false} ParseItems(st: HeaderState, key: string, xs: seq<string>)
    requires !st.failed && st.open == Some(key) && xs != []
    ensures ParseLines(st, ItemLines(xs)) == st.(entries := st.entries[key := List(ItemsOf(OpenValue(st, key)) + xs)])
    decreases xs
  {
    var items := ItemsOf(OpenValue(st, key));
    var st' := st.(entries := st.entries[key := List(items + [xs[0]])]);
    ItemStep(st, key, xs[0]);
    assert ItemLines(xs) == ["- " + xs[0]] + ItemLines(xs[1..]);
    ParseLinesCons(st, "- " + xs[0], ItemLines(xs[1..]));
    if xs[1..] != [] {
      assert ParseLines(st, ItemLines(xs)) == ParseLines(st', ItemLines(xs[1..]));
      ParseItems(st', key, xs[1..]);
      assert OpenValue(st', key) == List(items + [xs[0]]);
      AppendHead(items, xs);
      assert st'.entries[key := List(items + [xs[0]] + xs[1..])] == st.entries[key := List(items + xs)];
    } else {
      assert [xs[0]] == xs;
    }
  }

  function EncodedEntries(r: Record): map<string, Value>
    requires Valid(r.timestamp)
  {
    var base := map["timestamp" := Scalar(FormatMinute(r.timestamp)), "sources" := List(r.sources)];
    if HasAudio(r) then base["audio" := Scalar(r.audioFile.value)] else base
  }

  /** Every header line is a non-empty line of its own, and none is the
      delimiter line `---`. */
  lemma HeaderLinesShape(r: Record)
    requires LineEncodable(r)
    ensures forall k :: 0 <= k < |HeaderLines(r)| ==>
              HeaderLines(r)[k] != [] && '\n' !in HeaderLines(r)[k] && '\r' !in HeaderLines(r)[k]
              && HeaderLines(r)[k] != "---"
  {
    var ls := HeaderLines(r);
    var ts := "timestamp: " + FormatMinute(r.timestamp);
    TimestampLine(r.timestamp);
    forall k | 0 <= k < |ls|
      ensures ls[k] != [] && '\n' !in ls[k] && '\r' !in ls[k] && ls[k] != "---"
    {
      if k == 0 {
        assert ls[0] == ts && ts[0] == 't';
      } else if k <= |r.sources| + 1 {
        if k >= 2 {
          ItemLinesAt(r.sources, k - 2);
          assert ls[k] == "- " + r.sources[k - 2] && ls[k][1] == ' ';
        }
      } else {
        assert ls[k] == "audio: " + r.audioFile.value && ls[k][0] == 'a';
      }
    }
  }

  /** With plain labels, no header line ends in `-`. */
  lemma HeaderLinesDashFree(r: Record)
    requires Encodable(r)
    ensures forall k :: 0 <= k < |HeaderLines(r)| ==>
              HeaderLines(r)[k] != [] && '\n' !in HeaderLines(r)[k] && HeaderLines(r)[k][|HeaderLines(r)[k]| - 1] != '-'
  {
    var ls := HeaderLines(r);
    var ts := "timestamp: " + FormatMinute(r.timestamp);
    assert ts[|ts| - 1] == FormatMinute(r.timestamp)[15];
    assert FormatMinute(r.timestamp)[15] == Digits(r.timestamp.minute, 2)[1];
    forall k | 0 <= k < |ls|
      ensures ls[k] != [] && '\n' !in ls[k] && ls[k][|ls[k]| - 1] != '-'
    {
      if k == 0 {
        assert ls[0] == ts;
        assert '\n' !in FormatMinute(r.timestamp);
      } else if k <= |r.sources| + 1 {
        if k >= 2 {
          ItemLinesAt(r.sources, k - 2);
          assert ls[k] == "- " + r.sources[k - 2];
        }
      } else {
        assert ls[k] == "audio: " + r.audioFile.value;
      }
    }
  }

  lemma FormatMinuteHead(t: DateTime)
    requires Valid(t)
    ensures FormatMinute(t)[0] != '['
  {
    var y := Digits(t.year, 4);
    var s1 := y + "-";
    var s2 := s1 + Digits(t.month, 2);
    var s3 := s2 + "-";
    var s4 := s3 + Digits(t.day, 2);
    var s5 := s4 + " ";
    var s6 := s5 + Digits(t.hour, 2);
    var s7 := s6 + ":";
    assert FormatMinute(t) == s7 + Digits(t.minute, 2);
    assert s7[0] == s6[0] == s5[0] == s4[0] == s3[0] == s2[0] == s1[0] == y[0];
    assert IsDigit(y[0]);
  }

  /** The first two lines: the timestamp, and `sources:` opening a list. */
  lemma ParseFirstTwo(t: string)
    requires t != [] && t[0] != '['
    ensures ParseLines(EmptyHeader, ["timestamp: " + t, "sources:"])
            == HeaderState(map["timestamp" := Scalar(t), "sources" := Null], Some("sources"), false)
  {
    ParseKeyThenOpen("timestamp", t, "sources");
    assert "timestamp" + ": " + t == "timestamp: " + t;
    assert "sources" + ":" == "sources:";
  }

  /** A `key: value` line, then a `key:` line that opens a list. */
  lemma ParseKeyThenOpen(k1: string, v: string, k2: string)
    requires k1 != [] && ':' !in k1 && k1[0] != '-'
    requires k2 != [] && ' ' !in k2 && k2[0] != '-'
    requires v != [] && v[0] != '['
    ensures ParseLines(EmptyHeader, [k1 + ": " + v, k2 + ":"])
            == HeaderState(map[k1 := Scalar(v), k2 := Null], Some(k2), false)
  {
    var line1 := k1 + ": " + v;
    KeyStep(EmptyHeader, k1, v);
    var st1 := HeaderStep(EmptyHeader, line1);
    assert st1 == HeaderState(map[k1 := Scalar(v)], None, false);
    OpenStep(st1, k2);
    ParseLinesCons(EmptyHeader, line1, [k2 + ":"]);
    ParseLinesCons(st1, k2 + ":", []);
  }

  /** The first two lines and the source items. */
  lemma ParseTimestampAndSources(t: string, xs: seq<string>)
    requires t != [] && t[0] != '[' && xs != []
    ensures ParseLines(EmptyHeader, ["timestamp: " + t, "sources:"] + ItemLines(xs))
            == HeaderState(map["timestamp" := Scalar(t), "sources" := List(xs)], Some("sources"), false)
  {
    var st2 := HeaderState(map["timestamp" := Scalar(t), "sources" := Null], Some("sources"), false);
    ParseFirstTwo(t);
    ParseItems(st2, "sources", xs);
    ParseLinesAppend(EmptyHeader, ["timestamp: " + t, "sources:"], ItemLines(xs));
    assert OpenValue(st2, "sources") == Null;
    assert [] + xs == xs;
    assert st2.entries["sources" := List(xs)] == map["timestamp" := Scalar(t), "sources" := List(xs)];
  }

  /** The `audio` line followed by the empty piece after the last newline. */
  lemma ParseAudioLine(st: HeaderState, a: string)
    requires !st.failed && LineLabel(a)
    ensures ParseLines(st, ["audio: " + a, []]) == st.(entries := st.entries["audio" := Scalar(a)], open := None)
  {
    KeyStep(st, "audio", a);
    assert "audio" + ": " + a == "audio: " + a;
    assert ValueOf(a) == Scalar(a);
    ParseLinesCons(st, "audio: " + a, [[]]);
  }

  /** The pieces of the header text: the lines before the audio line, and
      what follows them. */
  function HeaderTail(r: Record): seq<string> {
    if HasAudio(r) then ["audio: " + r.audioFile.value, []] else [[]]
  }

  lemma HeaderPieces(r: Record)
    requires Valid(r.timestamp) && r.sources != []
    ensures HeaderLines(r) + [[]] == (["timestamp: " + FormatMinute(r.timestamp), "sources:"] + ItemLines(r.sources)) + HeaderTail(r)
  {
    var t := FormatMinute(r.timestamp);
    var front := ["timestamp: " + t, "sources:"] + ItemLines(r.sources);
    assert front == ["timestamp: " + t] + (["sources:"] + ItemLines(r.sources));
    if HasAudio(r) {
      assert HeaderLines(r) == front + ["audio: " + r.audioFile.value];
    } else {
      assert HeaderLines(r) == front;
    }
  }

  /** Loading the header an encodable record writes gives back its
      timestamp text, its sources and its audio path. */
  lemma ParseEncodedHeader(r: Record)
    requires LineEncodable(r)
    ensures ParseHeader(ToFrontmatter(r)) == Some(EncodedEntries(r))
  {
    HeaderLinesShape(r);
    SplitTerminated(HeaderLines(r), '\n');
    HeaderPieces(r);
    var t := FormatMinute(r.timestamp);
    FormatMinuteHead(r.timestamp);
    var front := ["timestamp: " + t, "sources:"] + ItemLines(r.sources);
    ParseTimestampAndSources(t, r.sources);
    ParseLinesAppend(EmptyHeader, front, HeaderTail(r));
    var st := ParseLines(EmptyHeader, front);
    if HasAudio(r) {
      ParseAudioLine(st, r.audioFile.value);
    } else {
      ParseLinesCons(st, [], []);
    }
    assert "timestamp" in EncodedEntries(r);
  }

  /** Decoding what `to_markdown` wrote gives back the same content, the
      same sources in order, the same audio path (an empty one reads back as
      none) and the timestamp cut to the minute. */
  lemma DecodeEncode(r: Record, now: DateTime)
    requires Encodable(r)
    ensures Decode(ToMarkdown(r), now) ==
            Some(Record(r.content, TruncateToMinute(r.timestamp), r.sources, if HasAudio(r) then r.audioFile else None))
  {
    var h := ToFrontmatter(r);
    var body := "\n" + r.content + "\n";
    MarkdownLayout(r);
    HeaderLinesDashFree(r);
    TerminatedNoDash(HeaderLines(r));
    CutAtDelimiters(h, body, now);
    StripPadded("\n", r.content, "\n");
    EncodableLines(r);
    FromEncodedHeader(r, body, now);
  }

  /** The file `to_markdown` writes: delimiter, header, delimiter, then the
      body around the content. */
  lemma MarkdownLayout(r: Record)
    requires Valid(r.timestamp)
    ensures ToMarkdown(r) == "---\n" + ToFrontmatter(r) + "---\n" + ("\n" + r.content + "\n")
  {
  }

  /** A plain label is a one-line label. */
  lemma EncodableLines(r: Record)
    requires Encodable(r)
    ensures LineEncodable(r)
  {
  }

  /** The parse as written reads the header and the body around the first
      two delimiters. */
  lemma CutAtDelimiters(h: string, body: string, now: DateTime)
    requires NoDashBeforeNewline(h)
    ensures Decode("---\n" + h + "---\n" + body, now) == FromHeader(h, body, now)
  {
    SplitEncoded(h, body);
  }

  lemma FromEncodedHeader(r: Record, body: string, now: DateTime)
    requires LineEncodable(r) && Strip(body) == r.content
    ensures FromHeader(ToFrontmatter(r), body, now) ==
            Some(Record(r.content, TruncateToMinute(r.timestamp), r.sources, if HasAudio(r) then r.audioFile else None))
  {
    ParseEncodedHeader(r);
    EncodedFields(r, now);
    var ts, audio := TruncateToMinute(r.timestamp), if HasAudio(r) then r.audioFile else None;
    var made := NewRecord(body, Some(ts), Some(r.sources), audio, now);
    assert made.content == Strip(body);
    assert made == Record(r.content, ts, r.sources, audio);
  }

  /** The three fields `from_file` reads from the entries the encoder
      wrote. */
  lemma EncodedFields(r: Record, now: DateTime)
    requires LineEncodable(r)
    ensures HeaderTimestamp(EncodedEntries(r), now) == Some(TruncateToMinute(r.timestamp))
    ensures HeaderSources(EncodedEntries(r)) == Some(Some(r.sources))
    ensures HeaderAudio(EncodedEntries(r)) == Some(if HasAudio(r) then r.audioFile else None)
  {
    ParseFormatMinute(r.timestamp);
    var m := EncodedEntries(r);
    assert m["timestamp"] == Scalar(FormatMinute(r.timestamp));
    assert m["sources"] == List(r.sources);
    assert HasAudio(r) <==> "audio" in m;
  }

  /** The file splits at its two delimiters into nothing, the header and
      the body. */
  lemma SplitEncoded(h: string, body: string)
    requires NoDashBeforeNewline(h)
    ensures "---\n" <= "---\n" + h + "---\n" + body
    ensures SplitTwice("---\n" + h + "---\n" + body, "---\n") == ["", h, body]
  {
    var text := "---\n" + h + "---\n" + body;
    assert text[..4] == "---\n";
    FindAt(text, "---\n", 0, 0);
    SecondDelimiter(h, body);
    assert text[4..4 + |h|] == h;
    assert text[4 + |h| + 4..] == body;
  }

  // ---------------------------------------------------------------------
  // A label ending in dashes
  // ---------------------------------------------------------------------

  /** A source label ending in `---` breaks the round trip: its item line
      ends with the delimiter, so the header is cut there, the label loses
      its dashes and the delimiter and blank line meant to close the header
      land in the content. */
  lemma DashEndedSourceSplitsHeader(r: Record, x: string, now: DateTime)
    requires Valid(r.timestamp) && IsStripped(r.content) && r.content != []
    requires r.sources == [x + "---"] && PlainLabel(x) && !HasAudio(r)
    ensures Decode(ToMarkdown(r), now) ==
            Some(Record("---\n\n" + r.content, TruncateToMinute(r.timestamp), [x], None))
    ensures Decode(ToMarkdown(r), now) != Some(Record(r.content, TruncateToMinute(r.timestamp), r.sources, None))
  {
    var t := FormatMinute(r.timestamp);
    var g := Terminated(["timestamp: " + t, "sources:"], '\n');
    var h := g + ("- " + x);
    var body := "---\n\n" + r.content + "\n";
    DashSourceMarkdown(r, x);
    TimestampLine(r.timestamp);
    TerminatedNoDash(["timestamp: " + t, "sources:"]);
    NoDashAppend(g, "- " + x);
    CutAtDelimiters(h, body, now);
    DashFromHeader(r.timestamp, x, body, now);
    DashBodyStrip(r.content);
    assert [x] != r.sources by {
      assert |x| < |x + "---"|;
    }
  }

  /** The cut header read with the text after it. */
  lemma DashFromHeader(t: DateTime, x: string, body: string, now: DateTime)
    requires Valid(t) && PlainLabel(x)
    ensures FromHeader(Terminated(["timestamp: " + FormatMinute(t), "sources:"], '\n') + ("- " + x), body, now)
            == Some(Record(Strip(body), TruncateToMinute(t), [x], None))
  {
    var m := map["timestamp" := Scalar(FormatMinute(t)), "sources" := List([x])];
    TimestampLine(t);
    FormatMinuteHead(t);
    ParseDashHeader(FormatMinute(t), x);
    ParseFormatMinute(t);
    assert HeaderTimestamp(m, now) == Some(TruncateToMinute(t));
    assert HeaderSources(m) == Some(Some([x]));
    assert HeaderAudio(m) == Some(None);
    var made := NewRecord(body, Some(TruncateToMinute(t)), Some([x]), None, now);
    assert made == Record(Strip(body), TruncateToMinute(t), [x], None);
  }

  /** The content read back: the closing delimiter and the blank line stay. */
  lemma DashBodyStrip(c: string)
    requires IsStripped(c) && c != []
    ensures Strip("---\n\n" + c + "\n") == "---\n\n" + c
  {
    var d := "---\n\n" + c;
    assert d[0] == '-' && d[|d| - 1] == c[|c| - 1];
    StripPadded([], d, "\n");
    assert [] + d == d;
  }

  /** The file such a record writes, cut at its first two delimiters. */
  lemma DashSourceMarkdown(r: Record, x: string)
    requires Valid(r.timestamp) && r.sources == [x + "---"] && !HasAudio(r)
    ensures ToMarkdown(r) == "---\n" + (Terminated(["timestamp: " + FormatMinute(r.timestamp), "sources:"], '\n') + ("- " + x))
                             + "---\n" + ("---\n\n" + r.content + "\n")
  {
    var l0, l1 := "timestamp: " + FormatMinute(r.timestamp), "sources:";
    var g := Terminated([l0, l1], '\n');
    assert r.sources[1..] == [];
    assert "- " + (x + "---") == "- " + x + "---";
    assert ItemLines(r.sources) == ["- " + x + "---"];
    assert HeaderLines(r) == [l0, l1] + ["- " + x + "---"];
    TerminatedSnoc([l0, l1], "- " + x + "---", '\n');
    assert ToFrontmatter(r) == g + ("- " + x) + "---\n";
  }

  /** Loading the cut header: the item line has lost its dashes. */
  lemma ParseDashHeader(t: string, x: string)
    requires t != [] && t[0] != '[' && '\n' !in t && PlainLabel(x)
    ensures ParseHeader(Terminated(["timestamp: " + t, "sources:"], '\n') + ("- " + x))
            == Some(map["timestamp" := Scalar(t), "sources" := List([x])])
  {
    var l0, l1, l2 := "timestamp: " + t, "sources:", "- " + x;
    var h := Terminated([l0, l1], '\n') + l2;
    TerminatedSnoc([l0], l1, '\n');
    TerminatedSnoc([], l0, '\n');
    assert [l0] + [l1] == [l0, l1] && [] + [l0] == [l0];
    assert h == l0 + "\n" + (l1 + "\n" + l2);
    assert '\n' !in l2;
    assert Split(l2, '\n') == [l2];
    SplitAt(l1, '\n', l2);
    SplitAt(l0, '\n', l1 + "\n" + l2);
    assert [x][1..] == [];
    assert ItemLines([x]) == [l2];
    assert Split(h, '\n') == [l0, l1] + ItemLines([x]);
    ParseTimestampAndSources(t, [x]);
    var m := map["timestamp" := Scalar(t), "sources" := List([x])];
    assert ParseLines(EmptyHeader, Split(h, '\n')) == HeaderState(m, Some("sources"), false);
    assert "timestamp" in m;
  }

  /** The timestamp line is one line, and ends in a digit. */
  lemma TimestampLine(t: DateTime)
    requires Valid(t)
    ensures var l := "timestamp: " + FormatMinute(t); '\n' !in l && '\r' !in l && l[|l| - 1] != '-'
  {
    var l := "timestamp: " + FormatMinute(t);
    assert l[|l| - 1] == FormatMinute(t)[15] == Digits(t.minute, 2)[1];
    assert '\n' !in FormatMinute(t) && '\r' !in FormatMinute(t);
  }

  /** Text free of newlines after a header keeps it free of `-\n`. */
  lemma NoDashAppend(g: string, y: string)
    requires NoDashBeforeNewline(g) && '\n' !in y
    ensures NoDashBeforeNewline(g + y)
  {
    var h := g + y;
    forall i | 0 <= i < |h| && h[i] == '\n'
      ensures i > 0 && h[i - 1] != '-'
    {
      assert i < |g| && h[i] == g[i] && h[i - 1] == g[i - 1];
    }
  }

  // ---------------------------------------------------------------------
  // The header closed at its own line
  // ---------------------------------------------------------------------

  /** The corrected `from_file` parse: after the opening delimiter, the
      header runs to the first line that is exactly `---`, so a header line
      that merely ends in dashes stays in the header. */
  function DecodeAtLine(text: string, now: DateTime): (r: Option<Record>)
    ensures r.Some? ==> IsStripped(r.value.content) && r.value.sources != []
    ensures !("---\n" <= text) ==> r == Some(Record(Strip(text), now, ["stdin"], None))
  {
    var close := if "---\n" <= text then Find(text, "\n---\n", 3) else None;
    if close.Some? then FromHeader(text[4..close.value + 1], text[close.value + 5..], now)
    else Some(NewRecord(text, None, None, None, now))
  }

  /** No line of `h` is the delimiter line. */
  predicate NoDelimiterLine(h: string) {
    forall k :: 0 <= k <= |h| && (k == 0 || h[k - 1] == '\n') ==> !OccursAt(h, "---\n", k)
  }

  lemma {:induction false} TerminatedNoDelimiter(ls: seq<string>)
    requires forall j :: 0 <= j < |ls| ==> '\n' !in ls[j] && ls[j] != "---"
    ensures NoDelimiterLine(Terminated(ls, '\n'))
  {
    if ls != [] {
      TerminatedNoDelimiter(ls[1..]);
      var h := Terminated(ls, '\n');
      var rest := Terminated(ls[1..], '\n');
      var n := |ls[0]|;
      assert h == ls[0] + ['\n'] + rest;
      forall k | 0 <= k <= |h|
        ensures (k == 0 || h[k - 1] == '\n') ==> !OccursAt(h, "---\n", k)
      {
        if k == 0 {
          if n >= 4 {
            assert h[3] == ls[0][3] && ls[0][3] in ls[0];
          } else if n == 3 {
            assert h[..3] == ls[0] && h[..4] == ls[0] + "\n";
          } else {
            assert h[n] == '\n';
          }
        } else if k <= n {
          assert h[k - 1] == ls[0][k - 1] && ls[0][k - 1] in ls[0];
        } else {
          var m := k - n - 1;
          assert m == 0 || rest[m - 1] == h[k - 1];
          assert h[k..] == rest[m..];
          assert (m == 0 || rest[m - 1] == '\n') ==> !OccursAt(rest, "---\n", m);
        }
      }
    }
  }

  /** Lines end in a newline, so their text does too. */
  lemma TerminatedLast(ls: seq<string>)
    requires ls != []
    ensures var h := Terminated(ls, '\n'); h != [] && h[|h| - 1] == '\n'
  {
    TerminatedSnoc(ls[..|ls| - 1], ls[|ls| - 1], '\n');
    assert ls[..|ls| - 1] + [ls[|ls| - 1]] == ls;
  }

  /** In a file that opens with the delimiter, a header with no delimiter
      line is closed by the delimiter line that follows it. */
  lemma ClosingLine(h: string, body: string)
    requires NoDelimiterLine(h) && h != [] && h[|h| - 1] == '\n'
    ensures Find("---\n" + h + "---\n" + body, "\n---\n", 3) == Some(3 + |h|)
  {
    var text := "---\n" + h + "---\n" + body;
    var pat := "\n---\n";
    assert text[3 + |h|..3 + |h| + 5] == pat;
    forall j | 3 <= j < 3 + |h|
      ensures !(pat <= text[j..])
    {
      NoClosingInside(h, body, j);
    }
    FindAt(text, pat, 3, 3 + |h|);
  }

  /** No `\n---\n` starts inside the header. */
  lemma NoClosingInside(h: string, body: string, j: nat)
    requires NoDelimiterLine(h) && h != [] && h[|h| - 1] == '\n'
    requires 3 <= j < 3 + |h|
    ensures !("\n---\n" <= ("---\n" + h + "---\n" + body)[j..])
  {
    if j + 1 <= |h| {
      NoClosingBeforeLastLine(h, body, j);
    } else {
      NoClosingInLastLine(h, body, j);
    }
  }

  /** A match starting early in the header would need a delimiter line in
      it, or a newline where the header has none. */
  lemma NoClosingBeforeLastLine(h: string, body: string, j: nat)
    requires NoDelimiterLine(h) && 3 <= j && j + 1 <= |h|
    ensures !("\n---\n" <= ("---\n" + h + "---\n" + body)[j..])
  {
    var text := "---\n" + h + "---\n" + body;
    var m := j - 3;
    assert text[4..4 + |h|] == h;
    if m == 0 || h[m - 1] == '\n' {
      assert !OccursAt(h, "---\n", m);
      assert h[m..][..4] == h[m..m + 4] == text[j + 1..j + 5] == text[j..][1..5];
    } else {
      assert text[j] == h[m - 1];
    }
  }

  /** A match starting in the last three characters of the header would
      need a `-` where the header's final newline is. */
  lemma NoClosingInLastLine(h: string, body: string, j: nat)
    requires h != [] && h[|h| - 1] == '\n' && |h| < j + 1 && j < 3 + |h|
    ensures !("\n---\n" <= ("---\n" + h + "---\n" + body)[j..])
  {
    var text := "---\n" + h + "---\n" + body;
    assert text[|h| + 3] == h[|h| - 1];
    assert text[j..][|h| + 3 - j] == text[|h| + 3];
  }

  /** The corrected parse reads back every record whose labels fit on one
      line, including labels ending in `---`: the content, the sources in
      order, the audio path (an empty one reads back as none) and the
      timestamp cut to the minute. */
  lemma DecodeAtLineEncode(r: Record, now: DateTime)
    requires LineEncodable(r)
    ensures DecodeAtLine(ToMarkdown(r), now) ==
            Some(Record(r.content, TruncateToMinute(r.timestamp), r.sources, if HasAudio(r) then r.audioFile else None))
  {
    var h := ToFrontmatter(r);
    var body := "\n" + r.content + "\n";
    MarkdownLayout(r);
    HeaderLinesShape(r);
    TerminatedNoDelimiter(HeaderLines(r));
    TerminatedLast(HeaderLines(r));
    CutAtLine(h, body, now);
    StripPadded("\n", r.content, "\n");
    FromEncodedHeader(r, body, now);
  }

  /** The corrected parse reads the header and the body around the
      delimiter line that closes the header. */
  lemma CutAtLine(h: string, body: string, now: DateTime)
    requires NoDelimiterLine(h) && h != [] && h[|h| - 1] == '\n'
    ensures DecodeAtLine("---\n" + h + "---\n" + body, now) == FromHeader(h, body, now)
  {
    var text := "---\n" + h + "---\n" + body;
    ClosingLine(h, body);
    PiecesAround(h, body);
    DecodeAtFound(text, 3 + |h|, now);
  }

  lemma PiecesAround(h: string, body: string)
    ensures var text := "---\n" + h + "---\n" + body;
            && "---\n" <= text && text[4..|h| + 4] == h && text[|h| + 8..] == body
  {
    var text := "---\n" + h + "---\n" + body;
    assert text[..4] == "---\n";
  }

  /** A closing line found at `i` cuts the text there. */
  lemma DecodeAtFound(text: string, i: nat, now: DateTime)
    requires "---\n" <= text && Find(text, "\n---\n", 3) == Some(i)
    ensures DecodeAtLine(text, now) == FromHeader(text[4..i + 1], text[i + 5..], now)
  {
  }

  /** On the files of plain-labelled records, the parse as written and the
      corrected one agree. */
  lemma DecodersAgree(r: Record, now: DateTime)
    requires Encodable(r)
    ensures Decode(ToMarkdown(r), now) == DecodeAtLine(ToMarkdown(r), now)
  {
    DecodeEncode(r, now);
    DecodeAtLineEncode(r, now);
  }

  // ---------------------------------------------------------------------
  // from_file: the text-mode read, then the parse
  // ---------------------------------------------------------------------

  /** `Record.from_file` on a stored file: the text a text-mode read gives,
      parsed as written. */
  function Load(text: string, now: DateTime): (r: Option<Record>)
    ensures r.Some? ==> IsStripped(r.value.content) && r.value.sources != []
    ensures !("---\n" <= ReadText(text)) ==> r == Some(Record(Strip(ReadText(text)), now, ["stdin"], None))
  {
    Decode(ReadText(text), now)
  }

  /** The corrected `from_file`: the same read, then the parse with the
      header closed at its delimiter line. */
  function LoadAtLine(text: string, now: DateTime): (r: Option<Record>)
    ensures r.Some? ==> IsStripped(r.value.content) && r.value.sources != []
    ensures !("---\n" <= ReadText(text)) ==> r == Some(Record(Strip(ReadText(text)), now, ["stdin"], None))
  {
    DecodeAtLine(ReadText(text), now)
  }

  /** The encoder writes no carriage return outside the content. */
  lemma MarkdownRead(r: Record)
    requires LineEncodable(r)
    ensures ReadText(ToMarkdown(r)) == ToMarkdown(r.(content := ReadText(r.content)))
    ensures LineEncodable(r.(content := ReadText(r.content)))
  {
    var c := r.content;
    var p := "---\n" + ToFrontmatter(r) + "---\n\n";
    assert ToMarkdown(r) == p + (c + "\n");
    HeaderLinesShape(r);
    TerminatedWithout(HeaderLines(r), '\n', '\r');
    assert '\r' !in p;
    ReadTextIdentity(p);
    ReadTextAppend(p, c + "\n");
    ReadTextAppend(c, "\n");
    assert ReadText("\n") == "\n";
    if c != [] {
      ReadTextEnds(c);
    }
    assert IsStripped(ReadText(c));
  }

  /** Reading the content leaves the labels, and so plainness, alone. */
  lemma EncodableRead(r: Record)
    requires Encodable(r)
    ensures Encodable(r.(content := ReadText(r.content)))
  {
    EncodableLines(r);
    MarkdownRead(r);
  }

  /** A saved plain-labelled record loads back through `from_file` as
      written, with its content as read in text mode, and exactly as saved
      when the content holds no carriage return. */
  lemma LoadEncoded(r: Record, now: DateTime)
    requires Encodable(r)
    ensures Load(ToMarkdown(r), now) ==
            Some(Record(ReadText(r.content), TruncateToMinute(r.timestamp), r.sources, if HasAudio(r) then r.audioFile else None))
    ensures '\r' !in r.content ==>
              Load(ToMarkdown(r), now) ==
              Some(Record(r.content, TruncateToMinute(r.timestamp), r.sources, if HasAudio(r) then r.audioFile else None))
  {
    EncodableLines(r);
    MarkdownRead(r);
    EncodableRead(r);
    DecodeEncode(r.(content := ReadText(r.content)), now);
    ReadTextIdentity(r.content);
  }

  /** The corrected read brings back every one-line-labelled record,
      labels ending in dashes included. */
  lemma LoadAtLineEncoded(r: Record, now: DateTime)
    requires LineEncodable(r)
    ensures LoadAtLine(ToMarkdown(r), now) ==
            Some(Record(ReadText(r.content), TruncateToMinute(r.timestamp), r.sources, if HasAudio(r) then r.audioFile else None))
    ensures '\r' !in r.content ==>
              LoadAtLine(ToMarkdown(r), now) ==
              Some(Record(r.content, TruncateToMinute(r.timestamp), r.sources, if HasAudio(r) then r.audioFile else None))
  {
    MarkdownRead(r);
    DecodeAtLineEncode(r.(content := ReadText(r.content)), now);
    ReadTextIdentity(r.content);
  }

  /** On the files of plain-labelled records, `from_file` as written and
      the corrected read agree. */
  lemma LoadsAgree(r: Record, now: DateTime)
    requires Encodable(r)
    ensures Load(ToMarkdown(r), now) == LoadAtLine(ToMarkdown(r), now)
  {
    LoadEncoded(r, now);
    EncodableLines(r);
    LoadAtLineEncoded(r, now);
  }

  /** Off the encoder's files the two reads differ wherever a header line
      ends in `---` (`"---\nfoo---\nbar\n"`, say): `from_file` cuts the
      header there, finds no mapping in `x` and raises, while the corrected
      read finds no delimiter line and takes the whole text as content. */
  lemma HeaderLineEndingInDashes(x: string, y: string, now: DateTime)
    requires x != [] && x[0] != '-' && ':' !in x && '\n' !in x && '\r' !in x
    requires y != [] && y[0] != '-' && !IsSpace(y[|y| - 1]) && '\n' !in y && '\r' !in y
    ensures Load("---\n" + x + "---\n" + y + "\n", now) == None
    ensures LoadAtLine("---\n" + x + "---\n" + y + "\n", now)
            == Some(Record("---\n" + x + "---\n" + y, now, ["stdin"], None))
  {
    var d := "---\n" + x + "---\n" + y;
    assert '\r' !in d + "\n";
    LoadPlain(d + "\n", now);
    AppendAssoc("---\n" + x + "---\n", y, "\n");
    DashLineAsWritten(x, y + "\n", now);
    DashLineCorrected(x, y, now);
  }

  /** `from_file` as written raises on it. */
  lemma DashLineAsWritten(x: string, body: string, now: DateTime)
    requires x != [] && x[0] != '-' && ':' !in x && '\n' !in x
    ensures Decode("---\n" + x + "---\n" + body, now) == None
  {
    CutAtDelimiters(x, body, now);
    NoKeyLine(x);
  }

  /** The corrected parse takes it all as content. */
  lemma DashLineCorrected(x: string, y: string, now: DateTime)
    requires x != [] && x[0] != '-' && '\n' !in x
    requires y != [] && y[0] != '-' && !IsSpace(y[|y| - 1]) && '\n' !in y
    ensures DecodeAtLine("---\n" + x + "---\n" + y + "\n", now)
            == Some(Record("---\n" + x + "---\n" + y, now, ["stdin"], None))
  {
    var d := "---\n" + x + "---\n" + y;
    LineNotClosed(x, y);
    UnclosedIsContent(d + "\n", now);
    assert d + "\n" == [] + d + "\n";
    assert d[0] == '-' && d[|d| - 1] == y[|y| - 1];
    StripPadded([], d, "\n");
  }

  /** Text without a carriage return is read as it stands. */
  lemma LoadPlain(text: string, now: DateTime)
    requires '\r' !in text
    ensures Load(text, now) == Decode(text, now) && LoadAtLine(text, now) == DecodeAtLine(text, now)
  {
    ReadTextIdentity(text);
  }

  /** A text whose header is never closed is all content. */
  lemma UnclosedIsContent(text: string, now: DateTime)
    requires Find(text, "\n---\n", 3).None?
    ensures DecodeAtLine(text, now) == Some(Record(Strip(text), now, ["stdin"], None))
  {
  }

  /** Such a line fails to load. */
  lemma NoKeyLine(x: string)
    requires x != [] && x[0] != '-' && ':' !in x && '\n' !in x
    ensures ParseHeader(x) == None
  {
    assert Split(x, '\n') == [x];
    assert Find(x, ": ", 0).None? by {
      forall k | 0 <= k <= |x| - 2
        ensures !OccursAt(x, ": ", k)
      {
        assert x[k] in x;
      }
    }
    assert x[|x| - 1] in x;
    assert !("- " <= x);
    assert HeaderStep(EmptyHeader, x).failed;
    assert ParseLines(EmptyHeader, [x]) == ParseLines(HeaderStep(EmptyHeader, x), []);
  }

  /** No line of such a text is exactly `---` after the opening one. */
  lemma LineNotClosed(x: string, y: string)
    requires x != [] && x[0] != '-' && '\n' !in x
    requires y != [] && y[0] != '-' && '\n' !in y
    ensures Find("---\n" + x + "---\n" + y + "\n", "\n---\n", 3).None?
  {
    var text := "---\n" + x + "---\n" + y + "\n";
    forall k | 3 <= k <= |text| - 5
      ensures !OccursAt(text, "\n---\n", k)
    {
      if k == 3 {
        assert text[k + 1] == x[0];
      } else if k < 4 + |x| {
        assert text[k] == x[k - 4];
        assert x[k - 4] in x;
      } else if k < 7 + |x| {
        assert text[k] == "---\n"[k - 4 - |x|];
      } else if k == 7 + |x| {
        assert text[k + 1] == y[0];
      } else {
        assert text[k] == y[k - 8 - |x|];
        assert y[k - 8 - |x|] in y;
      }
    }
  }

  // ---------------------------------------------------------------------
  // get_filename
  // ---------------------------------------------------------------------

  function Min(a: int, b: int): int {
    if a < b then a else b
  }

  /** `w.lower().replace('/', '-').replace('\\', '-')`. */
  function SlugWord(w: string): string {
    seq(|w|, i requires 0 <= i < |w| => if w[i] == '/' || w[i] == '\\' then '-' else LowerChar(w[i]))
  }

  /** The words that may appear in a slug: alphanumeric ones, and the
      one-character words `-` and `_`. */
  predicate SlugWorthy(w: string) {
    IsAlnum(w) || w == "-" || w == "_"
  }

  function SlugWords(ws: seq<string>): seq<string> {
    if ws == [] then []
    else if SlugWorthy(ws[0]) then [SlugWord(ws[0])] + SlugWords(ws[1..])
    else SlugWords(ws[1..])
  }

  function JoinDash(ws: seq<string>): string {
    if ws == [] then [] else if |ws| == 1 then ws[0] else ws[0] + "-" + JoinDash(ws[1..])
  }

  /** The file-name slug: the slug-worthy words among the first three,
      lower-cased and joined by `-`, cut to 40 characters. It is made of
      lower-case letters, digits, `-` and `_`, so it never holds a path
      separator or whitespace. */
  function Slug(content: string): (slug: string)
    ensures |slug| <= 40
    ensures forall i :: 0 <= i < |slug| ==> SlugChar(slug[i])
  {
    var ws := Words(content);
    var sw := SlugWords(ws[..Min(3, |ws|)]);
    SlugWordsChars(ws[..Min(3, |ws|)]);
    JoinDashChars(sw);
    var joined := JoinDash(sw);
    joined[..Min(40, |joined|)]
  }

  /** `get_filename(records_dir).name`: the 20-character time prefix, then
      `--` and the slug when there is one, then `.md`. */
  function FileName(r: Record): (n: string)
    requires Valid(r.timestamp)
    ensures |n| >= 23 && n[..20] == FileStamp(r.timestamp) && n[|n| - 3..] == ".md"
    ensures Slug(r.content) == "" ==> n == FileStamp(r.timestamp) + ".md"
    ensures Slug(r.content) != "" ==> |n| > 25 && n[20..22] == "--" && n[22..|n| - 3] == Slug(r.content)
  {
    var slug := Slug(r.content);
    FileStamp(r.timestamp) + (if slug != "" then "--" + slug else "") + ".md"
  }

  predicate SlugChar(c: char) {
    IsDigit(c) || 'a' <= c <= 'z' || c == '-' || c == '_'
  }

  lemma {:induction false} SlugWordsChars(ws: seq<string>)
    ensures forall k, i :: 0 <= k < |SlugWords(ws)| && 0 <= i < |SlugWords(ws)[k]| ==> SlugChar(SlugWords(ws)[k][i])
  {
    if ws != [] {
      SlugWordsChars(ws[1..]);
      if SlugWorthy(ws[0]) {
        var w := ws[0];
        forall i | 0 <= i < |w|
          ensures SlugChar(SlugWord(w)[i])
        {
          if IsAlnum(w) {
            assert IsAlnumChar(w[i]);
          }
        }
      }
    }
  }

  lemma {:induction false} JoinDashChars(ws: seq<string>)
    requires forall k, i :: 0 <= k < |ws| && 0 <= i < |ws[k]| ==> SlugChar(ws[k][i])
    ensures forall i :: 0 <= i < |JoinDash(ws)| ==> SlugChar(JoinDash(ws)[i])
  {
    if |ws| > 1 {
      JoinDashChars(ws[1..]);
      var j := JoinDash(ws);
      var rest := JoinDash(ws[1..]);
      assert j == ws[0] + "-" + rest;
      forall i | 0 <= i < |j|
        ensures SlugChar(j[i])
      {
        if i < |ws[0]| {
          assert j[i] == ws[0][i];
        } else if i > |ws[0]| {
          assert j[i] == rest[i - |ws[0]| - 1];
        }
      }
    }
  }

  /** The name is the time stamp followed by the rest. */
  lemma FileNameTail(r: Record)
    requires Valid(r.timestamp)
    ensures FileName(r) == FileStamp(r.timestamp) + ((if Slug(r.content) != "" then "--" + Slug(r.content) else "") + ".md")
  {
    AppendAssoc(FileStamp(r.timestamp), if Slug(r.content) != "" then "--" + Slug(r.content) else "", ".md");
  }

  /** Names of records saved in different seconds sort as their times do:
      a later second gives a later name, whatever the slugs. */
  lemma FileNameOrder(a: Record, b: Record)
    requires Valid(a.timestamp) && Valid(b.timestamp)
    ensures BeforeSecond(a.timestamp, b.timestamp) ==> LexLess(FileName(a), FileName(b))
    ensures LexLess(FileName(a), FileName(b)) ==> !BeforeSecond(b.timestamp, a.timestamp)
  {
    var pa, pb := FileStamp(a.timestamp), FileStamp(b.timestamp);
    var sa := Slug(a.content);
    var sb := Slug(b.content);
    var ra := (if sa != "" then "--" + sa else "") + ".md";
    var rb := (if sb != "" then "--" + sb else "") + ".md";
    FileNameTail(a);
    FileNameTail(b);
    LexLessAppend(pa, ra, pb, rb);
    FileStampOrder(a.timestamp, b.timestamp);
    FileStampOrder(b.timestamp, a.timestamp);
    LexLessIrreflexive(pa);
    if LexLess(pa, pb) {
      LexLessAsymmetric(pa, pb);
    }
  }

  /** Two records in the same second with the same content get the same
      name, so saving the second overwrites the first. */
  lemma SameSecondSameName(a: Record, b: Record)
    requires Valid(a.timestamp) && Valid(b.timestamp)
    requires a.content == b.content
    requires !BeforeSecond(a.timestamp, b.timestamp) && !BeforeSecond(b.timestamp, a.timestamp)
    ensures FileName(a) == FileName(b)
  {
    assert a.timestamp.(micro := 0) == b.timestamp.(micro := 0);
    assert FileStamp(a.timestamp) == FileStamp(a.timestamp.(micro := 0));
    assert FileStamp(b.timestamp) == FileStamp(b.timestamp.(micro := 0));
  }

  /** "Buy milk\nand eggs". */
  const BuyMilk: string := "Buy" + (" " + ("milk" + ("\n" + ("and" + " eggs"))))

  lemma BuyMilkWords()
    ensures Words(BuyMilk) == ["Buy", "milk", "and", "eggs"]
  {
    assert BuyMilk == "Buy" + ([' '] + ("milk" + (['\n'] + ("and" + ([' '] + "eggs")))));
    FourWords("Buy", ' ', "milk", '\n', "and", ' ', "eggs");
  }

  /** Four words with one whitespace character between each two. */
  lemma FourWords(a: string, x: char, b: string, y: char, c: string, z: char, d: string)
    requires a != [] && b != [] && c != [] && d != []
    requires NoSpace(a) && NoSpace(b) && NoSpace(c) && NoSpace(d)
    requires IsSpace(x) && IsSpace(y) && IsSpace(z)
    ensures Words(a + ([x] + (b + ([y] + (c + ([z] + d)))))) == [a, b, c, d]
  {
    WordsCons(d, []);
    assert d + [] == d;
    var t1 := [z] + d;
    SeparatedWord(c, z, d, [d]);
    var t2 := [y] + (c + t1);
    SeparatedWord(b, y, c + t1, [c, d]);
    SeparatedWord(a, x, b + t2, [b, c, d]);
  }

  /** A word, one whitespace character, and the rest. */
  lemma SeparatedWord(w: string, c: char, tail: string, ws: seq<string>)
    requires w != [] && NoSpace(w) && IsSpace(c) && Words(tail) == ws
    ensures Words(w + ([c] + tail)) == [w] + ws
  {
    WordsCons(w, [c] + tail);
    WordsSpace(c, tail);
  }

  lemma BuyMilkSlug()
    ensures Slug(BuyMilk) == "buy-milk-and"
  {
    BuyMilkWords();
    var ws := ["Buy", "milk", "and", "eggs"];
    assert ws[..Min(3, |ws|)] == ["Buy", "milk", "and"];
    ExampleSlugWords();
    SlugWordsThree("Buy", "milk", "and");
    JoinThree("buy", "milk", "and");
    var joined := "buy" + "-" + ("milk" + "-" + "and");
    assert joined == "buy-milk-and";
    assert joined[..Min(40, |joined|)] == joined;
  }

  lemma ExampleSlugWords()
    ensures SlugWorthy("Buy") && SlugWorthy("milk") && SlugWorthy("and")
    ensures SlugWord("Buy") == "buy" && SlugWord("milk") == "milk" && SlugWord("and") == "and"
  {
    assert IsAlnum("Buy") && IsAlnum("milk") && IsAlnum("and");
  }

  lemma SlugWordsThree(a: string, b: string, c: string)
    requires SlugWorthy(a) && SlugWorthy(b) && SlugWorthy(c)
    ensures SlugWords([a, b, c]) == [SlugWord(a), SlugWord(b), SlugWord(c)]
  {
    assert [a, b, c][1..] == [b, c] && [b, c][1..] == [c] && [c][1..] == [];
    assert SlugWords([c]) == [SlugWord(c)];
    assert SlugWords([b, c]) == [SlugWord(b)] + SlugWords([c]);
  }

  lemma JoinThree(a: string, b: string, c: string)
    ensures JoinDash([a, b, c]) == a + "-" + (b + "-" + c)
  {
    assert [a, b, c][1..] == [b, c] && [b, c][1..] == [c];
    assert JoinDash([b, c]) == b + "-" + c;
  }

  lemma StampExample(micro: int)
    requires 0 <= micro < 1000000
    ensures FileStamp(DateTime(2024, 11, 6, 13, 30, 45, micro)) == "2024-11-06--13-30-45"
  {
    var t := DateTime(2024, 11, 6, 13, 30, 45, micro);
    ExampleFields();
    assert FileStamp(t) == Digits(2024, 4) + ("-" + (Digits(11, 2) + ("-" + (Digits(6, 2) + ("--"
      + (Digits(13, 2) + ("-" + (Digits(30, 2) + ("-" + Digits(45, 2))))))))));
    assert FileStamp(t) == "2024" + ("-" + ("11" + ("-" + ("06" + ("--" + ("13" + ("-" + ("30" + ("-" + "45")))))))));
  }

  /** The padded fields of the example's time. */
  lemma ExampleFields()
    ensures Digits(2024, 4) == "2024"
    ensures Digits(11, 2) == "11" && Digits(6, 2) == "06" && Digits(13, 2) == "13"
    ensures Digits(30, 2) == "30" && Digits(45, 2) == "45"
  {
    TwoDigits(11);
    TwoDigits(6);
    TwoDigits(13);
    TwoDigits(30);
    TwoDigits(45);
    TwoDigits(24);
    TwoDigits(20);
    assert Digits(2024, 4) == Digits(20, 2) + Digits(24, 2) by {
      assert Digits(2024, 4) == Digits(202, 3) + [DigitChar(4)];
      assert Digits(202, 3) == Digits(20, 2) + [DigitChar(2)];
    }
  }

  /** Two notes in the same second: "Buy milk\nand eggs" at 13:30:45 on
      6 November 2024 is filed as `2024-11-06--13-30-45--buy-milk-and.md`. */
  lemma BuyMilkFileName(micro: int)
    requires 0 <= micro < 1000000
    ensures FileName(Record(BuyMilk, DateTime(2024, 11, 6, 13, 30, 45, micro), ["stdin"], None))
            == "2024-11-06--13-30-45--buy-milk-and.md"
  {
    var r := Record(BuyMilk, DateTime(2024, 11, 6, 13, 30, 45, micro), ["stdin"], None);
    BuyMilkSlug();
    StampExample(micro);
    FileNameParts(r, "2024-11-06--13-30-45", "buy-milk-and");
    ExampleNameText();
  }

  lemma ExampleNameText()
    ensures "2024-11-06--13-30-45" + "--" + "buy-milk-and" + ".md" == "2024-11-06--13-30-45--buy-milk-and.md"
  {
  }

  /** The file name from its stamp and a non-empty slug. */
  lemma FileNameParts(r: Record, stamp: string, slug: string)
    requires Valid(r.timestamp) && FileStamp(r.timestamp) == stamp && Slug(r.content) == slug && slug != ""
    ensures FileName(r) == stamp + "--" + slug + ".md"
  {
  }
}

=== FILE: stats.dfy ===
// Statistics over a list of records: per-day counts, recent activity,
// word totals and the busiest day.

module Stats {
  import opened Wrappers
  import opened Text
  import opened Lex
  import opened Clock
  import opened Records

  /** A Python `datetime` always holds a real date, so every record's
      timestamp does. */
  predicate AllValid(rs: seq<Record>) {
    forall i :: 0 <= i < |rs| ==> Valid(rs[i].timestamp)
  }

  /** `total_count()`: the number of records, which is what the per-day
      counts of `records_by_date()` add up to. */
  function TotalCount(rs: seq<Record>): (n: nat)
    ensures AllValid(rs) ==> n == Sum(ByDay(DayKeys(rs)))
  {
    if AllValid(rs) then ByDaySum(DayKeys(rs)); |rs| else |rs|
  }

  // ---------------------------------------------------------------------
  // Counting
  // ---------------------------------------------------------------------

  /** The number of times `k` occurs in `s`. */
  function Count(s: seq<string>, k: string): nat {
    if s == [] then 0
    else Count(s[..|s| - 1], k) + (if s[|s| - 1] == k then 1 else 0)
  }

  lemma {:induction false} CountAbsent(s: seq<string>, k: string)
    requires k !in s
    ensures Count(s, k) == 0
  {
    if s != [] {
      assert forall x :: x in s[..|s| - 1] ==> x in s;
      CountAbsent(s[..|s| - 1], k);
    }
  }

  lemma {:induction false} CountPresent(s: seq<string>, k: string)
    requires k in s
    ensures Count(s, k) > 0
  {
    if s[|s| - 1] != k {
      var i :| 0 <= i < |s| && s[i] == k;
      assert s[..|s| - 1][i] == k;
      CountPresent(s[..|s| - 1], k);
    }
  }

  /** In a strictly ascending sequence every element occurs once. */
  lemma {:induction false} CountDistinct(ds: seq<string>, k: string)
    requires StrictlyAscending(ds) && k in ds
    ensures Count(ds, k) == 1
  {
    var init := ds[..|ds| - 1];
    if ds[|ds| - 1] == k {
      if k in init {
        var i :| 0 <= i < |init| && init[i] == k;
        assert LexLess(ds[i], ds[|ds| - 1]);
        LexLessIrreflexive(k);
      }
      CountAbsent(init, k);
    } else {
      var i :| 0 <= i < |ds| && ds[i] == k;
      assert init[i] == k;
      CountDistinct(init, k);
    }
  }

  /** What a `Counter` holds after counting every key of `ks`. */
  ghost function Counter(ks: seq<string>): map<string, nat> {
    map k | k in ks :: Count(ks, k)
  }

  /** `counter[k] += 1` on the counter of `ks` gives the counter of
      `ks + [k]`. */
  lemma CounterStep(ks: seq<string>, k: string)
    ensures Counter(ks + [k]) == Counter(ks)[k := (if k in Counter(ks) then Counter(ks)[k] else 0) + 1]
  {
    var s := ks + [k];
    assert s[..|s| - 1] == ks;
    assert forall x :: x in s <==> x in ks || x == k;
    if k !in ks {
      CountAbsent(ks, k);
    }
  }

  /** The counter of one more key of `ks`. */
  lemma PrefixCounterStep(ks: seq<string>, i: int)
    requires 0 <= i < |ks|
    ensures var m := Counter(ks[..i]);
            Counter(ks[..i + 1]) == m[ks[i] := (if ks[i] in m then m[ks[i]] else 0) + 1]
  {
    assert ks[..i + 1] == ks[..i] + [ks[i]];
    CounterStep(ks[..i], ks[i]);
  }

  /** `dict(sorted(counter.items()))`: the entries of `m` in ascending key
      order. */
  ghost function Items(m: map<string, nat>): seq<(string, nat)> {
    var days := SortedAsc(m.Keys);
    SortedAscProperties(m.Keys);
    seq(|days|, i requires 0 <= i < |days| => (days[i], m[days[i]]))
  }

  /** The per-day table of the day keys `ks`. */
  ghost function ByDay(ks: seq<string>): seq<(string, nat)> {
    Items(Counter(ks))
  }

  /** The keys of a table, in order. */
  function Days(es: seq<(string, nat)>): (ds: seq<string>)
    ensures |ds| == |es| && forall i :: 0 <= i < |es| ==> ds[i] == es[i].0
  {
    seq(|es|, i requires 0 <= i < |es| => es[i].0)
  }

  /** The sum of a table's counts. */
  function Sum(es: seq<(string, nat)>): nat {
    if es == [] then 0 else Sum(es[..|es| - 1]) + es[|es| - 1].1
  }

  /** The per-day table lists every day of `ks` once, in strictly ascending
      order, with the number of times it occurs. */
  lemma ByDayFacts(ks: seq<string>)
    ensures StrictlyAscending(Days(ByDay(ks)))
    ensures forall k :: k in Days(ByDay(ks)) <==> k in ks
    ensures forall i :: 0 <= i < |ByDay(ks)| ==> ByDay(ks)[i].1 == Count(ks, ByDay(ks)[i].0) > 0
  {
    var m := Counter(ks);
    SortedAscProperties(m.Keys);
    var es := ByDay(ks);
    assert Days(es) == SortedAsc(m.Keys);
    forall i | 0 <= i < |es|
      ensures es[i].1 == Count(ks, es[i].0) > 0
    {
      var days := SortedAsc(m.Keys);
      assert es[i].0 == days[i] && days[i] in days;
      assert es[i].0 in m.Keys;
      CountPresent(ks, es[i].0);
    }
  }

  /** The counts of `ds`, each taken in `ks`. */
  function SumCounts(ks: seq<string>, ds: seq<string>): nat {
    if ds == [] then 0 else SumCounts(ks, ds[..|ds| - 1]) + Count(ks, ds[|ds| - 1])
  }

  lemma {:induction false} SumCountsEmpty(ds: seq<string>)
    ensures SumCounts([], ds) == 0
  {
    if ds != [] {
      SumCountsEmpty(ds[..|ds| - 1]);
    }
  }

  lemma {:induction false} SumCountsSnoc(ks: seq<string>, k: string, ds: seq<string>)
    ensures SumCounts(ks + [k], ds) == SumCounts(ks, ds) + Count(ds, k)
  {
    assert (ks + [k])[..|ks|] == ks;
    if ds != [] {
      SumCountsSnoc(ks, k, ds[..|ds| - 1]);
    }
  }

  /** Counting every key of `ks` against a strictly ascending list that
      holds them all accounts for each key exactly once. */
  lemma {:induction false} SumCountsTotal(ks: seq<string>, ds: seq<string>)
    requires StrictlyAscending(ds)
    requires forall k :: k in ks ==> k in ds
    ensures SumCounts(ks, ds) == |ks|
  {
    if ks == [] {
      SumCountsEmpty(ds);
    } else {
      var init, k := ks[..|ks| - 1], ks[|ks| - 1];
      assert ks == init + [k];
      assert forall x :: x in init ==> x in ks;
      SumCountsTotal(init, ds);
      SumCountsSnoc(init, k, ds);
      CountDistinct(ds, k);
    }
  }

  lemma {:induction false} SumOfCounts(ks: seq<string>, es: seq<(string, nat)>)
    requires forall i :: 0 <= i < |es| ==> es[i].1 == Count(ks, es[i].0)
    ensures Sum(es) == SumCounts(ks, Days(es))
  {
    if es != [] {
      var init := es[..|es| - 1];
      assert Days(es)[..|es| - 1] == Days(init);
      SumOfCounts(ks, init);
    }
  }

  /** The per-day counts add up to the number of keys counted. */
  lemma ByDaySum(ks: seq<string>)
    ensures Sum(ByDay(ks)) == |ks|
  {
    ByDayFacts(ks);
    SumOfCounts(ks, ByDay(ks));
    SumCountsTotal(ks, Days(ByDay(ks)));
  }

  /** `counter` as a sorted table. */
  method SortedItems(counter: map<string, nat>) returns (items: seq<(string, nat)>)
    ensures items == Items(counter)
  {
    var days := Sort(counter.Keys);
    SortedAscProperties(counter.Keys);
    items := seq(|days|, i requires 0 <= i < |days| => (days[i], counter[days[i]]));
  }

  // ---------------------------------------------------------------------
  // records_by_date
  // ---------------------------------------------------------------------

  /** Each record's `%Y-%m-%d` day, in list order. */
  function DayKeys(rs: seq<Record>): (ks: seq<string>)
    requires AllValid(rs)
    ensures |ks| == |rs|
  {
    seq(|rs|, i requires 0 <= i < |rs| && Valid(rs[i].timestamp) => DateKey(rs[i].timestamp))
  }

  lemma DayKeysSnoc(rs: seq<Record>, r: Record)
    requires AllValid(rs + [r])
    ensures AllValid(rs) && Valid(r.timestamp)
    ensures DayKeys(rs + [r]) == DayKeys(rs) + [DateKey(r.timestamp)]
  {
    assert forall i :: 0 <= i < |rs| ==> (rs + [r])[i] == rs[i];
    assert (rs + [r])[|rs|] == r;
  }

  /** `records_by_date()`: one entry per day, in ascending day order, with
      the number of records on that day. */
  method RecordsByDate(rs: seq<Record>) returns (byDate: seq<(string, nat)>)
    requires AllValid(rs)
    ensures byDate == ByDay(DayKeys(rs))
  {
    var counter := CountKeys(DayKeys(rs));
    byDate := SortedItems(counter);
  }

  /** The `Counter` loop: one increment per key, in order. */
  method CountKeys(ks: seq<string>) returns (counter: map<string, nat>)
    ensures counter == Counter(ks)
  {
    counter := map[];
    for i := 0 to |ks|
      invariant counter == Counter(ks[..i])
    {
      PrefixCounterStep(ks, i);
      counter := counter[ks[i] := (if ks[i] in counter then counter[ks[i]] else 0) + 1];
    }
    assert ks[..|ks|] == ks;
  }

  /** The day keys ascend, so the table is in calendar order: a record of
      an earlier entry falls on an earlier day than a record of a later
      one. */
  lemma ByDateChronological(rs: seq<Record>, i: int, j: int, a: int, b: int)
    requires AllValid(rs)
    requires 0 <= i < j < |ByDay(DayKeys(rs))|
    requires 0 <= a < |rs| && DateKey(rs[a].timestamp) == ByDay(DayKeys(rs))[i].0
    requires 0 <= b < |rs| && DateKey(rs[b].timestamp) == ByDay(DayKeys(rs))[j].0
    ensures var ta, tb := rs[a].timestamp, rs[b].timestamp;
            ta.year < tb.year || (ta.year == tb.year && (ta.month < tb.month || (ta.month == tb.month && ta.day < tb.day)))
  {
    ByDayFacts(DayKeys(rs));
    assert Days(ByDay(DayKeys(rs)))[i] == ByDay(DayKeys(rs))[i].0;
    assert Days(ByDay(DayKeys(rs)))[j] == ByDay(DayKeys(rs))[j].0;
    DateKeyOrder(rs[a].timestamp, rs[b].timestamp);
  }

  // ---------------------------------------------------------------------
  // recent_activity
  // ---------------------------------------------------------------------

  /** The day keys of the records at or after the cutoff instant `c` (in
      microseconds since the start of the calendar), in list order. */
  function RecentKeys(rs: seq<Record>, c: int): (ks: seq<string>)
    requires AllValid(rs)
    ensures |ks| <= |rs|
  {
    if rs == [] then []
    else
      var last := rs[|rs| - 1];
      RecentKeys(rs[..|rs| - 1], c) + (if Micros(last.timestamp) >= c then [DateKey(last.timestamp)] else [])
  }

  lemma RecentKeysSnoc(rs: seq<Record>, r: Record, c: int)
    requires AllValid(rs) && Valid(r.timestamp)
    ensures AllValid(rs + [r])
    ensures RecentKeys(rs + [r], c) == RecentKeys(rs, c) + (if Micros(r.timestamp) >= c then [DateKey(r.timestamp)] else [])
  {
    var s := rs + [r];
    assert forall i :: 0 <= i < |rs| ==> s[i] == rs[i];
    assert s[..|s| - 1] == rs && s[|s| - 1] == r;
  }

  /** The recent counter after one more record of `rs`. */
  lemma RecentKeysStep(rs: seq<Record>, i: int, c: int)
    requires AllValid(rs) && 0 <= i < |rs|
    ensures AllValid(rs[..i]) && AllValid(rs[..i + 1])
    ensures Micros(rs[i].timestamp) >= c ==>
              RecentKeys(rs[..i + 1], c) == RecentKeys(rs[..i], c) + [DateKey(rs[i].timestamp)]
    ensures Micros(rs[i].timestamp) < c ==> RecentKeys(rs[..i + 1], c) == RecentKeys(rs[..i], c)
  {
    assert rs[..i + 1] == rs[..i] + [rs[i]];
    AllValidPrefix(rs, i);
    RecentKeysSnoc(rs[..i], rs[i], c);
    assert RecentKeys(rs[..i], c) + [] == RecentKeys(rs[..i], c);
  }

  /** A prefix of valid records is valid. */
  lemma AllValidPrefix(rs: seq<Record>, i: int)
    requires AllValid(rs) && 0 <= i <= |rs|
    ensures AllValid(rs[..i])
  {
    assert forall j :: 0 <= j < i ==> rs[..i][j] == rs[j];
  }

  /** `recent_activity(days)` with `now` standing for `datetime.now()`:
      the per-day table of the records at or after `now - days`; `None`
      where computing the cutoff overflows and Python raises. */
  method RecentActivity(rs: seq<Record>, days: int, now: DateTime) returns (r: Option<seq<(string, nat)>>)
    requires AllValid(rs)
    ensures r.None? <==> CutoffMicros(now, days).None?
    ensures r.Some? ==> r.value == ByDay(RecentKeys(rs, CutoffMicros(now, days).value))
  {
    var cutoff := CutoffMicros(now, days);
    if cutoff.None? {
      return None;
    }
    var counter := RecentCounter(rs, cutoff.value);
    var items := SortedItems(counter);
    return Some(items);
  }

  /** The counting loop of `recent_activity`, for the cutoff instant `c`. */
  method RecentCounter(rs: seq<Record>, c: int) returns (counter: map<string, nat>)
    requires AllValid(rs)
    ensures counter == Counter(RecentKeys(rs, c))
  {
    counter := map[];
    ghost var keys: seq<string> := [];
    for i := 0 to |rs|
      invariant AllValid(rs[..i])
      invariant keys == RecentKeys(rs[..i], c)
      invariant counter == Counter(keys)
    {
      RecentKeysStep(rs, i, c);
      if Micros(rs[i].timestamp) >= c {
        var day := DateKey(rs[i].timestamp);
        CounterStep(keys, day);
        counter := counter[day := (if day in counter then counter[day] else 0) + 1];
        keys := keys + [day];
      }
    }
    assert rs[..|rs|] == rs;
  }

  /** The record is at or after the cutoff instant `c` and falls on the
      day `k`. */
  predicate RecentOn(r: Record, c: int, k: string) {
    Valid(r.timestamp) && Micros(r.timestamp) >= c && DateKey(r.timestamp) == k
  }

  /** A day key is recent exactly when some record at or after the cutoff
      falls on that day. */
  lemma {:induction false} RecentKeysMembers(rs: seq<Record>, c: int, k: string)
    requires AllValid(rs)
    ensures k in RecentKeys(rs, c) <==> exists i :: 0 <= i < |rs| && RecentOn(rs[i], c, k)
  {
    if rs != [] {
      AllValidPrefix(rs, |rs| - 1);
      RecentKeysMembers(rs[..|rs| - 1], c, k);
      RecentKeysLast(rs, c, k);
      RecentWitnessLast(rs, rs[..|rs| - 1], c, k);
    }
  }

  /** A record that is recent on `k` is among the earlier ones or is the last. */
  lemma RecentWitnessLast(rs: seq<Record>, init: seq<Record>, c: int, k: string)
    requires rs != [] && init == rs[..|rs| - 1]
    ensures (exists i :: 0 <= i < |rs| && RecentOn(rs[i], c, k))
            <==> (exists i :: 0 <= i < |init| && RecentOn(init[i], c, k)) || RecentOn(rs[|rs| - 1], c, k)
  {
    var recent := r => RecentOn(r, c, k);
    ExistsLast(rs, init, recent);
    assert forall i :: 0 <= i < |rs| ==> (recent(rs[i]) <==> RecentOn(rs[i], c, k));
    assert forall i :: 0 <= i < |init| ==> (recent(init[i]) <==> RecentOn(init[i], c, k));
  }

  lemma ExistsLast<T>(xs: seq<T>, init: seq<T>, p: T -> bool)
    requires xs != [] && init == xs[..|xs| - 1]
    ensures (exists i :: 0 <= i < |xs| && p(xs[i]))
            <==> (exists i :: 0 <= i < |init| && p(init[i])) || p(xs[|xs| - 1])
  {
    if exists i :: 0 <= i < |xs| && p(xs[i]) {
      var i :| 0 <= i < |xs| && p(xs[i]);
      if i < |init| {
        assert init[i] == xs[i];
      }
    }
    if exists i :: 0 <= i < |init| && p(init[i]) {
      var i :| 0 <= i < |init| && p(init[i]);
      assert xs[i] == init[i];
    }
  }

  lemma RecentKeysLast(rs: seq<Record>, c: int, k: string)
    requires AllValid(rs) && rs != []
    ensures AllValid(rs[..|rs| - 1])
    ensures k in RecentKeys(rs, c) <==> k in RecentKeys(rs[..|rs| - 1], c) || RecentOn(rs[|rs| - 1], c, k)
  {
    var init, last := rs[..|rs| - 1], rs[|rs| - 1];
    AllValidPrefix(rs, |rs| - 1);
    var tail := if Micros(last.timestamp) >= c then [DateKey(last.timestamp)] else [];
    assert RecentKeys(rs, c) == RecentKeys(init, c) + tail;
  }

  /** Counting only recent records never gives a day more than its full
      count. */
  lemma {:induction false} RecentCountBound(rs: seq<Record>, c: int, k: string)
    requires AllValid(rs)
    ensures Count(RecentKeys(rs, c), k) <= Count(DayKeys(rs), k)
  {
    if rs != [] {
      var init, last := rs[..|rs| - 1], rs[|rs| - 1];
      assert rs == init + [last];
      DayKeysSnoc(init, last);
      RecentCountBound(init, c, k);
      var ks := DayKeys(rs);
      assert ks[..|ks| - 1] == DayKeys(init);
      var rk := RecentKeys(rs, c);
      if Micros(last.timestamp) >= c {
        assert rk[..|rk| - 1] == RecentKeys(init, c);
      } else {
        assert rk == RecentKeys(init, c);
      }
    }
  }

  /** The recent counts add up to the number of records at or after the
      cutoff, and so to at most `total_count()`. */
  lemma RecentSum(rs: seq<Record>, c: int)
    requires AllValid(rs)
    ensures Sum(ByDay(RecentKeys(rs, c))) == |RecentKeys(rs, c)| <= TotalCount(rs)
  {
    ByDaySum(RecentKeys(rs, c));
  }

  /** A cutoff no later than every record counts them all. */
  lemma {:induction false} RecentAll(rs: seq<Record>, c: int)
    requires AllValid(rs)
    requires forall i :: 0 <= i < |rs| ==> Micros(rs[i].timestamp) >= c
    ensures RecentKeys(rs, c) == DayKeys(rs)
  {
    if rs != [] {
      var init, last := rs[..|rs| - 1], rs[|rs| - 1];
      assert rs == init + [last];
      DayKeysSnoc(init, last);
      assert forall i :: 0 <= i < |init| ==> init[i] == rs[i];
      RecentAll(init, c);
    }
  }

  // ---------------------------------------------------------------------
  // word_count and average_words_per_record
  // ---------------------------------------------------------------------

  /** The sum of the whitespace-split word counts of the contents. */
  function WordTotal(rs: seq<Record>): nat {
    if rs == [] then 0 else WordTotal(rs[..|rs| - 1]) + |Words(rs[|rs| - 1].content)|
  }

  /** `word_count()`. */
  method WordCount(rs: seq<Record>) returns (total: nat)
    ensures total == WordTotal(rs)
  {
    total := 0;
    for i := 0 to |rs|
      invariant total == WordTotal(rs[..i])
    {
      assert rs[..i + 1][..i] == rs[..i];
      total := total + |Words(rs[i].content)|;
    }
    assert rs[..|rs|] == rs;
  }

  /** Word totals add over concatenated lists. */
  lemma {:induction false} WordTotalAppend(a: seq<Record>, b: seq<Record>)
    ensures WordTotal(a + b) == WordTotal(a) + WordTotal(b)
  {
    if b == [] {
      assert a + b == a;
    } else {
      var ab := a + b;
      assert ab[..|ab| - 1] == a + b[..|b| - 1];
      assert ab[|ab| - 1] == b[|b| - 1];
      WordTotalAppend(a, b[..|b| - 1]);
    }
  }

  /** There are no words at all exactly when every content is blank. */
  lemma {:induction false} WordTotalZero(rs: seq<Record>)
    ensures WordTotal(rs) == 0 <==> forall i :: 0 <= i < |rs| ==> AllSpace(rs[i].content)
  {
    if rs != [] {
      var init := rs[..|rs| - 1];
      WordTotalZero(init);
      WordsEmptyIffBlank(rs[|rs| - 1].content);
      assert forall i :: 0 <= i < |init| ==> init[i] == rs[i];
    }
  }

  /** `average_words_per_record()`, in exact arithmetic: `0` for no
      records, otherwise the total spread evenly over the records. */
  function AverageWords(rs: seq<Record>): (avg: real)
    ensures rs == [] ==> avg == 0.0
    ensures rs != [] ==> avg * (|rs| as real) == WordTotal(rs) as real
    ensures avg >= 0.0
  {
    if rs == [] then 0.0
    else
      var total, n := WordTotal(rs) as real, |rs| as real;
      assert (total / n) * n == total;
      total / n
  }

  // ---------------------------------------------------------------------
  // busiest_day and summary
  // ---------------------------------------------------------------------

  /** The position `max(items, key=count)` picks: the first entry with the
      largest count. */
  function FirstMax(es: seq<(string, nat)>): (m: nat)
    requires es != []
    ensures m < |es|
    ensures forall k :: 0 <= k < |es| ==> es[k].1 <= es[m].1
    ensures forall k :: 0 <= k < m ==> es[k].1 < es[m].1
  {
    if |es| == 1 then 0
    else
      var j := FirstMax(es[..|es| - 1]);
      if es[|es| - 1].1 > es[j].1 then |es| - 1 else j
  }

  /** `busiest_day()` on a table. */
  function Busiest(es: seq<(string, nat)>): (Option<string>, nat) {
    if es == [] then (None, 0) else var m := FirstMax(es); (Some(es[m].0), es[m].1)
  }

  /** `busiest_day()`: `(None, 0)` without records; otherwise a day with
      the most records, the earliest such day on ties, with its count. */
  method BusiestDay(rs: seq<Record>) returns (day: Option<string>, count: nat)
    requires AllValid(rs)
    ensures (day, count) == Busiest(ByDay(DayKeys(rs)))
    ensures rs == [] <==> day.None?
    ensures rs == [] ==> count == 0
    ensures day.Some? ==> day.value in DayKeys(rs) && count == Count(DayKeys(rs), day.value)
    ensures day.Some? ==> forall k :: k in DayKeys(rs) ==> Count(DayKeys(rs), k) <= count
    ensures day.Some? ==> forall k :: k in DayKeys(rs) && LexLess(k, day.value) ==> Count(DayKeys(rs), k) < count
  {
    var byDate := RecordsByDate(rs);
    day, count := Busiest(byDate).0, Busiest(byDate).1;
    BusiestFacts(DayKeys(rs));
  }

  /** The facts `BusiestDay` promises, on the table of any day keys. */
  lemma BusiestFacts(ks: seq<string>)
    ensures var (day, count) := Busiest(ByDay(ks));
            && (ks == [] <==> day.None?)
            && (ks == [] ==> count == 0)
            && (day.Some? ==> day.value in ks && count == Count(ks, day.value))
            && (day.Some? ==> forall k :: k in ks ==> Count(ks, k) <= count)
            && (day.Some? ==> forall k :: k in ks && LexLess(k, day.value) ==> Count(ks, k) < count)
  {
    var es := ByDay(ks);
    ByDayFacts(ks);
    var ds := Days(es);
    if ks == [] {
      assert forall k :: k !in ds;
      assert es == [];
    } else {
      assert ks[0] in ds;
      var m := FirstMax(es);
      assert ds[m] == es[m].0;
      forall k | k in ks
        ensures Count(ks, k) <= es[m].1
        ensures LexLess(k, es[m].0) ==> Count(ks, k) < es[m].1
      {
        var i :| 0 <= i < |ds| && ds[i] == k;
        if LexLess(k, es[m].0) && m <= i {
          if i == m {
            LexLessIrreflexive(k);
          } else {
            assert LexLess(ds[m], ds[i]);
            LexLessAsymmetric(ds[m], ds[i]);
          }
        }
      }
    }
  }

  /** What `summary()` returns, with the average unrounded. */
  datatype Summary = Summary(totalRecords: nat, totalWords: nat, avgWordsPerRecord: real,
                             busiestDay: Option<string>, busiestDayCount: nat)

  /** `summary()`. */
  method Summarize(rs: seq<Record>) returns (s: Summary)
    requires AllValid(rs)
    ensures s.totalRecords == TotalCount(rs) && s.totalWords == WordTotal(rs)
    ensures s.avgWordsPerRecord == AverageWords(rs)
    ensures (s.busiestDay, s.busiestDayCount) == Busiest(ByDay(DayKeys(rs)))
    ensures s.busiestDayCount <= s.totalRecords
    ensures s.busiestDay.None? <==> s.totalRecords == 0
  {
    var day, count := BusiestDay(rs);
    var words := WordCount(rs);
    s := Summary(TotalCount(rs), words, AverageWords(rs), day, count);
    BusiestBound(DayKeys(rs));
  }

  /** The busiest day's count is at most the number of keys counted. */
  lemma BusiestBound(ks: seq<string>)
    ensures Busiest(ByDay(ks)).1 <= |ks|
  {
    var es := ByDay(ks);
    ByDaySum(ks);
    if es != [] {
      SumBound(es, FirstMax(es));
    }
  }

  lemma {:induction false} SumBound(es: seq<(string, nat)>, i: int)
    requires 0 <= i < |es|
    ensures es[i].1 <= Sum(es)
  {
    if i < |es| - 1 {
      SumBound(es[..|es| - 1], i);
    }
  }
}

=== FILE: storage.dfy ===
/**
 * The record store: a records directory (file name to text), the switch
 * that says whether saves are committed, and the directory's git
 * repository, which is driven through `git init`, `git config`, `git add`
 * and `git commit`. Which of those commands the git installation refuses
 * is a fixed parameter of the store (all of them when git is missing).
 */
module Storage {
  import opened Wrappers
  import opened Text
  import opened Lex
  import opened Clock
  import opened Records
  import opened Bags

  /** The git commands the store runs. */
  datatype GitOp = Init | DisableSigning | Add(path: string) | Commit(message: string)

  datatype CommitEntry = CommitEntry(message: string, paths: set<string>)

  /** The records directory's repository: whether `.git` exists, the paths
      added since the last commit, and the commits so far, oldest first. */
  datatype Repo = Repo(present: bool, staged: set<string>, history: seq<CommitEntry>)

  /** What a command that succeeds does to the repository. */
  function Exec(g: Repo, op: GitOp): Repo {
    match op
    case Init => g.(present := true)
    case DisableSigning => g
    case Add(p) => g.(staged := g.staged + {p})
    case Commit(m) => g.(staged := {}, history := g.history + [CommitEntry(m, g.staged)])
  }

  const GitIgnoreName: string := ".gitignore"
  const GitIgnoreText: string := "*.tmp\n*.swp\n"
  const InitialMessage: string := "Initialize diane records"

  function CommitMessage(name: string): string {
    "Record: " + name
  }

  /** Everything a store operation can change. */
  datatype StoreState = StoreState(files: map<string, string>, useGit: bool, repo: Repo, issued: seq<GitOp>)

  datatype GitRun = GitRun(after: StoreState, ok: bool)

  /** Running one git command: it is logged, and it takes effect unless the
      installation refuses it. */
  function RunGit(s: StoreState, op: GitOp, rejects: set<GitOp>): GitRun {
    var ok := op !in rejects;
    GitRun(s.(issued := s.issued + [op], repo := if ok then Exec(s.repo, op) else s.repo), ok)
  }

  // ---------------------------------------------------------------------
  // _ensure_initialized
  // ---------------------------------------------------------------------

  /** After `.gitignore` is in place: add and commit it. */
  function InitCommit(s: StoreState, rejects: set<GitOp>): StoreState {
    var a := RunGit(s, Add(GitIgnoreName), rejects);
    if !a.ok then a.after.(useGit := false)
    else
      var c := RunGit(a.after, Commit(InitialMessage), rejects);
      if !c.ok then c.after.(useGit := false) else c.after
  }

  /** `_ensure_initialized`: with git enabled and no `.git` yet, run
      `git init` and disable commit signing, then write, add and commit a
      `.gitignore` unless one exists. The first refused command stops the
      sequence and turns git off for the store. Only `.gitignore` may be
      written, and only where there was none; git stays on only with a
      repository in place. */
  function Initialized(s: StoreState, rejects: set<GitOp>): (t: StoreState)
    ensures t.files == s.files || t.files == s.files[GitIgnoreName := GitIgnoreText]
    ensures GitIgnoreName in s.files ==> t.files == s.files
    ensures t.useGit ==> s.useGit && t.repo.present
    ensures s.issued <= t.issued
  {
    if !s.useGit || s.repo.present then s
    else
      var i := RunGit(s, Init, rejects);
      if !i.ok then i.after.(useGit := false)
      else
        var d := RunGit(i.after, DisableSigning, rejects);
        if !d.ok then d.after.(useGit := false)
        else if GitIgnoreName in d.after.files then d.after
        else InitCommit(d.after.(files := d.after.files[GitIgnoreName := GitIgnoreText]), rejects)
  }

  /** Git stays on exactly when every git command initialisation issued
      succeeded. */
  lemma InitializedKeepsGitIffNoRefusal(s: StoreState, rejects: set<GitOp>)
    requires s.useGit
    ensures var t := Initialized(s, rejects);
            s.issued <= t.issued &&
            (t.useGit <==> forall k :: |s.issued| <= k < |t.issued| ==> t.issued[k] !in rejects)
  {
    var t := Initialized(s, rejects);
    if !s.repo.present {
      var i := RunGit(s, Init, rejects);
      assert i.after.issued[|s.issued|] == Init;
      if i.ok {
        var d := RunGit(i.after, DisableSigning, rejects);
        assert d.after.issued[|s.issued| + 1] == DisableSigning;
        if d.ok && GitIgnoreName !in d.after.files {
          var w := d.after.(files := d.after.files[GitIgnoreName := GitIgnoreText]);
          var a := RunGit(w, Add(GitIgnoreName), rejects);
          assert a.after.issued[|s.issued| + 2] == Add(GitIgnoreName);
          if a.ok {
            var c := RunGit(a.after, Commit(InitialMessage), rejects);
            assert c.after.issued[|s.issued| + 3] == Commit(InitialMessage);
          }
        }
      }
    }
  }

  /** A second initialisation changes nothing: either `.git` now exists, or
      git has been switched off. */
  lemma InitializedIdempotent(s: StoreState, rejects: set<GitOp>)
    ensures Initialized(Initialized(s, rejects), rejects) == Initialized(s, rejects)
  {
    var t := Initialized(s, rejects);
    assert !t.useGit || t.repo.present;
  }

  // ---------------------------------------------------------------------
  // save and _git_commit
  // ---------------------------------------------------------------------

  /** `_git_commit`: add the one file, then commit it; a refused command
      ends the attempt without any further effect. */
  function Committed(s: StoreState, name: string, rejects: set<GitOp>): StoreState {
    var a := RunGit(s, Add(name), rejects);
    if !a.ok then a.after else RunGit(a.after, Commit(CommitMessage(name)), rejects).after
  }

  /** `save`: write the encoded record under its file name (replacing any
      file of that name), then commit it when git is on. Exactly that one
      file is written, whatever git does, and the git switch is left
      alone. */
  function Saved(s: StoreState, r: Record, rejects: set<GitOp>): (t: StoreState)
    requires Valid(r.timestamp)
    ensures t.files == s.files[FileName(r) := ToMarkdown(r)]
    ensures t.useGit == s.useGit
  {
    var name := FileName(r);
    var w := s.(files := s.files[name := ToMarkdown(r)]);
    if s.useGit then Committed(w, name, rejects) else w
  }

  /** The saved file reads back through `from_file` as written, whatever
      git does, for a record whose labels are plain: the timestamp cut to
      the minute, and the content as a text-mode read gives it (unchanged
      when it holds no carriage return). No other file changes, and the git
      switch is left alone. */
  lemma SavedReadsBack(s: StoreState, r: Record, rejects: set<GitOp>, now: DateTime)
    requires Encodable(r)
    ensures var t := Saved(s, r, rejects);
            var audio := if HasAudio(r) then r.audioFile else None;
            && FileName(r) in t.files
            && FromFile(now)(t.files[FileName(r)]) ==
               Some(Record(ReadText(r.content), TruncateToMinute(r.timestamp), r.sources, audio))
            && ('\r' !in r.content ==>
                  FromFile(now)(t.files[FileName(r)]) == Some(Record(r.content, TruncateToMinute(r.timestamp), r.sources, audio)))
            && t.files.Keys == s.files.Keys + {FileName(r)}
            && (forall n :: n in s.files && n != FileName(r) ==> t.files[n] == s.files[n])
            && t.useGit == s.useGit
  {
    LoadEncoded(r, now);
  }

  /** With the corrected read, every one-line-labelled record comes back,
      labels ending in dashes included. */
  lemma SavedReadsBackAtLine(s: StoreState, r: Record, rejects: set<GitOp>, now: DateTime)
    requires LineEncodable(r)
    ensures var t := Saved(s, r, rejects);
            var audio := if HasAudio(r) then r.audioFile else None;
            && FileName(r) in t.files
            && FromFileAtLine(now)(t.files[FileName(r)]) ==
               Some(Record(ReadText(r.content), TruncateToMinute(r.timestamp), r.sources, audio))
            && ('\r' !in r.content ==>
                  FromFileAtLine(now)(t.files[FileName(r)]) == Some(Record(r.content, TruncateToMinute(r.timestamp), r.sources, audio)))
  {
    LoadAtLineEncoded(r, now);
  }

  /** With git on and nothing left staged, a save whose commands succeed
      adds one commit holding exactly the record's file, with message
      `Record: <name>`. With git off, no command is issued. */
  lemma SavedCommitsOnlyThatFile(s: StoreState, r: Record, rejects: set<GitOp>)
    requires Valid(r.timestamp)
    ensures var name := FileName(r);
            var t := Saved(s, r, rejects);
            && (!s.useGit ==> t.repo == s.repo && t.issued == s.issued)
            && (s.useGit ==> t.issued == s.issued + [Add(name)] + (if Add(name) in rejects then [] else [Commit(CommitMessage(name))]))
            && (s.useGit && s.repo.staged == {} && Add(name) !in rejects && Commit(CommitMessage(name)) !in rejects ==>
                  t.repo.history == s.repo.history + [CommitEntry(CommitMessage(name), {name})] && t.repo.staged == {})
  {
    var name := FileName(r);
    if s.useGit && Add(name) !in rejects {
      var w := s.(files := s.files[name := ToMarkdown(r)]);
      var a := RunGit(w, Add(name), rejects);
      assert a.after.repo.staged == s.repo.staged + {name};
      if s.repo.staged == {} {
        assert a.after.repo.staged == {name};
      }
    }
  }

  /** A file whose commit is refused after `git add` stays staged, so the
      next commit that succeeds carries it along. */
  lemma RefusedCommitLeavesFileStaged(s: StoreState, r: Record, rejects: set<GitOp>)
    requires Valid(r.timestamp) && s.useGit
    requires Add(FileName(r)) !in rejects && Commit(CommitMessage(FileName(r))) in rejects
    ensures FileName(r) in Saved(s, r, rejects).repo.staged
    ensures Saved(s, r, rejects).repo.history == s.repo.history
  {
  }

  // ---------------------------------------------------------------------
  // list_records
  // ---------------------------------------------------------------------

  /** How a file's text becomes a record, or `None` where reading it
      raises. */
  type Reader = string -> Option<Record>

  /** `Record.from_file` as written: the text-mode read and the parse cut
      at the first two delimiters. Whatever the file, a record read from it
      has stripped content and at least one source. */
  function FromFile(now: DateTime): (read: Reader)
    ensures forall text :: read(text).Some? ==> IsStripped(read(text).value.content) && read(text).value.sources != []
  {
    text => Load(text, now)
  }

  /** The corrected `Record.from_file`: the same read, with the header
      closed at its delimiter line. */
  function FromFileAtLine(now: DateTime): (read: Reader)
    ensures forall text :: read(text).Some? ==> IsStripped(read(text).value.content) && read(text).value.sources != []
  {
    text => LoadAtLine(text, now)
  }

  predicate IsMarkdownName(n: string) {
    |n| >= 3 && n[|n| - 3..] == ".md"
  }

  /** `records_dir.glob('*.md')`. */
  function MarkdownNames(files: map<string, string>): set<string> {
    set n | n in files && IsMarkdownName(n)
  }

  /** `sorted(..., reverse=True)`. */
  ghost function NewestFirst(files: map<string, string>): seq<string> {
    Reverse(SortedAsc(MarkdownNames(files)))
  }

  /** Whether a decoded record passes the `since` and `tags` filters. A
      non-empty `tags` reads `record.tags`, which records do not have; the
      resulting error is caught like a parse error and the file skipped. */
  predicate Passes(r: Record, since: Option<DateTime>, tags: Option<seq<string>>) {
    && !(since.Some? && Before(r.timestamp, since.value))
    && !(tags.Some? && tags.value != [])
  }

  /** The records the listing keeps from the names, in order, paired with
      their file names. */
  function Kept(files: map<string, string>, names: seq<string>, since: Option<DateTime>,
                tags: Option<seq<string>>, read: Reader): seq<(string, Record)>
  {
    if names == [] then []
    else
      var n := names[|names| - 1];
      var prior := Kept(files, names[..|names| - 1], since, tags, read);
      if n in files then
        match read(files[n])
        case Some(r) => if Passes(r, since, tags) then prior + [(n, r)] else prior
        case None => prior
      else prior
  }

  /** `if limit and len(records) >= limit: break` stops after `limit`
      records when `limit` is a non-zero number (after one record when it
      is negative); `None` and `0` impose no bound. */
  function Bound(limit: Option<int>): Option<nat> {
    if limit.None? || limit.value == 0 then None
    else if limit.value < 1 then Some(1)
    else Some(limit.value)
  }

  function Take<T>(xs: seq<T>, bound: Option<nat>): seq<T> {
    if bound.None? || |xs| <= bound.value then xs else xs[..bound.value]
  }

  function RecordsOf(entries: seq<(string, Record)>): seq<Record> {
    seq(|entries|, k requires 0 <= k < |entries| => entries[k].1)
  }


  /** What `list_records` returns: the kept records of the names visited
      newest first, cut at the bound. Each record is read from a markdown
      file of the directory and passes the `since` filter; the names are
      strictly descending; with a bound there are at most that many. */
  ghost function Listing(files: map<string, string>, limit: Option<int>, since: Option<DateTime>,
                         tags: Option<seq<string>>, read: Reader): (l: seq<(string, Record)>)
    ensures forall e :: e in l ==>
              && IsMarkdownName(e.0) && ReadsAs(files, read, e)
              && (since.Some? ==> !Before(e.1.timestamp, since.value))
    ensures StrictlyDescending(NamesOf(l))
    ensures Bound(limit).Some? ==> |l| <= Bound(limit).value
  {
    var ns := NewestFirst(files);
    var ks := Kept(files, ns, since, tags, read);
    NewestFirstDescending(files);
    KeptSound(files, ns, since, tags, read);
    KeptDescending(files, ns, since, tags, read);
    TakePrefix(ks, Bound(limit));
    NamesOfPrefix(Take(ks, Bound(limit)), ks);
    PrefixMembers(Take(ks, Bound(limit)), ks);
    Take(ks, Bound(limit))
  }

  lemma {:induction false} KeptPrefix(files: map<string, string>, names: seq<string>, i: nat,
                                      since: Option<DateTime>, tags: Option<seq<string>>, read: Reader)
    requires i <= |names|
    ensures Kept(files, names[..i], since, tags, read) <= Kept(files, names, since, tags, read)
    decreases |names|
  {
    if i < |names| {
      assert names[..|names| - 1][..i] == names[..i];
      KeptPrefix(files, names[..|names| - 1], i, since, tags, read);
    } else {
      assert names[..i] == names;
    }
  }

  /** The entry names a file that reads as the entry's record. */
  predicate ReadsAs(files: map<string, string>, read: Reader, e: (string, Record)) {
    e.0 in files && read(files[e.0]) == Some(e.1)
  }

  /** Every kept entry is a file among the names that reads as its record
      and passes the filters. */
  lemma {:induction false} KeptSound(files: map<string, string>, names: seq<string>,
                                     since: Option<DateTime>, tags: Option<seq<string>>, read: Reader)
    ensures forall e :: e in Kept(files, names, since, tags, read) ==>
              e.0 in names && ReadsAs(files, read, e) && Passes(e.1, since, tags)
  {
    if names != [] {
      var init := names[..|names| - 1];
      var last := names[|names| - 1];
      assert names == init + [last];
      KeptSound(files, init, since, tags, read);
    }
  }

  predicate StrictlyDescending(ns: seq<string>) {
    forall i, j :: 0 <= i < j < |ns| ==> LexLess(ns[j], ns[i])
  }

  /** The names of the entries, in order. */
  function NamesOf(entries: seq<(string, Record)>): (ns: seq<string>)
    ensures |ns| == |entries|
    ensures forall k :: 0 <= k < |entries| ==> ns[k] == entries[k].0
  {
    if entries == [] then [] else NamesOf(entries[..|entries| - 1]) + [entries[|entries| - 1].0]
  }

  /** Visiting names in strictly descending order keeps them in that
      order. */
  lemma {:induction false} KeptDescending(files: map<string, string>, names: seq<string>,
                                          since: Option<DateTime>, tags: Option<seq<string>>, read: Reader)
    requires StrictlyDescending(names)
    ensures StrictlyDescending(NamesOf(Kept(files, names, since, tags, read)))
  {
    if names != [] {
      var init := names[..|names| - 1];
      var last := names[|names| - 1];
      assert StrictlyDescending(init);
      KeptDescending(files, init, since, tags, read);
      KeptSound(files, init, since, tags, read);
      var prior := Kept(files, init, since, tags, read);
      var ks := Kept(files, names, since, tags, read);
      if ks != prior {
        var ns := NamesOf(ks);
        var ps := NamesOf(prior);
        assert ks == prior + [ks[|ks| - 1]] && ks[|ks| - 1].0 == last;
        forall k, l | 0 <= k < l < |ns|
          ensures LexLess(ns[l], ns[k])
        {
          assert ns[k] == ps[k] && prior[k] in prior;
          if l < |ps| {
            assert ns[l] == ps[l];
          } else {
            assert ns[l] == last;
            assert prior[k].0 in init;
            var a :| 0 <= a < |init| && init[a] == prior[k].0;
            assert names[a] == ns[k] && names[|names| - 1] == ns[l];
          }
        }
      }
    }
  }

  /** Every file among the names that reads as a record passing the
      filters is kept. */
  lemma {:induction false} KeptComplete(files: map<string, string>, names: seq<string>, n: string,
                                        since: Option<DateTime>, tags: Option<seq<string>>, read: Reader)
    requires n in names && n in files && read(files[n]).Some? && Passes(read(files[n]).value, since, tags)
    ensures (n, read(files[n]).value) in Kept(files, names, since, tags, read)
  {
    var last := names[|names| - 1];
    var init := names[..|names| - 1];
    var prior := Kept(files, init, since, tags, read);
    var ks := Kept(files, names, since, tags, read);
    assert prior <= ks;
    if n != last {
      assert names == init + [last];
      assert n in init;
      KeptComplete(files, init, n, since, tags, read);
    }
  }

  lemma ReverseDescending(asc: seq<string>)
    requires StrictlyAscending(asc)
    ensures StrictlyDescending(Reverse(asc))
    ensures forall n :: n in Reverse(asc) <==> n in asc
  {
    var ns := Reverse(asc);
    forall i, j | 0 <= i < j < |ns|
      ensures LexLess(ns[j], ns[i])
    {
      assert ns[j] == asc[|asc| - 1 - j] && ns[i] == asc[|asc| - 1 - i];
    }
    forall n | n in ns
      ensures n in asc
    {
      var i :| 0 <= i < |ns| && ns[i] == n;
      assert asc[|asc| - 1 - i] == n;
    }
    forall n | n in asc
      ensures n in ns
    {
      var i :| 0 <= i < |asc| && asc[i] == n;
      assert ns[|asc| - 1 - i] == n;
    }
  }

  /** The names `list_records` visits: every markdown name once, newest
      (greatest) first. */
  lemma NewestFirstDescending(files: map<string, string>)
    ensures StrictlyDescending(NewestFirst(files))
    ensures forall n :: n in NewestFirst(files) <==> n in MarkdownNames(files)
  {
    SortedAscProperties(MarkdownNames(files));
    ReverseDescending(SortedAsc(MarkdownNames(files)));
  }

  lemma TakePrefix<T>(xs: seq<T>, bound: Option<nat>)
    ensures Take(xs, bound) <= xs
    ensures bound.Some? ==> |Take(xs, bound)| <= bound.value
    ensures bound.Some? && |xs| >= bound.value ==> |Take(xs, bound)| == bound.value
  {
  }

  /** A prefix that already holds `bound` entries is what `Take` keeps. */
  lemma TakeFull<T>(xs: seq<T>, ys: seq<T>, bound: Option<nat>)
    requires xs <= ys
    requires (bound.Some? && |xs| == bound.value) || (ys == xs && (bound.None? || |xs| < bound.value))
    ensures Take(ys, bound) == xs
  {
  }

  /** One more name visited. */
  lemma KeptStep(files: map<string, string>, names: seq<string>, i: nat,
                 since: Option<DateTime>, tags: Option<seq<string>>, read: Reader)
    requires i < |names|
    ensures var n := names[i];
            var prior := Kept(files, names[..i], since, tags, read);
            Kept(files, names[..i + 1], since, tags, read)
            == if n in files && read(files[n]).Some? && Passes(read(files[n]).value, since, tags)
               then prior + [(n, read(files[n]).value)] else prior
  {
    assert names[..i + 1][..i] == names[..i];
  }

  /** Once `limit` records are kept, the rest of the names cannot change
      what `Take` keeps. */
  lemma KeepStops(files: map<string, string>, names: seq<string>, i: nat, limit: Option<int>,
                  since: Option<DateTime>, tags: Option<seq<string>>, read: Reader, kept: seq<(string, Record)>)
    requires i <= |names|
    requires kept == Kept(files, names[..i], since, tags, read)
    requires kept != [] && limit.Some? && limit.value != 0 && |kept| >= limit.value
    requires Bound(limit).Some? ==> |kept| <= Bound(limit).value
    ensures RecordsOf(kept) == RecordsOf(Take(Kept(files, names, since, tags, read), Bound(limit)))
  {
    KeptPrefix(files, names, i, since, tags, read);
    TakeFull(kept, Kept(files, names, since, tags, read), Bound(limit));
  }

  lemma RecordsOfAppend(entries: seq<(string, Record)>, e: (string, Record))
    ensures RecordsOf(entries + [e]) == RecordsOf(entries) + [e.1]
  {
    assert (entries + [e])[..|entries|] == entries;
  }

  lemma {:induction false} NamesOfPrefix(ys: seq<(string, Record)>, xs: seq<(string, Record)>)
    requires ys <= xs && StrictlyDescending(NamesOf(xs))
    ensures StrictlyDescending(NamesOf(ys))
  {
    var a, b := NamesOf(ys), NamesOf(xs);
    forall i, j | 0 <= i < j < |a|
      ensures LexLess(a[j], a[i])
    {
      assert a[i] == b[i] && a[j] == b[j];
    }
  }

  /** Every entry of a prefix is an entry of the sequence. */
  lemma PrefixMembers<T>(xs: seq<T>, ys: seq<T>)
    requires xs <= ys
    ensures forall e :: e in xs ==> e in ys
  {
    forall e | e in xs
      ensures e in ys
    {
      var k :| 0 <= k < |xs| && xs[k] == e;
      assert ys[k] == e;
    }
  }

  /** Without a bound, every markdown file that reads as a record passing
      the filters is listed. */
  lemma ListingComplete(files: map<string, string>, limit: Option<int>, since: Option<DateTime>,
                        tags: Option<seq<string>>, read: Reader, n: string)
    requires Bound(limit).None?
    requires n in files && IsMarkdownName(n) && read(files[n]).Some?
    requires Passes(read(files[n]).value, since, tags)
    ensures (n, read(files[n]).value) in Listing(files, limit, since, tags, read)
  {
    NewestFirstDescending(files);
    KeptComplete(files, NewestFirst(files), n, since, tags, read);
  }

  /** A non-empty `tags` argument empties the listing. */
  lemma {:induction false} TagsEmptyTheListing(files: map<string, string>, names: seq<string>,
                                               since: Option<DateTime>, tags: seq<string>, read: Reader)
    requires tags != []
    ensures Kept(files, names, since, Some(tags), read) == []
  {
    if names != [] {
      TagsEmptyTheListing(files, names[..|names| - 1], since, tags, read);
    }
  }

  /** The loop of `list_records`: visit the names in order, read each
      file, keep what passes the filters, and stop once the bound is
      reached. */
  method KeepNewest(files: map<string, string>, names: seq<string>, limit: Option<int>,
                    since: Option<DateTime>, tags: Option<seq<string>>, read: Reader)
    returns (records: seq<Record>)
    requires forall n :: n in names ==> n in files
    ensures records == RecordsOf(Take(Kept(files, names, since, tags, read), Bound(limit)))
  {
    ghost var kept: seq<(string, Record)> := [];
    records := [];
    var i := 0;
    while i < |names|
      invariant 0 <= i <= |names|
      invariant kept == Kept(files, names[..i], since, tags, read)
      invariant records == RecordsOf(kept)
      invariant Bound(limit).Some? ==> |kept| < Bound(limit).value
    {
      var n := names[i];
      assert n in files;
      KeptStep(files, names, i, since, tags, read);
      var decoded := read(files[n]);
      if decoded.Some? && Passes(decoded.value, since, tags) {
        var r := decoded.value;
        RecordsOfAppend(kept, (n, r));
        kept := kept + [(n, r)];
        records := records + [r];
        if limit.Some? && limit.value != 0 && |records| >= limit.value {
          KeepStops(files, names, i + 1, limit, since, tags, read, kept);
          return;
        }
      }
      i := i + 1;
    }
    assert names[..i] == names;
    TakeFull(kept, kept, Bound(limit));
  }

  // ---------------------------------------------------------------------
  // search
  // ---------------------------------------------------------------------

  /** `query in search_text`, on lower-cased text unless case-sensitive. */
  predicate Matches(r: Record, query: string, caseSensitive: bool) {
    if caseSensitive then Contains(r.content, query) else Contains(Lower(r.content), Lower(query))
  }

  function MatchOf(files: map<string, string>, n: string, query: string, caseSensitive: bool, read: Reader): multiset<Record> {
    if n in files then
      match read(files[n])
      case Some(r) => if Matches(r, query, caseSensitive) then multiset{r} else multiset{}
      case None => multiset{}
    else multiset{}
  }

  /** One file's contribution, as a function of the file name. */
  function MatchesOf(files: map<string, string>, query: string, caseSensitive: bool, read: Reader)
    : string -> multiset<Record>
  {
    n => MatchOf(files, n, query, caseSensitive, read)
  }

  /** The matching records of the named files, one per file, in no
      particular order. */
  ghost function MatchBag(files: map<string, string>, names: set<string>, query: string,
                          caseSensitive: bool, read: Reader): multiset<Record>
  {
    Gather(names, MatchesOf(files, query, caseSensitive, read))
  }

  /** The bag does not depend on which file is taken first. */
  lemma MatchBagRemove(files: map<string, string>, names: set<string>, n: string,
                       query: string, caseSensitive: bool, read: Reader)
    requires n in names
    ensures MatchBag(files, names, query, caseSensitive, read)
            == MatchBag(files, names - {n}, query, caseSensitive, read) + MatchOf(files, n, query, caseSensitive, read)
  {
    GatherRemove(names, n, MatchesOf(files, query, caseSensitive, read));
  }

  /** Taking one more file into the results keeps the total bag. */
  lemma MatchStep(files: map<string, string>, rest: set<string>, n: string, query: string,
                  caseSensitive: bool, read: Reader, before: multiset<Record>, after: multiset<Record>)
    requires n in rest
    requires after == before + MatchOf(files, n, query, caseSensitive, read)
    ensures after + MatchBag(files, rest - {n}, query, caseSensitive, read)
            == before + MatchBag(files, rest, query, caseSensitive, read)
  {
    MatchBagRemove(files, rest, n, query, caseSensitive, read);
  }

  /** The reading loop of `search`: every named file once, in an order
      left open, collecting the records that match. */
  method CollectMatches(files: map<string, string>, names: set<string>, query: string, caseSensitive: bool,
                        read: Reader)
    returns (results: seq<Record>)
    requires names <= files.Keys
    ensures multiset(results) == MatchBag(files, names, query, caseSensitive, read)
  {
    ghost var total := MatchBag(files, names, query, caseSensitive, read);
    var q := if caseSensitive then query else Lower(query);
    results := [];
    var rest := names;
    while rest != {}
      invariant rest <= names
      invariant multiset(results) + MatchBag(files, rest, query, caseSensitive, read) == total
      decreases |rest|
    {
      var n :| n in rest;
      ghost var before := results;
      MatchOfRead(files, n, query, caseSensitive, read);
      var decoded := read(files[n]);
      if decoded.Some? {
        var r := decoded.value;
        var text := if caseSensitive then r.content else Lower(r.content);
        if Contains(text, q) {
          results := results + [r];
        }
      }
      MatchStep(files, rest, n, query, caseSensitive, read, multiset(before), multiset(results));
      rest := rest - {n};
    }
  }

  /** One file's contribution, spelled the way `search` tests it. */
  lemma MatchOfRead(files: map<string, string>, n: string, query: string, caseSensitive: bool, read: Reader)
    requires n in files
    ensures var d := read(files[n]);
            MatchOf(files, n, query, caseSensitive, read)
            == if d.Some? && Contains(if caseSensitive then d.value.content else Lower(d.value.content),
                                      if caseSensitive then query else Lower(query))
               then multiset{d.value} else multiset{}
  {
  }

  /** A record is in the bag exactly when some markdown file reads as it
      and it matches. */
  lemma {:induction false} MatchBagMembers(files: map<string, string>, names: set<string>, query: string,
                                           caseSensitive: bool, read: Reader, r: Record)
    ensures r in MatchBag(files, names, query, caseSensitive, read) <==>
            exists n :: n in names && n in files && read(files[n]) == Some(r) && Matches(r, query, caseSensitive)
    decreases |names|
  {
    if names != {} {
      var n :| n in names;
      MatchBagRemove(files, names, n, query, caseSensitive, read);
      MatchBagMembers(files, names - {n}, query, caseSensitive, read, r);
    }
  }

  /** `results.sort(key=timestamp, reverse=True)`: newest first. */
  predicate NewestFirstByTime(rs: seq<Record>) {
    forall i, j :: 0 <= i < j < |rs| ==> !Before(rs[i].timestamp, rs[j].timestamp)
  }

  function InsertByTime(x: Record, rs: seq<Record>): (out: seq<Record>)
    requires NewestFirstByTime(rs)
    ensures multiset(out) == multiset(rs) + multiset{x}
    ensures NewestFirstByTime(out)
  {
    if rs == [] then [x]
    else if Before(rs[0].timestamp, x.timestamp) then
      InsertInFront(x, rs);
      [x] + rs
    else
      var tail := InsertByTime(x, rs[1..]);
      InsertBehind(x, rs, tail);
      [rs[0]] + tail
  }

  /** A record newer than the head of a newest-first list may go in front. */
  lemma InsertInFront(x: Record, rs: seq<Record>)
    requires NewestFirstByTime(rs) && rs != []
    requires Before(rs[0].timestamp, x.timestamp)
    ensures NewestFirstByTime([x] + rs)
  {
    forall j | 0 <= j < |rs|
      ensures !Before(x.timestamp, rs[j].timestamp)
    {
      if Before(x.timestamp, rs[j].timestamp) {
        if j > 0 {
          assert !Before(rs[0].timestamp, rs[j].timestamp);
        }
        BeforeTransitive(rs[0].timestamp, x.timestamp, rs[j].timestamp);
      }
    }
  }

  /** The head of a newest-first list stays in front of the rest with a
      record no newer than it inserted. */
  lemma InsertBehind(x: Record, rs: seq<Record>, tail: seq<Record>)
    requires NewestFirstByTime(rs) && rs != []
    requires !Before(rs[0].timestamp, x.timestamp)
    requires NewestFirstByTime(tail)
    requires multiset(tail) == multiset(rs[1..]) + multiset{x}
    ensures NewestFirstByTime([rs[0]] + tail)
    ensures multiset([rs[0]] + tail) == multiset(rs) + multiset{x}
  {
    assert rs == [rs[0]] + rs[1..];
    forall j | 0 <= j < |tail|
      ensures !Before(rs[0].timestamp, tail[j].timestamp)
    {
      assert tail[j] in multiset(tail);
      if tail[j] != x {
        assert tail[j] in multiset(rs[1..]);
        var k :| 0 <= k < |rs[1..]| && rs[1..][k] == tail[j];
        assert rs[k + 1] == tail[j];
      }
    }
  }

  /** A sort by timestamp, newest first: a permutation of its input in
      non-increasing time order. */
  function SortNewestFirst(rs: seq<Record>): (out: seq<Record>)
    ensures multiset(out) == multiset(rs)
    ensures NewestFirstByTime(out)
  {
    if rs == [] then []
    else
      assert rs == rs[..|rs| - 1] + [rs[|rs| - 1]];
      InsertByTime(rs[|rs| - 1], SortNewestFirst(rs[..|rs| - 1]))
  }

  /** The empty query matches every record, in either mode. */
  lemma EmptyQueryMatchesAll(r: Record, caseSensitive: bool)
    ensures Matches(r, "", caseSensitive)
  {
    ContainsEmpty(r.content);
    ContainsEmpty(Lower(r.content));
  }

  /** Lower-casing both sides only widens the match: a case-sensitive match
      is also a case-insensitive one. */
  lemma CaseSensitiveMatchImpliesInsensitive(r: Record, query: string)
    requires Matches(r, query, true)
    ensures Matches(r, query, false)
  {
    var t := r.content;
    var i :| 0 <= i <= |t| - |query| && query <= t[i..];
    assert Lower(query) <= Lower(t)[i..] by {
      forall k | 0 <= k < |query|
        ensures Lower(query)[k] == Lower(t)[i..][k]
      {
        assert query[k] == t[i..][k];
      }
    }
  }

  // ---------------------------------------------------------------------
  // from_file as written against the corrected read
  // ---------------------------------------------------------------------

  /** Every markdown file of the directory is one that `save` wrote for a
      record whose labels are plain. */
  ghost predicate WrittenPlain(files: map<string, string>) {
    forall n :: n in files && IsMarkdownName(n) ==> exists r :: Encodable(r) && files[n] == ToMarkdown(r)
  }

  /** On such a directory both reads give every file the same record. */
  lemma ReadersAgree(files: map<string, string>, now: DateTime)
    requires WrittenPlain(files)
    ensures forall n :: n in MarkdownNames(files) ==> FromFile(now)(files[n]) == FromFileAtLine(now)(files[n])
  {
    forall n | n in MarkdownNames(files)
      ensures FromFile(now)(files[n]) == FromFileAtLine(now)(files[n])
    {
      var r :| Encodable(r) && files[n] == ToMarkdown(r);
      LoadsAgree(r, now);
    }
  }

  /** Readers that agree on the visited files keep the same entries. */
  lemma {:induction false} KeptAgree(files: map<string, string>, names: seq<string>, since: Option<DateTime>,
                                     tags: Option<seq<string>>, read: Reader, other: Reader)
    requires forall n :: n in names && n in files ==> read(files[n]) == other(files[n])
    ensures Kept(files, names, since, tags, read) == Kept(files, names, since, tags, other)
  {
    if names != [] {
      assert names[|names| - 1] in names;
      KeptAgree(files, names[..|names| - 1], since, tags, read, other);
    }
  }

  /** On a directory `save` wrote for plain labels, `list_records` lists
      the same records through either read. */
  lemma ListingsAgree(files: map<string, string>, limit: Option<int>, since: Option<DateTime>,
                      tags: Option<seq<string>>, now: DateTime)
    requires WrittenPlain(files)
    ensures Listing(files, limit, since, tags, FromFile(now)) == Listing(files, limit, since, tags, FromFileAtLine(now))
  {
    ReadersAgree(files, now);
    NewestFirstDescending(files);
    KeptAgree(files, NewestFirst(files), since, tags, FromFile(now), FromFileAtLine(now));
  }

  /** On such a directory `search` finds the same records through either
      read. */
  lemma SearchesAgree(files: map<string, string>, query: string, caseSensitive: bool, now: DateTime)
    requires WrittenPlain(files)
    ensures MatchBag(files, MarkdownNames(files), query, caseSensitive, FromFile(now))
            == MatchBag(files, MarkdownNames(files), query, caseSensitive, FromFileAtLine(now))
  {
    ReadersAgree(files, now);
    var f, g := MatchesOf(files, query, caseSensitive, FromFile(now)), MatchesOf(files, query, caseSensitive, FromFileAtLine(now));
    forall n | n in MarkdownNames(files)
      ensures f(n) == g(n)
    {
    }
    GatherAgree(MarkdownNames(files), f, g);
  }

  // ---------------------------------------------------------------------
  // The store
  // ---------------------------------------------------------------------

  /** A `Storage` over its records directory, with the configuration's git
      switch. */
  class Store {
    var files: map<string, string>
    var useGit: bool
    var repo: Repo
    var issued: seq<GitOp>
    const rejects: set<GitOp>

    function State(): StoreState
      reads this
    {
      StoreState(files, useGit, repo, issued)
    }

    /** `Storage()`: take over the directory and initialise it. */
    constructor (dir: map<string, string>, gitEnabled: bool, existing: Repo, refused: set<GitOp>)
      ensures rejects == refused
      ensures State() == Initialized(StoreState(dir, gitEnabled, existing, []), refused)
    {
      files := dir;
      useGit := gitEnabled;
      repo := existing;
      issued := [];
      rejects := refused;
      new;
      EnsureInitialized();
    }

    /** Runs one git command against the repository. */
    method Git(op: GitOp) returns (ok: bool)
      modifies this
      ensures GitRun(State(), ok) == RunGit(old(State()), op, rejects)
    {
      issued := issued + [op];
      ok := op !in rejects;
      if ok {
        repo := Exec(repo, op);
      }
    }

    method EnsureInitialized()
      modifies this
      ensures State() == Initialized(old(State()), rejects)
    {
      if useGit && !repo.present {
        var ok := Git(Init);
        if ok {
          ok := Git(DisableSigning);
        }
        if ok && GitIgnoreName !in files {
          files := files[GitIgnoreName := GitIgnoreText];
          ok := Git(Add(GitIgnoreName));
          if ok {
            ok := Git(Commit(InitialMessage));
          }
        }
        if !ok {
          useGit := false;
        }
      }
    }

    method GitCommit(name: string)
      modifies this
      ensures State() == Committed(old(State()), name, rejects)
    {
      var ok := Git(Add(name));
      if ok {
        ok := Git(Commit(CommitMessage(name)));
      }
    }

    /** `save(record, encrypt)`: the encryption branch writes the same
        plain text as the other one. */
    method Save(r: Record, encrypt: bool, gpgKeyId: Option<string>) returns (path: string)
      requires Valid(r.timestamp)
      modifies this
      ensures path == FileName(r)
      ensures State() == Saved(old(State()), r, rejects)
    {
      path := FileName(r);
      var content := ToMarkdown(r);
      if encrypt && gpgKeyId.Some? && gpgKeyId.value != "" {
        files := files[path := content];
      } else {
        files := files[path := content];
      }
      if useGit {
        GitCommit(path);
      }
    }

    /** `list_records(limit, since, tags)`, with `now` standing for the
        clock `from_file` reads. */
    method ListRecords(limit: Option<int>, since: Option<DateTime>, tags: Option<seq<string>>, now: DateTime)
      returns (records: seq<Record>)
      ensures records == RecordsOf(Listing(files, limit, since, tags, FromFile(now)))
    {
      var asc := Sort(MarkdownNames(files));
      var names := Reverse(asc);
      NewestFirstDescending(files);
      records := KeepNewest(files, names, limit, since, tags, FromFile(now));
    }

    /** `search(query, case_sensitive)`: the files are read in whatever
        order the directory yields them; the matches are then sorted newest
        first. */
    method Search(query: string, caseSensitive: bool, now: DateTime) returns (results: seq<Record>)
      ensures multiset(results) == MatchBag(files, MarkdownNames(files), query, caseSensitive, FromFile(now))
      ensures NewestFirstByTime(results)
    {
      results := CollectMatches(files, MarkdownNames(files), query, caseSensitive, FromFile(now));
      results := SortNewestFirst(results);
    }
  }
}

=== FILE: sync.dfy ===
/**
 * Synchronising the records repository with its `origin` remote. The
 * repository is a snapshot of what git reports (whether `.git` exists,
 * what the remote, branch, porcelain and rev-list queries print) together
 * with the commands it refuses and the error each of them raises. Queries
 * read the snapshot; the commands that may change the repository
 * (`remote set-url`/`add`, `push`, `fetch`, `reset`, `pull`) are issued
 * through a `GitSync` object, which logs them.
 */
module Sync {
  import opened Wrappers
  import opened Text
  import opened Clock

  /** The git commands `GitSync` runs. */
  datatype Command =
    | GetUrl | BranchShow | Porcelain | RevList(branch: string)
    | SetUrl(url: string) | AddRemote(url: string)
    | Push(branch: string, force: bool) | Fetch | Reset(branch: string) | PullOrigin

  /** The command line each command is run as. */
  function Argv(c: Command): seq<string> {
    match c
    case GetUrl => ["git", "remote", "get-url", "origin"]
    case BranchShow => ["git", "branch", "--show-current"]
    case Porcelain => ["git", "status", "--porcelain"]
    case RevList(branch) => ["git", "rev-list", "--left-right", "--count", "origin/" + branch + "...HEAD"]
    case SetUrl(url) => ["git", "remote", "set-url", "origin", url]
    case AddRemote(url) => ["git", "remote", "add", "origin", url]
    case Push(branch, force) => ["git", "push", "-u", "origin", branch] + (if force then ["--force"] else [])
    case Fetch => ["git", "fetch", "origin"]
    case Reset(branch) => ["git", "reset", "--hard", "origin/" + branch]
    case PullOrigin => ["git", "pull", "origin"]
  }

  /** The queries only read the repository. */
  predicate IsQuery(c: Command) {
    c.GetUrl? || c.BranchShow? || c.Porcelain? || c.RevList?
  }

  /** A command that exits non-zero: the standard error it printed and the
      `str()` of the raised `CalledProcessError`. */
  datatype Failure = Failure(stderr: string, summary: string)

  datatype Outcome = Ok(stdout: string) | Err(failure: Failure)

  /** The records directory as git sees it. `origin` is what
      `git remote get-url origin` prints when the remote exists; the
      other outputs are what the branch, porcelain and rev-list queries
      print; `failures` are the commands that fail, with their errors. */
  datatype Backend = Backend(gitDir: bool, origin: Option<string>, branchOut: string,
                             porcelainOut: string, revListOut: string, failures: map<Command, Failure>)

  /** What `git remote get-url origin` raises when there is no `origin`. */
  const NoSuchRemote: Failure :=
    Failure("error: No such remote 'origin'\n",
            "Command '['git', 'remote', 'get-url', 'origin']' returned non-zero exit status 2.")

  /** Running a command against the snapshot. */
  function Run(b: Backend, c: Command): Outcome {
    if c in b.failures then Err(b.failures[c])
    else if c.GetUrl? then (if b.origin.Some? then Ok(b.origin.value) else Err(NoSuchRemote))
    else if c.BranchShow? then Ok(b.branchOut)
    else if c.Porcelain? then Ok(b.porcelainOut)
    else if c.RevList? then Ok(b.revListOut)
    else Ok("")
  }

  /** What the queries print, and that every other command that does not
      fail prints nothing the model reads. */
  lemma RunOutputs(b: Backend, c: Command)
    ensures c in b.failures ==> Run(b, c) == Err(b.failures[c])
    ensures c !in b.failures && c.BranchShow? ==> Run(b, c) == Ok(b.branchOut)
    ensures c !in b.failures && c.Porcelain? ==> Run(b, c) == Ok(b.porcelainOut)
    ensures c !in b.failures && c.RevList? ==> Run(b, c) == Ok(b.revListOut)
    ensures c !in b.failures && !IsQuery(c) ==> Run(b, c) == Ok("")
  {
  }

  /** What a command that succeeds does to the snapshot: setting or adding
      the remote makes `get-url` print the new URL. What the other
      commands do to the working tree and the branches is not part of the
      snapshot. */
  function Apply(b: Backend, c: Command): Backend {
    if c.SetUrl? || c.AddRemote? then b.(origin := Some(c.url + "\n")) else b
  }

  // ---------------------------------------------------------------------
  // Queries
  // ---------------------------------------------------------------------

  predicate IsGitRepo(b: Backend) {
    b.gitDir
  }

  /** `get_remote_url`: the trimmed output of `git remote get-url origin`,
      or `None` outside a repository or when the query fails. */
  function RemoteUrl(b: Backend): (r: Option<string>)
    ensures r.Some? <==> IsGitRepo(b) && Run(b, GetUrl).Ok?
    ensures r.Some? ==> IsStripped(r.value)
  {
    if !IsGitRepo(b) then None
    else
      match Run(b, GetUrl)
      case Ok(out) => Some(Strip(out))
      case Err(_) => None
  }

  /** `if self.get_remote_url()`: a URL that is there and not empty. */
  predicate HasRemote(b: Backend) {
    RemoteUrl(b).Some? && RemoteUrl(b).value != ""
  }

  /** `branch_result.stdout.strip() or 'master'`. */
  function BranchName(out: string): (name: string)
    ensures name != "" && IsStripped(name)
    ensures !AllSpace(out) ==> name == Strip(out)
    ensures AllSpace(out) ==> name == "master"
  {
    var s := Strip(out);
    if s == "" then
      StripEmptyIffBlank(out);
      assert !IsSpace('m') && !IsSpace('r');
      "master"
    else
      StripEmptyIffBlank(out);
      s
  }

  // ---------------------------------------------------------------------
  // Replies
  // ---------------------------------------------------------------------

  /** The `(success, message)` pair the operations return. */
  datatype Reply = Reply(ok: bool, message: string)

  /** An operation's reply, the snapshot afterwards, and the commands it
      issued that may change the repository, in order. */
  datatype Effect = Effect(reply: Reply, after: Backend, commands: seq<Command>)

  const NotRepoMessage: string := "Not a git repository"
  const NoRemoteMessage: string := "No remote configured. Use --set-remote first."

  /** `e.stderr.decode() if e.stderr else str(e)`: the standard error when
      there is any, else the error's own description. */
  function ErrorText(f: Failure): string {
    if f.stderr != "" then f.stderr else f.summary
  }

  /** The snapshot after issuing one command. */
  function Issued(b: Backend, c: Command): Backend {
    if Run(b, c).Ok? then Apply(b, c) else b
  }

  // ---------------------------------------------------------------------
  // set_remote
  // ---------------------------------------------------------------------

  /** `set_remote(url)`: outside a repository nothing is run; with a
      remote it is updated with `set-url`, otherwise added with `add`. The
      reply follows that one command's outcome, and a failure leaves the
      snapshot as it was. */
  function SetRemoteEffect(b: Backend, url: string): (e: Effect)
    ensures !IsGitRepo(b) ==> e == Effect(Reply(false, "Not a git repository"), b, [])
    ensures IsGitRepo(b) && HasRemote(b) ==>
              && e.commands == [SetUrl(url)]
              && (e.reply.ok <==> SetUrl(url) !in b.failures)
              && (e.reply.ok ==> e.reply.message == "Remote updated: " + url)
    ensures IsGitRepo(b) && !HasRemote(b) ==>
              && e.commands == [AddRemote(url)]
              && (e.reply.ok <==> AddRemote(url) !in b.failures)
              && (e.reply.ok ==> e.reply.message == "Remote added: " + url)
    ensures !e.reply.ok ==> e.after == b && (IsGitRepo(b) ==> "Failed to set remote: " <= e.reply.message)
  {
    if !IsGitRepo(b) then Effect(Reply(false, NotRepoMessage), b, [])
    else
      var update := HasRemote(b);
      var cmd := if update then SetUrl(url) else AddRemote(url);
      RunOutputs(b, cmd);
      match Run(b, cmd)
      case Err(f) =>
        var prefix := "Failed to set remote: ";
        assert prefix <= prefix + ErrorText(f);
        Effect(Reply(false, prefix + ErrorText(f)), b, [cmd])
      case Ok(_) =>
        Effect(Reply(true, (if update then "Remote updated: " else "Remote added: ") + url), Apply(b, cmd), [cmd])
  }

  /** The two command lines `set_remote` may run. */
  lemma RemoteArgv(url: string)
    ensures Argv(SetUrl(url)) == ["git", "remote", "set-url", "origin", url]
    ensures Argv(AddRemote(url)) == ["git", "remote", "add", "origin", url]
  {
  }

  /** After a successful `set_remote(url)` with a trimmed, non-empty URL,
      `get_remote_url` returns that URL (unless the query itself fails). */
  lemma SetRemoteThenGet(b: Backend, url: string)
    requires url != "" && IsStripped(url) && GetUrl !in b.failures
    requires SetRemoteEffect(b, url).reply.ok
    ensures RemoteUrl(SetRemoteEffect(b, url).after) == Some(url)
    ensures HasRemote(SetRemoteEffect(b, url).after)
  {
    var after := SetRemoteEffect(b, url).after;
    SetRemoteAfter(b, url);
    assert Run(after, GetUrl) == Ok(url + "\n");
    StripLine(url);
  }

  /** A successful `set_remote` leaves `origin` pointing at the URL. */
  lemma SetRemoteAfter(b: Backend, url: string)
    requires SetRemoteEffect(b, url).reply.ok
    ensures IsGitRepo(b)
    ensures SetRemoteEffect(b, url).after == b.(origin := Some(url + "\n"))
  {
  }

  /** `git remote get-url` ends its line with a newline, which `strip()`
      removes. */
  lemma StripLine(url: string)
    requires url != "" && IsStripped(url)
    ensures Strip(url + "\n") == url
  {
    assert AllSpace("\n") && AllSpace([]);
    StripPadded([], url, "\n");
    assert [] + url + "\n" == url + "\n";
  }

  // ---------------------------------------------------------------------
  // push, pull, sync
  // ---------------------------------------------------------------------

  /** The checks `push` and `pull` make before running anything, in
      order: the repository, then the remote. `None` when both pass. */
  function Guard(b: Backend): Option<Reply> {
    if !IsGitRepo(b) then Some(Reply(false, NotRepoMessage))
    else if !HasRemote(b) then Some(Reply(false, NoRemoteMessage))
    else None
  }

  /** A guard that stops `push` or `pull` reports a failure. */
  lemma GuardRefuses(b: Backend)
    ensures Guard(b).Some? ==> !Guard(b).value.ok
  {
  }

  /** `push(force)` past the guards: the branch query, then
      `git push -u origin <branch> [--force]`. */
  function PushSteps(b: Backend, force: bool): Effect {
    match Run(b, BranchShow)
    case Err(f) => Effect(Reply(false, "Push failed: " + ErrorText(f)), b, [])
    case Ok(out) =>
      var cmd := Push(BranchName(out), force);
      match Run(b, cmd)
      case Err(f) => Effect(Reply(false, "Push failed: " + ErrorText(f)), b, [cmd])
      case Ok(_) => Effect(Reply(true, "Successfully pushed to remote"), Apply(b, cmd), [cmd])
  }

  /** `push(force)`: it succeeds exactly when the guards pass and both the
      branch query and the push succeed; the snapshot is unchanged. */
  function PushEffect(b: Backend, force: bool): (e: Effect)
    ensures e.reply.ok <==> IsGitRepo(b) && HasRemote(b) && BranchShow !in b.failures
                            && Push(BranchName(b.branchOut), force) !in b.failures
    ensures e.after == b
  {
    PushShape(b, force);
    match Guard(b)
    case Some(r) => Effect(r, b, [])
    case None => PushSteps(b, force)
  }

  /** `pull(force)` past the guards: a forced pull fetches, queries the
      branch and resets hard to `origin/<branch>`; a plain one runs
      `git pull origin`. */
  function PullSteps(b: Backend, force: bool): Effect {
    if force then
      match Run(b, Fetch)
      case Err(f) => Effect(Reply(false, "Pull failed: " + ErrorText(f)), b, [Fetch])
      case Ok(_) =>
        var fetched := Apply(b, Fetch);
        match Run(fetched, BranchShow)
        case Err(f) => Effect(Reply(false, "Pull failed: " + ErrorText(f)), fetched, [Fetch])
        case Ok(out) =>
          var cmd := Reset(BranchName(out));
          match Run(fetched, cmd)
          case Err(f) => Effect(Reply(false, "Pull failed: " + ErrorText(f)), fetched, [Fetch, cmd])
          case Ok(_) => Effect(Reply(true, "Successfully reset to remote state"), Apply(fetched, cmd), [Fetch, cmd])
    else
      match Run(b, PullOrigin)
      case Err(f) => Effect(Reply(false, "Pull failed: " + ErrorText(f)), b, [PullOrigin])
      case Ok(_) => Effect(Reply(true, "Successfully pulled from remote"), Apply(b, PullOrigin), [PullOrigin])
  }

  /** `pull(force)`: it succeeds exactly when the guards pass and each
      command of the chosen pull succeeds; the snapshot is unchanged. */
  function PullEffect(b: Backend, force: bool): (e: Effect)
    ensures !force ==> (e.reply.ok <==> IsGitRepo(b) && HasRemote(b) && PullOrigin !in b.failures)
    ensures force ==> (e.reply.ok <==> IsGitRepo(b) && HasRemote(b) && Fetch !in b.failures
                                       && BranchShow !in b.failures && Reset(BranchName(b.branchOut)) !in b.failures)
    ensures e.after == b
  {
    PullShape(b, force);
    match Guard(b)
    case Some(r) => Effect(r, b, [])
    case None => PullSteps(b, force)
  }

  /** `sync()`: a plain pull, then a plain push on what the pull left. It
      succeeds exactly when the guards pass and the pull, the branch query
      and the push all succeed. */
  function SyncEffect(b: Backend): (e: Effect)
    ensures e.reply.ok <==> IsGitRepo(b) && HasRemote(b) && PullOrigin !in b.failures
                            && BranchShow !in b.failures && Push(BranchName(b.branchOut), false) !in b.failures
    ensures e.after == b
  {
    var p := PullEffect(b, false);
    if !p.reply.ok then Effect(Reply(false, "Sync failed during pull: " + p.reply.message), p.after, p.commands)
    else
      var q := PushEffect(p.after, false);
      if !q.reply.ok then Effect(Reply(false, "Sync failed during push: " + q.reply.message), q.after, p.commands + q.commands)
      else Effect(Reply(true, "Successfully synced with remote"), q.after, p.commands + q.commands)
  }

  /** Both `push` and `pull` check the repository before the remote; a
      failed check runs no command and changes nothing; past the checks
      they take their steps. */
  lemma GuardOrder(b: Backend, force: bool)
    ensures !IsGitRepo(b) ==>
              && PushEffect(b, force) == Effect(Reply(false, "Not a git repository"), b, [])
              && PullEffect(b, force) == Effect(Reply(false, "Not a git repository"), b, [])
    ensures IsGitRepo(b) && !HasRemote(b) ==>
              && PushEffect(b, force) == Effect(Reply(false, "No remote configured. Use --set-remote first."), b, [])
              && PullEffect(b, force) == Effect(Reply(false, "No remote configured. Use --set-remote first."), b, [])
    ensures IsGitRepo(b) && HasRemote(b) ==>
              PushEffect(b, force) == PushSteps(b, force) && PullEffect(b, force) == PullSteps(b, force)
  {
  }

  /** The push command line names the branch and ends in `--force`
      exactly when forced. */
  lemma PushArgv(branch: string, force: bool)
    ensures Argv(Push(branch, force))[..5] == ["git", "push", "-u", "origin", branch]
    ensures |Argv(Push(branch, force))| == (if force then 6 else 5)
    ensures force ==> Argv(Push(branch, force))[5] == "--force"
  {
  }

  /** Past the guards, `push` issues at most the one push command, for the
      current branch (or `master`) and forced exactly when asked; it
      succeeds exactly when the branch query and the push do; a failure
      reports `Push failed: `. Nothing it runs changes the snapshot. */
  lemma PushShape(b: Backend, force: bool)
    ensures var e := PushSteps(b, force);
            && (BranchShow in b.failures ==> e.commands == [])
            && (BranchShow !in b.failures ==> e.commands == [Push(BranchName(b.branchOut), force)])
            && (e.reply.ok <==> BranchShow !in b.failures && Push(BranchName(b.branchOut), force) !in b.failures)
            && (e.reply.ok ==> e.reply.message == "Successfully pushed to remote")
            && (!e.reply.ok ==> "Push failed: " <= e.reply.message)
            && e.after == b
  {
    var cmd := Push(BranchName(b.branchOut), force);
    RunOutputs(b, BranchShow);
    if BranchShow in b.failures {
      PushStepsBranchFails(b, force);
    } else {
      RunOutputs(b, cmd);
      if cmd in b.failures {
        PushStepsPushFails(b, force);
      } else {
        PushStepsSucceed(b, force);
      }
    }
  }

  lemma PushStepsBranchFails(b: Backend, force: bool)
    requires BranchShow in b.failures
    ensures PushSteps(b, force) == Effect(Reply(false, "Push failed: " + ErrorText(b.failures[BranchShow])), b, [])
  {
    RunOutputs(b, BranchShow);
  }

  lemma PushStepsPushFails(b: Backend, force: bool)
    requires BranchShow !in b.failures && Push(BranchName(b.branchOut), force) in b.failures
    ensures var cmd := Push(BranchName(b.branchOut), force);
            PushSteps(b, force) == Effect(Reply(false, "Push failed: " + ErrorText(b.failures[cmd])), b, [cmd])
  {
    RunOutputs(b, BranchShow);
    RunOutputs(b, Push(BranchName(b.branchOut), force));
  }

  lemma PushStepsSucceed(b: Backend, force: bool)
    requires BranchShow !in b.failures && Push(BranchName(b.branchOut), force) !in b.failures
    ensures var cmd := Push(BranchName(b.branchOut), force);
            PushSteps(b, force) == Effect(Reply(true, "Successfully pushed to remote"), b, [cmd])
  {
    var cmd := Push(BranchName(b.branchOut), force);
    assert !IsQuery(cmd) && Apply(b, cmd) == b;
    RunOutputs(b, BranchShow);
    RunOutputs(b, cmd);
  }

  /** Past the guards, a forced pull fetches and then resets to
      `origin/<branch>`; a plain pull runs `git pull origin` and nothing
      else. */
  lemma PullShape(b: Backend, force: bool)
    ensures var e := PullSteps(b, force);
            && (!force ==> e.commands == [PullOrigin] && (e.reply.ok <==> PullOrigin !in b.failures))
            && (force ==> e.commands == [Fetch] || e.commands == [Fetch, Reset(BranchName(b.branchOut))])
            && (force ==> (e.reply.ok <==> Fetch !in b.failures && BranchShow !in b.failures
                                           && Reset(BranchName(b.branchOut)) !in b.failures))
            && (!e.reply.ok ==> "Pull failed: " <= e.reply.message)
            && e.after == b
  {
    if force {
      ForcedPullSteps(b);
    } else {
      RunOutputs(b, PullOrigin);
      assert Apply(b, PullOrigin) == b;
    }
  }

  /** The outcome of each step of a forced pull. */
  lemma ForcedPullSteps(b: Backend)
    ensures var e := PullSteps(b, true);
            var cmd := Reset(BranchName(b.branchOut));
            && (Fetch in b.failures ==>
                  e == Effect(Reply(false, "Pull failed: " + ErrorText(b.failures[Fetch])), b, [Fetch]))
            && (Fetch !in b.failures && BranchShow in b.failures ==>
                  e == Effect(Reply(false, "Pull failed: " + ErrorText(b.failures[BranchShow])), b, [Fetch]))
            && (Fetch !in b.failures && BranchShow !in b.failures && cmd in b.failures ==>
                  e == Effect(Reply(false, "Pull failed: " + ErrorText(b.failures[cmd])), b, [Fetch, cmd]))
            && (Fetch !in b.failures && BranchShow !in b.failures && cmd !in b.failures ==>
                  e == Effect(Reply(true, "Successfully reset to remote state"), b, [Fetch, cmd]))
  {
    var cmd := Reset(BranchName(b.branchOut));
    RunOutputs(b, Fetch);
    assert Apply(b, Fetch) == b;
    if Fetch !in b.failures {
      RunOutputs(b, BranchShow);
      if BranchShow !in b.failures {
        RunOutputs(b, cmd);
        assert Apply(b, cmd) == b;
      }
    }
  }

  /** The pull command lines. */
  lemma PullArgv(branch: string)
    ensures Argv(Fetch) == ["git", "fetch", "origin"]
    ensures Argv(Reset(branch)) == ["git", "reset", "--hard", "origin/" + branch]
    ensures Argv(PullOrigin) == ["git", "pull", "origin"]
  {
  }

  /** `sync` succeeds exactly when the pull and then the push succeed; a
      failed pull is reported with its message, and no push is attempted. */
  lemma SyncShortCircuit(b: Backend)
    ensures var p := PullEffect(b, false);
            var e := SyncEffect(b);
            && (e.reply.ok <==> p.reply.ok && PushEffect(p.after, false).reply.ok)
            && (!p.reply.ok ==> e.reply.message == "Sync failed during pull: " + p.reply.message
                                && e.commands == p.commands
                                && forall k :: 0 <= k < |e.commands| ==> !e.commands[k].Push?)
            && (p.reply.ok && !PushEffect(p.after, false).reply.ok ==>
                  e.reply.message == "Sync failed during push: " + PushEffect(p.after, false).reply.message)
  {
    GuardOrder(b, false);
    PullShape(b, false);
  }

  /** A successful `sync` ran exactly `git pull origin` and then
      `git push -u origin <branch>`. */
  lemma SyncCommands(b: Backend)
    requires SyncEffect(b).reply.ok
    ensures SyncEffect(b).reply.message == "Successfully synced with remote"
    ensures SyncEffect(b).commands == [PullOrigin, Push(BranchName(b.branchOut), false)]
  {
    var p := PullEffect(b, false);
    assert p.reply.ok;
    assert Guard(b) == None by {
      GuardRefuses(b);
    }
    assert p == PullSteps(b, false);
    PullShape(b, false);
    assert p.after == b && p.commands == [PullOrigin];
    PushShape(b, false);
    var q := PushEffect(b, false);
    assert q == PushSteps(b, false);
    assert q.reply.ok;
    assert q.commands == [Push(BranchName(b.branchOut), false)];
    var e := SyncEffect(b);
    assert e == Effect(Reply(true, "Successfully synced with remote"), q.after, p.commands + q.commands);
    PairConcat(PullOrigin, Push(BranchName(b.branchOut), false));
  }

  // ---------------------------------------------------------------------
  // Failures as `push` and `pull` report them
  // ---------------------------------------------------------------------

  /** The commands run with `text=True`, whose captured standard error is
      a `str` rather than bytes. */
  predicate TextMode(c: Command) {
    IsQuery(c) || c.Push? || c.PullOrigin?
  }

  /** `e.stderr.decode() if e.stderr else str(e)` as written in `push` and
      `pull`: `None` is the `AttributeError` a `str` raises on `.decode()`,
      which escapes the method. */
  function ErrorTextAsWritten(f: Failure, c: Command): Option<string> {
    if f.stderr == "" then Some(f.summary)
    else if TextMode(c) then None
    else Some(f.stderr)
  }

  function FailedAsWritten(prefix: string, f: Failure, c: Command): Option<Reply> {
    match ErrorTextAsWritten(f, c)
    case None => None
    case Some(t) => Some(Reply(false, prefix + t))
  }

  /** `push(force)` past the guards, as written: `None` where it raises. */
  function PushStepsAsWritten(b: Backend, force: bool): Option<Reply> {
    match Run(b, BranchShow)
    case Err(f) => FailedAsWritten("Push failed: ", f, BranchShow)
    case Ok(out) =>
      var cmd := Push(BranchName(out), force);
      match Run(b, cmd)
      case Err(f) => FailedAsWritten("Push failed: ", f, cmd)
      case Ok(_) => Some(Reply(true, "Successfully pushed to remote"))
  }

  function PushAsWritten(b: Backend, force: bool): Option<Reply> {
    match Guard(b)
    case Some(r) => Some(r)
    case None => PushStepsAsWritten(b, force)
  }

  /** `pull(force)` past the guards, as written: `None` where it raises. */
  function PullStepsAsWritten(b: Backend, force: bool): Option<Reply> {
    if force then
      match Run(b, Fetch)
      case Err(f) => FailedAsWritten("Pull failed: ", f, Fetch)
      case Ok(_) =>
        match Run(b, BranchShow)
        case Err(f) => FailedAsWritten("Pull failed: ", f, BranchShow)
        case Ok(out) =>
          var cmd := Reset(BranchName(out));
          match Run(b, cmd)
          case Err(f) => FailedAsWritten("Pull failed: ", f, cmd)
          case Ok(_) => Some(Reply(true, "Successfully reset to remote state"))
    else
      match Run(b, PullOrigin)
      case Err(f) => FailedAsWritten("Pull failed: ", f, PullOrigin)
      case Ok(_) => Some(Reply(true, "Successfully pulled from remote"))
  }

  function PullAsWritten(b: Backend, force: bool): Option<Reply> {
    match Guard(b)
    case Some(r) => Some(r)
    case None => PullStepsAsWritten(b, force)
  }

  /** A rejected push that prints to standard error makes `push` as
      written raise instead of answering `Push failed: <stderr>`. */
  lemma PushDecodeRaises(b: Backend, force: bool, stderr: string, summary: string)
    requires IsGitRepo(b) && HasRemote(b) && BranchShow !in b.failures
    requires Push(BranchName(b.branchOut), force) in b.failures
    requires b.failures[Push(BranchName(b.branchOut), force)] == Failure(stderr, summary)
    requires stderr != ""
    ensures PushAsWritten(b, force) == None
    ensures PushEffect(b, force).reply == Reply(false, "Push failed: " + stderr)
  {
    GuardOrder(b, force);
    PushStepsAsWrittenCases(b, force);
    PushStepsPushFails(b, force);
  }

  /** A rejected `git pull origin` that prints to standard error makes
      `pull` as written raise instead of answering `Pull failed: <stderr>`. */
  lemma PullDecodeRaises(b: Backend, stderr: string, summary: string)
    requires IsGitRepo(b) && HasRemote(b)
    requires PullOrigin in b.failures && b.failures[PullOrigin] == Failure(stderr, summary)
    requires stderr != ""
    ensures PullAsWritten(b, false) == None
    ensures PullEffect(b, false).reply == Reply(false, "Pull failed: " + stderr)
  {
    GuardOrder(b, false);
    PullStepsAsWrittenCases(b, false);
    RunOutputs(b, PullOrigin);
  }

  /** Apart from raising, `push` as written answers what the corrected
      one does. */
  lemma PushAsWrittenAgrees(b: Backend, force: bool)
    ensures PushAsWritten(b, force) == None || PushAsWritten(b, force) == Some(PushEffect(b, force).reply)
  {
    PushStepsAgree(b, force);
  }

  lemma PushStepsAgree(b: Backend, force: bool)
    ensures PushStepsAsWritten(b, force) == None || PushStepsAsWritten(b, force) == Some(PushSteps(b, force).reply)
  {
    var cmd := Push(BranchName(b.branchOut), force);
    PushStepsAsWrittenCases(b, force);
    if BranchShow in b.failures {
      PushStepsBranchFails(b, force);
      FailedAgrees("Push failed: ", b.failures[BranchShow], BranchShow);
    } else if cmd in b.failures {
      PushStepsPushFails(b, force);
      FailedAgrees("Push failed: ", b.failures[cmd], cmd);
    } else {
      PushStepsSucceed(b, force);
    }
  }

  /** Where the as-written `push` steps end, case by case. */
  lemma PushStepsAsWrittenCases(b: Backend, force: bool)
    ensures var cmd := Push(BranchName(b.branchOut), force);
            && (BranchShow in b.failures ==>
                  PushStepsAsWritten(b, force) == FailedAsWritten("Push failed: ", b.failures[BranchShow], BranchShow))
            && (BranchShow !in b.failures && cmd in b.failures ==>
                  PushStepsAsWritten(b, force) == FailedAsWritten("Push failed: ", b.failures[cmd], cmd))
            && (BranchShow !in b.failures && cmd !in b.failures ==>
                  PushStepsAsWritten(b, force) == Some(Reply(true, "Successfully pushed to remote")))
  {
    RunOutputs(b, BranchShow);
    RunOutputs(b, Push(BranchName(b.branchOut), force));
  }

  /** Where the as-written `pull` steps end, case by case. */
  lemma PullStepsAsWrittenCases(b: Backend, force: bool)
    ensures var cmd := Reset(BranchName(b.branchOut));
            && (force && Fetch in b.failures ==>
                  PullStepsAsWritten(b, force) == FailedAsWritten("Pull failed: ", b.failures[Fetch], Fetch))
            && (force && Fetch !in b.failures && BranchShow in b.failures ==>
                  PullStepsAsWritten(b, force) == FailedAsWritten("Pull failed: ", b.failures[BranchShow], BranchShow))
            && (force && Fetch !in b.failures && BranchShow !in b.failures && cmd in b.failures ==>
                  PullStepsAsWritten(b, force) == FailedAsWritten("Pull failed: ", b.failures[cmd], cmd))
            && (force && Fetch !in b.failures && BranchShow !in b.failures && cmd !in b.failures ==>
                  PullStepsAsWritten(b, force) == Some(Reply(true, "Successfully reset to remote state")))
            && (!force && PullOrigin in b.failures ==>
                  PullStepsAsWritten(b, force) == FailedAsWritten("Pull failed: ", b.failures[PullOrigin], PullOrigin))
            && (!force && PullOrigin !in b.failures ==>
                  PullStepsAsWritten(b, force) == Some(Reply(true, "Successfully pulled from remote")))
  {
    if force {
      ForcedPullAsWritten(b);
    } else {
      PlainPullAsWritten(b);
    }
  }

  /** A forced pull as written: which command fails first decides the answer. */
  lemma ForcedPullAsWritten(b: Backend)
    ensures var cmd := Reset(BranchName(b.branchOut));
            && (Fetch in b.failures ==>
                  PullStepsAsWritten(b, true) == FailedAsWritten("Pull failed: ", b.failures[Fetch], Fetch))
            && (Fetch !in b.failures && BranchShow in b.failures ==>
                  PullStepsAsWritten(b, true) == FailedAsWritten("Pull failed: ", b.failures[BranchShow], BranchShow))
            && (Fetch !in b.failures && BranchShow !in b.failures && cmd in b.failures ==>
                  PullStepsAsWritten(b, true) == FailedAsWritten("Pull failed: ", b.failures[cmd], cmd))
            && (Fetch !in b.failures && BranchShow !in b.failures && cmd !in b.failures ==>
                  PullStepsAsWritten(b, true) == Some(Reply(true, "Successfully reset to remote state")))
  {
    var cmd := Reset(BranchName(b.branchOut));
    if Fetch in b.failures {
      assert Run(b, Fetch) == Err(b.failures[Fetch]);
    } else if BranchShow in b.failures {
      ForcedPullBranchFails(b);
    } else if cmd in b.failures {
      ForcedPullResetFails(b);
    } else {
      ForcedPullResets(b);
    }
  }

  lemma ForcedPullBranchFails(b: Backend)
    requires Fetch !in b.failures && BranchShow in b.failures
    ensures PullStepsAsWritten(b, true) == FailedAsWritten("Pull failed: ", b.failures[BranchShow], BranchShow)
  {
    RunOutputs(b, Fetch);
    RunOutputs(b, BranchShow);
  }

  lemma ForcedPullResetFails(b: Backend)
    requires Fetch !in b.failures && BranchShow !in b.failures
    requires Reset(BranchName(b.branchOut)) in b.failures
    ensures var cmd := Reset(BranchName(b.branchOut));
            PullStepsAsWritten(b, true) == FailedAsWritten("Pull failed: ", b.failures[cmd], cmd)
  {
    RunOutputs(b, Fetch);
    RunOutputs(b, BranchShow);
    RunOutputs(b, Reset(BranchName(b.branchOut)));
  }

  lemma ForcedPullResets(b: Backend)
    requires Fetch !in b.failures && BranchShow !in b.failures
    requires Reset(BranchName(b.branchOut)) !in b.failures
    ensures PullStepsAsWritten(b, true) == Some(Reply(true, "Successfully reset to remote state"))
  {
    var cmd := Reset(BranchName(b.branchOut));
    RunOutputs(b, Fetch);
    RunOutputs(b, BranchShow);
    RunOutputs(b, cmd);
  }

  /** A plain pull as written: `git pull origin` alone decides the answer. */
  lemma PlainPullAsWritten(b: Backend)
    ensures PullOrigin in b.failures ==>
              PullStepsAsWritten(b, false) == FailedAsWritten("Pull failed: ", b.failures[PullOrigin], PullOrigin)
    ensures PullOrigin !in b.failures ==>
              PullStepsAsWritten(b, false) == Some(Reply(true, "Successfully pulled from remote"))
  {
    RunOutputs(b, PullOrigin);
  }

  /** A failure as written either raises or reports what the corrected
      code reports; with nothing on standard error it reports. */
  lemma FailedAgrees(prefix: string, f: Failure, c: Command)
    ensures FailedAsWritten(prefix, f, c) == None || FailedAsWritten(prefix, f, c) == Some(Reply(false, prefix + ErrorText(f)))
    ensures f.stderr == "" ==> FailedAsWritten(prefix, f, c) == Some(Reply(false, prefix + ErrorText(f)))
  {
  }

  /** The same for `pull`, forced or not. */
  lemma PullAsWrittenAgrees(b: Backend, force: bool)
    ensures PullAsWritten(b, force) == None || PullAsWritten(b, force) == Some(PullEffect(b, force).reply)
  {
    PullStepsAgree(b, force);
  }

  lemma PullStepsAgree(b: Backend, force: bool)
    ensures PullStepsAsWritten(b, force) == None || PullStepsAsWritten(b, force) == Some(PullSteps(b, force).reply)
  {
    var cmd := Reset(BranchName(b.branchOut));
    PullStepsAsWrittenCases(b, force);
    if force {
      ForcedPullSteps(b);
      if Fetch in b.failures {
        FailedAgrees("Pull failed: ", b.failures[Fetch], Fetch);
      } else if BranchShow in b.failures {
        FailedAgrees("Pull failed: ", b.failures[BranchShow], BranchShow);
      } else if cmd in b.failures {
        FailedAgrees("Pull failed: ", b.failures[cmd], cmd);
      }
    } else {
      RunOutputs(b, PullOrigin);
      if PullOrigin in b.failures {
        FailedAgrees("Pull failed: ", b.failures[PullOrigin], PullOrigin);
      }
    }
  }

  /** When no failing command prints to standard error, `push` and `pull`
      as written never raise and answer what the corrected ones do. */
  lemma QuietFailuresAgree(b: Backend, force: bool)
    requires forall c :: c in b.failures ==> b.failures[c].stderr == ""
    ensures PushAsWritten(b, force) == Some(PushEffect(b, force).reply)
    ensures PullAsWritten(b, force) == Some(PullEffect(b, force).reply)
  {
    QuietPushAgrees(b, force);
    QuietPullAgrees(b, force);
  }

  lemma QuietPushAgrees(b: Backend, force: bool)
    requires forall c :: c in b.failures ==> b.failures[c].stderr == ""
    ensures PushStepsAsWritten(b, force) == Some(PushSteps(b, force).reply)
  {
    var cmd := Push(BranchName(b.branchOut), force);
    PushStepsAsWrittenCases(b, force);
    if BranchShow in b.failures {
      PushStepsBranchFails(b, force);
      FailedAgrees("Push failed: ", b.failures[BranchShow], BranchShow);
    } else if cmd in b.failures {
      PushStepsPushFails(b, force);
      FailedAgrees("Push failed: ", b.failures[cmd], cmd);
    } else {
      PushStepsSucceed(b, force);
    }
  }

  lemma QuietPullAgrees(b: Backend, force: bool)
    requires forall c :: c in b.failures ==> b.failures[c].stderr == ""
    ensures PullStepsAsWritten(b, force) == Some(PullSteps(b, force).reply)
  {
    var cmd := Reset(BranchName(b.branchOut));
    PullStepsAsWrittenCases(b, force);
    if force {
      ForcedPullSteps(b);
      if Fetch in b.failures {
        FailedAgrees("Pull failed: ", b.failures[Fetch], Fetch);
      } else if BranchShow in b.failures {
        FailedAgrees("Pull failed: ", b.failures[BranchShow], BranchShow);
      } else if cmd in b.failures {
        FailedAgrees("Pull failed: ", b.failures[cmd], cmd);
      }
    } else {
      RunOutputs(b, PullOrigin);
      if PullOrigin in b.failures {
        FailedAgrees("Pull failed: ", b.failures[PullOrigin], PullOrigin);
      }
    }
  }

  // ---------------------------------------------------------------------
  // status
  // ---------------------------------------------------------------------

  /** The dictionary `status` returns. */
  datatype Status = Status(isRepo: bool, hasRemote: bool, remoteUrl: Option<string>, branch: Option<string>,
                           hasChanges: bool, ahead: int, behind: int)

  const NotRepoStatus: Status := Status(false, false, None, None, false, 0, 0)
  const UnreadableStatus: Status := Status(true, false, None, None, false, 0, 0)

  /** Digits with single underscores between them, as `int()` accepts. */
  predicate IsDigitGroups(s: string) {
    && |s| > 0 && IsDigit(s[0]) && IsDigit(s[|s| - 1])
    && (forall i :: 0 <= i < |s| ==> IsDigit(s[i]) || s[i] == '_')
    && (forall i :: 0 <= i < |s| - 1 ==> s[i] == '_' ==> s[i + 1] != '_')
  }

  /** The number the digits of `s` denote, underscores skipped. */
  function GroupsValue(s: string): int {
    if s == [] then 0
    else if IsDigit(s[|s| - 1]) then 10 * GroupsValue(s[..|s| - 1]) + DigitValue(s[|s| - 1])
    else GroupsValue(s[..|s| - 1])
  }

  /** `int(token)` for a token `split()` produced (so with no whitespace):
      an optional sign, then digit groups; `None` where `int` raises
      `ValueError`. */
  function ParseInt(token: string): Option<int> {
    if |token| > 0 && (token[0] == '+' || token[0] == '-') then
      if IsDigitGroups(token[1..]) then
        Some(if token[0] == '-' then -GroupsValue(token[1..]) else GroupsValue(token[1..]))
      else None
    else if IsDigitGroups(token) then Some(GroupsValue(token))
    else None
  }

  /** `str(n)` for a natural number. */
  function Decimal(n: nat): (s: string)
    ensures |s| > 0 && forall i :: 0 <= i < |s| ==> IsDigit(s[i])
  {
    if n < 10 then [DigitChar(n)] else Decimal(n / 10) + [DigitChar(n % 10)]
  }

  /** `int(str(n)) == n`. */
  lemma {:induction false} ParseDecimal(n: nat)
    ensures ParseInt(Decimal(n)) == Some(n)
  {
    DecimalValue(n);
  }

  lemma {:induction false} DecimalValue(n: nat)
    ensures GroupsValue(Decimal(n)) == n
  {
    if n >= 10 {
      var s := Decimal(n);
      assert s[..|s| - 1] == Decimal(n / 10);
      DecimalValue(n / 10);
    }
  }

  /** The `(behind, ahead)` counts: `(0, 0)` unless the rev-list output
      splits into exactly two tokens; `None` where `int()` raises. */
  function Counts(out: string): Option<(int, int)> {
    var parts := Words(Strip(out));
    if |parts| != 2 then Some((0, 0))
    else
      match ParseInt(parts[0])
      case None => None
      case Some(behind) =>
        match ParseInt(parts[1])
        case None => None
        case Some(ahead) => Some((behind, ahead))
  }

  /** The counts `status` reports for `branch`: zero without a remote or
      when rev-list fails. */
  function AheadBehind(b: Backend, branch: string, hasRemote: bool): Option<(int, int)> {
    if !hasRemote then Some((0, 0))
    else
      match Run(b, RevList(branch))
      case Err(_) => Some((0, 0))
      case Ok(out) => Counts(out)
  }

  /** `status()`; `None` where a malformed rev-list count makes `int()`
      raise, which `status` does not catch. `is_repo` tells whether the
      directory is a repository, and only a repository whose branch and
      porcelain queries succeed and that has a remote can fail. */
  function GetStatus(b: Backend): (r: Option<Status>)
    ensures r.Some? ==> (r.value.isRepo <==> IsGitRepo(b))
    ensures r.None? ==> IsGitRepo(b) && BranchShow !in b.failures && Porcelain !in b.failures && HasRemote(b)
  {
    if !IsGitRepo(b) then Some(NotRepoStatus)
    else
      match Run(b, BranchShow)
      case Err(_) => Some(UnreadableStatus)
      case Ok(branchOut) =>
        match Run(b, Porcelain)
        case Err(_) => Some(UnreadableStatus)
        case Ok(porcelain) =>
          var branch := BranchName(branchOut);
          var url := RemoteUrl(b);
          var hasRemote := url.Some? && url.value != "";
          match AheadBehind(b, branch, hasRemote)
          case None => None
          case Some(c) => Some(Status(true, hasRemote, url, Some(branch), Strip(porcelain) != "", c.1, c.0))
  }

  /** Outside a repository every field is at its default. */
  lemma StatusOutsideRepo(b: Backend)
    requires !IsGitRepo(b)
    ensures GetStatus(b) == Some(Status(false, false, None, None, false, 0, 0))
  {
  }

  /** When the branch or porcelain query fails, `is_repo` is true and
      every other field is at its default. */
  lemma StatusUnreadable(b: Backend)
    requires IsGitRepo(b) && (BranchShow in b.failures || Porcelain in b.failures)
    ensures GetStatus(b) == Some(Status(true, false, None, None, false, 0, 0))
  {
  }

  /** In a readable repository: the branch is the trimmed query output or
      `master`, never empty; `has_changes` holds exactly when the porcelain
      output is not blank; `has_remote` is the truth of the URL; and the
      counts stay zero without a remote, when rev-list fails, or when its
      output is not two tokens. */
  lemma StatusFields(b: Backend)
    requires IsGitRepo(b) && BranchShow !in b.failures && Porcelain !in b.failures
    requires GetStatus(b).Some?
    ensures var s := GetStatus(b).value;
            && s.isRepo
            && s.branch == Some(BranchName(b.branchOut)) && s.branch.value != ""
            && (s.hasChanges <==> !AllSpace(b.porcelainOut))
            && s.remoteUrl == RemoteUrl(b)
            && (s.hasRemote <==> HasRemote(b))
            && ((!HasRemote(b) || RevList(BranchName(b.branchOut)) in b.failures
                 || |Words(Strip(b.revListOut))| != 2) ==> s.ahead == 0 && s.behind == 0)
  {
    StatusReadable(b);
    AheadBehindZero(b, BranchName(b.branchOut), HasRemote(b));
    StripEmptyIffBlank(b.porcelainOut);
  }

  /** `status` in a repository whose branch and porcelain queries answer. */
  lemma StatusReadable(b: Backend)
    requires IsGitRepo(b) && BranchShow !in b.failures && Porcelain !in b.failures
    ensures var branch := BranchName(b.branchOut);
            GetStatus(b) == match AheadBehind(b, branch, HasRemote(b))
                            case None => None
                            case Some(c) => Some(Status(true, HasRemote(b), RemoteUrl(b), Some(branch),
                                                        Strip(b.porcelainOut) != "", c.1, c.0))
  {
    RunOutputs(b, BranchShow);
    RunOutputs(b, Porcelain);
    var url := RemoteUrl(b);
    assert (url.Some? && url.value != "") == HasRemote(b);
  }

  /** When the counts stay zero. */
  lemma AheadBehindZero(b: Backend, branch: string, hasRemote: bool)
    ensures (!hasRemote || RevList(branch) in b.failures || |Words(Strip(b.revListOut))| != 2)
            ==> AheadBehind(b, branch, hasRemote) == Some((0, 0))
  {
    RunOutputs(b, RevList(branch));
  }

  /** A number's decimal form holds no whitespace. */
  lemma DecimalNoSpace(n: nat)
    ensures NoSpace(Decimal(n))
  {
    var s := Decimal(n);
    forall i | 0 <= i < |s| ensures !IsSpace(s[i]) {
      assert IsDigit(s[i]);
    }
  }

  /** A tab-separated pair of tokens, newline-terminated, strips to the
      pair and splits into its two tokens. */
  lemma PairWords(x: string, y: string)
    requires x != [] && y != [] && NoSpace(x) && NoSpace(y)
    ensures Words(Strip(x + "\t" + y + "\n")) == [x, y]
  {
    PairStrip(x, y);
    PairSplit(x, y);
  }

  lemma PairStrip(x: string, y: string)
    requires x != [] && y != [] && NoSpace(x) && NoSpace(y)
    ensures Strip(x + "\t" + y + "\n") == x + "\t" + y
  {
    var line := x + "\t" + y;
    assert line[0] == x[0];
    assert line[|line| - 1] == y[|y| - 1];
    assert IsSpace('\n');
    StripPadded([], line, "\n");
    assert [] + line + "\n" == x + "\t" + y + "\n";
  }

  lemma PairSplit(x: string, y: string)
    requires x != [] && y != [] && NoSpace(x) && NoSpace(y)
    ensures Words(x + "\t" + y) == [x, y]
  {
    assert IsSpace('\t');
    assert x + "\t" + y == x + ("\t" + y);
    WordsCons(x, "\t" + y);
    assert Words("\t" + y) == Words(y) by {
      assert ("\t" + y)[1..] == y;
    }
    WordsCons(y, []);
    assert y + [] == y;
  }

  /** The output `git rev-list --left-right --count` prints, `<behind>\t<ahead>\n`,
      reads back as the two counts, behind first. */
  lemma {:induction false} CountsOfRevList(behind: nat, ahead: nat)
    ensures Counts(Decimal(behind) + "\t" + Decimal(ahead) + "\n") == Some((behind, ahead))
  {
    DecimalNoSpace(behind);
    DecimalNoSpace(ahead);
    PairWords(Decimal(behind), Decimal(ahead));
    ParseDecimal(behind);
    ParseDecimal(ahead);
  }

  /** With a remote and readable queries, `status` reports the counts git
      prints. */
  lemma {:induction false} StatusCounts(b: Backend, behind: nat, ahead: nat)
    requires IsGitRepo(b) && HasRemote(b)
    requires BranchShow !in b.failures && Porcelain !in b.failures
    requires RevList(BranchName(b.branchOut)) !in b.failures
    requires b.revListOut == Decimal(behind) + "\t" + Decimal(ahead) + "\n"
    ensures GetStatus(b).Some?
    ensures GetStatus(b).value.ahead == ahead && GetStatus(b).value.behind == behind
    ensures GetStatus(b).value.hasRemote
  {
    var branch := BranchName(b.branchOut);
    CountsOfRevList(behind, ahead);
    RunOutputs(b, RevList(branch));
    assert AheadBehind(b, branch, true) == Some((behind, ahead));
    StatusReadable(b);
  }

  lemma PairConcat<T>(x: T, y: T)
    ensures [x] + [y] == [x, y]
  {
  }

  // ---------------------------------------------------------------------
  // The object
  // ---------------------------------------------------------------------

  /** `GitSync`: the repository it works on and the commands it has
      issued so far that may change it. */
  class GitSync {
    var backend: Backend
    var issued: seq<Command>

    constructor (b: Backend)
      ensures backend == b && issued == []
    {
      backend := b;
      issued := [];
    }

    method Issue(c: Command) returns (out: Outcome)
      modifies this
      ensures out == Run(old(backend), c)
      ensures backend == Issued(old(backend), c)
      ensures issued == old(issued) + [c]
    {
      out := Run(backend, c);
      if out.Ok? {
        backend := Apply(backend, c);
      }
      issued := issued + [c];
    }

    method SetRemote(url: string) returns (ok: bool, message: string)
      modifies this
      ensures var e := SetRemoteEffect(old(backend), url);
              Reply(ok, message) == e.reply && backend == e.after && issued == old(issued) + e.commands
    {
      if !IsGitRepo(backend) {
        return false, NotRepoMessage;
      }
      var current := RemoteUrl(backend);
      var out: Outcome;
      if current.Some? && current.value != "" {
        out := Issue(SetUrl(url));
        message := "Remote updated: " + url;
      } else {
        out := Issue(AddRemote(url));
        message := "Remote added: " + url;
      }
      if out.Err? {
        return false, "Failed to set remote: " + ErrorText(out.failure);
      }
      ok := true;
    }

    method PushToRemote(force: bool) returns (ok: bool, message: string)
      modifies this
      ensures var e := PushEffect(old(backend), force);
              Reply(ok, message) == e.reply && backend == e.after && issued == old(issued) + e.commands
    {
      if !IsGitRepo(backend) {
        return false, NotRepoMessage;
      }
      if !HasRemote(backend) {
        return false, NoRemoteMessage;
      }
      var branchResult := Run(backend, BranchShow);
      if branchResult.Err? {
        return false, "Push failed: " + ErrorText(branchResult.failure);
      }
      var out := Issue(Push(BranchName(branchResult.stdout), force));
      if out.Err? {
        return false, "Push failed: " + ErrorText(out.failure);
      }
      return true, "Successfully pushed to remote";
    }

    method Pull(force: bool) returns (ok: bool, message: string)
      modifies this
      ensures var e := PullEffect(old(backend), force);
              Reply(ok, message) == e.reply && backend == e.after && issued == old(issued) + e.commands
    {
      if !IsGitRepo(backend) {
        return false, NotRepoMessage;
      }
      if !HasRemote(backend) {
        return false, NoRemoteMessage;
      }
      assert Guard(backend) == None;
      if force {
        ok, message := ForcedPull();
      } else {
        ok, message := PlainPull();
      }
    }

    /** The forced branch of `pull`: fetch, query the branch, reset hard. */
    method ForcedPull() returns (ok: bool, message: string)
      modifies this
      ensures var e := PullSteps(old(backend), true);
              Reply(ok, message) == e.reply && backend == e.after && issued == old(issued) + e.commands
    {
      ForcedPullSteps(backend);
      var fetched := Issue(Fetch);
      assert backend == old(backend);
      if fetched.Err? {
        return false, "Pull failed: " + ErrorText(fetched.failure);
      }
      RunOutputs(backend, BranchShow);
      var branchResult := Run(backend, BranchShow);
      if branchResult.Err? {
        return false, "Pull failed: " + ErrorText(branchResult.failure);
      }
      var cmd := Reset(BranchName(branchResult.stdout));
      var reset := Issue(cmd);
      AppendAssoc(old(issued), [Fetch], [cmd]);
      PairConcat(Fetch, cmd);
      assert issued == old(issued) + [Fetch, cmd];
      if reset.Err? {
        return false, "Pull failed: " + ErrorText(reset.failure);
      }
      return true, "Successfully reset to remote state";
    }

    /** The plain branch of `pull`: `git pull origin`. */
    method PlainPull() returns (ok: bool, message: string)
      modifies this
      ensures var e := PullSteps(old(backend), false);
              Reply(ok, message) == e.reply && backend == e.after && issued == old(issued) + e.commands
    {
      RunOutputs(backend, PullOrigin);
      var pulled := Issue(PullOrigin);
      if pulled.Err? {
        return false, "Pull failed: " + ErrorText(pulled.failure);
      }
      return true, "Successfully pulled from remote";
    }

    method Sync() returns (ok: bool, message: string)
      modifies this
      ensures var e := SyncEffect(old(backend));
              Reply(ok, message) == e.reply && backend == e.after && issued == old(issued) + e.commands
    {
      ghost var start := backend;
      var success, msg := Pull(false);
      ghost var p := PullEffect(start, false);
      if !success {
        return false, "Sync failed during pull: " + msg;
      }
      ghost var middle, sent := backend, issued;
      success, msg := PushToRemote(false);
      ghost var q := PushEffect(middle, false);
      assert issued == sent + q.commands;
      AppendAssoc(old(issued), p.commands, q.commands);
      if !success {
        return false, "Sync failed during push: " + msg;
      }
      return true, "Successfully synced with remote";
    }
  }
}

=== FILE: text.dfy ===
/**
 * The handful of Python `str` operations the record store relies on, on
 * ASCII text: `strip()`, `split()`, `split(sep)`, `lower()`, `isalnum()`,
 * the `in` substring test and the search `str.split(sep, 2)` performs.
 */
module Text {
  import opened Wrappers

  /** `str.isspace()` restricted to ASCII: tab to carriage return, the four
      information separators 0x1C-0x1F, and the space. */
  predicate IsSpace(c: char) {
    9 <= c as int <= 13 || 28 <= c as int <= 32
  }

  predicate IsDigit(c: char) {
    '0' <= c <= '9'
  }

  predicate IsAlnumChar(c: char) {
    IsDigit(c) || 'a' <= c <= 'z' || 'A' <= c <= 'Z'
  }

  /** `str.isalnum()`: non-empty and every character a letter or a digit. */
  predicate IsAlnum(s: string) {
    |s| > 0 && forall i :: 0 <= i < |s| ==> IsAlnumChar(s[i])
  }

  function LowerChar(c: char): char {
    if 'A' <= c <= 'Z' then (c as int + 32) as char else c
  }

  /** `str.lower()` on ASCII. */
  function Lower(s: string): string {
    seq(|s|, i requires 0 <= i < |s| => LowerChar(s[i]))
  }

  predicate AllSpace(s: string) {
    forall i :: 0 <= i < |s| ==> IsSpace(s[i])
  }

  /** Neither end of `s` is whitespace. */
  predicate IsStripped(s: string) {
    s == [] || (!IsSpace(s[0]) && !IsSpace(s[|s| - 1]))
  }

  /** `str.lstrip()`: drops leading whitespace, keeps a suffix of `s`. */
  function LStrip(s: string): (r: string)
    ensures |r| <= |s| && r == s[|s| - |r|..]
    ensures AllSpace(s[..|s| - |r|])
    ensures r == [] || !IsSpace(r[0])
  {
    if s != [] && IsSpace(s[0]) then
      var r := LStrip(s[1..]);
      assert s[..|s| - |r|] == [s[0]] + s[1..][..|s| - 1 - |r|];
      r
    else s
  }

  /** `str.rstrip()`: drops trailing whitespace, keeps a prefix of `s`. */
  function RStrip(s: string): (r: string)
    ensures |r| <= |s| && r == s[..|r|]
    ensures AllSpace(s[|r|..])
    ensures r == [] || !IsSpace(r[|r| - 1])
  {
    if s != [] && IsSpace(s[|s| - 1]) then
      var r := RStrip(s[..|s| - 1]);
      assert forall i :: |r| <= i < |s| - 1 ==> s[i] == s[..|s| - 1][|r|..][i - |r|];
      r
    else s
  }

  /** `str.strip()`: the result has no whitespace at either end, and text
      that already has none is returned unchanged. */
  function Strip(s: string): (r: string)
    ensures IsStripped(r)
    ensures |r| <= |s|
    ensures IsStripped(s) ==> r == s
  {
    var t := RStrip(s);
    var r := LStrip(t);
    assert r != [] ==> r[|r| - 1] == t[|t| - 1];
    r
  }

  /** Stripping text padded with whitespace on both sides gives back the
      stripped text in the middle. */
  lemma {:induction false} StripPadded(pre: string, c: string, post: string)
    requires AllSpace(pre) && AllSpace(post) && IsStripped(c)
    ensures Strip(pre + c + post) == c
  {
    var s := pre + c + post;
    RStripPadded(pre + c, post);
    assert RStrip(s) == RStrip(pre + c);
    if c == [] {
      assert pre + c == pre;
      RStripAllSpace(pre);
      assert RStrip(s) == [];
    } else {
      RStripKeeps(pre + c);
      assert RStrip(s) == pre + c;
      LStripPadded(pre, c);
    }
  }

  lemma {:induction false} RStripPadded(s: string, post: string)
    requires AllSpace(post)
    ensures RStrip(s + post) == RStrip(s)
    decreases |post|
  {
    if post != [] {
      var s' := s + post;
      assert IsSpace(s'[|s'| - 1]);
      assert s'[..|s'| - 1] == s + post[..|post| - 1];
      RStripPadded(s, post[..|post| - 1]);
    } else {
      assert s + post == s;
    }
  }

  lemma RStripAllSpace(s: string)
    requires AllSpace(s)
    ensures RStrip(s) == []
  {
  }

  lemma RStripKeeps(s: string)
    requires s == [] || !IsSpace(s[|s| - 1])
    ensures RStrip(s) == s
  {
  }

  lemma {:induction false} LStripPadded(pre: string, c: string)
    requires AllSpace(pre) && c != [] && !IsSpace(c[0])
    ensures LStrip(pre + c) == c
    decreases |pre|
  {
    if pre != [] {
      TailAppend(pre, c);
      LStripPadded(pre[1..], c);
    } else {
      assert pre + c == c;
    }
  }

  /** `s.strip()` is empty exactly when `s` is blank. */
  lemma StripEmptyIffBlank(s: string)
    ensures Strip(s) == [] <==> AllSpace(s)
  {
    if AllSpace(s) {
      RStripAllSpace(s);
    }
  }

  /** `w` holds no whitespace character. */
  predicate NoSpace(w: string) {
    forall i :: 0 <= i < |w| ==> !IsSpace(w[i])
  }

  /** The length of the run of non-whitespace characters `s` starts with. */
  function RunLen(s: string): (n: nat)
    ensures n <= |s|
    ensures forall i :: 0 <= i < n ==> !IsSpace(s[i])
    ensures n == |s| || IsSpace(s[n])
  {
    if s == [] || IsSpace(s[0]) then 0 else 1 + RunLen(s[1..])
  }

  /** `str.split()` with no argument: the maximal runs of non-whitespace
      characters, in order. */
  function Words(s: string): (ws: seq<string>)
    ensures forall k :: 0 <= k < |ws| ==> ws[k] != [] && NoSpace(ws[k])
    decreases |s|
  {
    if s == [] then []
    else if IsSpace(s[0]) then Words(s[1..])
    else
      var n := RunLen(s);
      [s[..n]] + Words(s[n..])
  }

  lemma {:induction false} RunLenWord(w: string, rest: string)
    requires NoSpace(w) && (rest == [] || IsSpace(rest[0]))
    ensures RunLen(w + rest) == |w|
  {
    if w != [] {
      assert (w + rest)[1..] == w[1..] + rest;
      RunLenWord(w[1..], rest);
    }
  }

  /** A word followed by whitespace or the end is the first word. */
  lemma WordsCons(w: string, rest: string)
    requires w != [] && NoSpace(w) && (rest == [] || IsSpace(rest[0]))
    ensures Words(w + rest) == [w] + Words(rest)
  {
    RunLenWord(w, rest);
    assert (w + rest)[..|w|] == w && (w + rest)[|w|..] == rest;
  }

  /** Leading whitespace separates no word. */
  lemma WordsSpace(c: char, rest: string)
    requires IsSpace(c)
    ensures Words([c] + rest) == Words(rest)
  {
    assert ([c] + rest)[1..] == rest;
  }

  /** A text has no words exactly when it is all whitespace. */
  lemma {:induction false} WordsEmptyIffBlank(s: string)
    ensures Words(s) == [] <==> AllSpace(s)
    decreases |s|
  {
    if s != [] {
      WordsEmptyIffBlank(s[1..]);
      if IsSpace(s[0]) {
        assert AllSpace(s) <==> AllSpace(s[1..]);
      }
    }
  }

  /** The index of the first `c` in `s`. */
  function IndexOf(s: string, c: char): (i: nat)
    requires c in s
    ensures i < |s| && s[i] == c && c !in s[..i]
  {
    if s[0] == c then 0 else 1 + IndexOf(s[1..], c)
  }

  /** `str.split(sep)` for a one-character separator: always at least one
      part, and no part contains the separator. */
  function Split(s: string, sep: char): (parts: seq<string>)
    ensures |parts| >= 1
    ensures forall k :: 0 <= k < |parts| ==> sep !in parts[k]
    decreases |s|
  {
    if sep in s then
      var i := IndexOf(s, sep);
      [s[..i]] + Split(s[i + 1..], sep)
    else
      [s]
  }

  /** `sep.join(parts)`. */
  function Join(parts: seq<string>, sep: char): string {
    if parts == [] then []
    else if |parts| == 1 then parts[0]
    else parts[0] + [sep] + Join(parts[1..], sep)
  }

  /** Joining the parts with the separator gives the text back; with the
      parts free of the separator, this fixes what `split` returns. */
  lemma {:induction false} SplitJoin(s: string, sep: char)
    ensures Join(Split(s, sep), sep) == s
    decreases |s|
  {
    if sep in s {
      var i := IndexOf(s, sep);
      var rest := Split(s[i + 1..], sep);
      SplitJoin(s[i + 1..], sep);
      TailAppend([s[..i]], rest);
      assert s == s[..i] + [sep] + s[i + 1..];
    }
  }

  /** Each of `ls` followed by `sep`: the text of a sequence of lines. */
  function Terminated(ls: seq<string>, sep: char): string {
    if ls == [] then [] else ls[0] + [sep] + Terminated(ls[1..], sep)
  }

  /** One line more at the end: the text gains that line and a separator. */
  lemma {:induction false} TerminatedSnoc(ls: seq<string>, y: string, sep: char)
    ensures Terminated(ls + [y], sep) == Terminated(ls, sep) + y + [sep]
    decreases |ls|
  {
    if ls == [] {
      assert [] + [y] == [y];
      assert [y][1..] == [];
    } else {
      TerminatedSnoc(ls[1..], y, sep);
      assert (ls + [y])[1..] == ls[1..] + [y];
    }
  }

  /** Splitting terminated lines gives the lines back, plus the empty text
      after the last separator. */
  lemma {:induction false} SplitTerminated(ls: seq<string>, sep: char)
    requires forall k :: 0 <= k < |ls| ==> sep !in ls[k]
    ensures Split(Terminated(ls, sep), sep) == ls + [[]]
  {
    if ls != [] {
      SplitTerminated(ls[1..], sep);
      SplitTerminatedStep(ls, sep);
    }
  }

  /** One line more: its part comes first. */
  lemma SplitTerminatedStep(ls: seq<string>, sep: char)
    requires ls != [] && sep !in ls[0]
    requires Split(Terminated(ls[1..], sep), sep) == ls[1..] + [[]]
    ensures Split(Terminated(ls, sep), sep) == ls + [[]]
  {
    var rest := Terminated(ls[1..], sep);
    assert Terminated(ls, sep) == ls[0] + [sep] + rest;
    SplitAt(ls[0], sep, rest);
    ConsSnoc(ls, []);
  }

  lemma TailAppend<T>(a: seq<T>, b: seq<T>)
    requires a != []
    ensures (a + b)[0] == a[0] && (a + b)[1..] == a[1..] + b
  {
  }

  lemma AppendHead<T>(a: seq<T>, xs: seq<T>)
    requires xs != []
    ensures a + [xs[0]] + xs[1..] == a + xs
  {
    assert xs == [xs[0]] + xs[1..];
  }

  lemma ConsSnoc<T>(xs: seq<T>, y: T)
    requires xs != []
    ensures xs + [y] == [xs[0]] + (xs[1..] + [y])
  {
    assert xs == [xs[0]] + xs[1..];
  }

  /** A part free of the separator, then the separator, splits off as the
      first part. */
  lemma SplitAt(x: string, sep: char, rest: string)
    requires sep !in x
    ensures Split(x + [sep] + rest, sep) == [x] + Split(rest, sep)
  {
    var s := x + [sep] + rest;
    IndexOfAfter(x, sep, rest);
    assert s[..|x|] == x;
    assert s[|x| + 1..] == rest;
  }

  lemma {:induction false} IndexOfAfter(x: string, c: char, rest: string)
    requires c !in x
    ensures c in x + [c] + rest && IndexOf(x + [c] + rest, c) == |x|
  {
    if x != [] {
      assert (x + [c] + rest)[1..] == x[1..] + [c] + rest;
      IndexOfAfter(x[1..], c, rest);
    }
  }

  /** Python's `pat in text`. */
  predicate Contains(text: string, pat: string) {
    exists i :: 0 <= i <= |text| - |pat| && pat <= text[i..]
  }

  /** The empty text occurs in every text. */
  lemma ContainsEmpty(text: string)
    ensures Contains(text, [])
  {
    assert [] <= text[0..];
  }

  /** `pat` occurs in `text` at index `k`. */
  predicate OccursAt(text: string, pat: string, k: nat) {
    k + |pat| <= |text| && pat <= text[k..]
  }

  /** `text.find(pat, from)`: the first index at or after `from` where
      `pat` occurs. */
  function Find(text: string, pat: string, from: nat): (r: Option<nat>)
    ensures r.Some? ==> from <= r.value && OccursAt(text, pat, r.value)
    ensures r.Some? ==> forall k :: from <= k < r.value ==> !OccursAt(text, pat, k)
    ensures r.None? ==> forall k :: from <= k <= |text| - |pat| ==> !OccursAt(text, pat, k)
    decreases |text| - from
  {
    if from + |pat| > |text| then None
    else if pat <= text[from..] then Some(from)
    else Find(text, pat, from + 1)
  }

  /** `Find` yields `k` when `pat` occurs at `k` and nowhere between `from`
      and `k`. */
  lemma {:induction false} FindAt(text: string, pat: string, from: nat, k: nat)
    requires from <= k && k + |pat| <= |text| && pat <= text[k..]
    requires forall j :: from <= j < k ==> !(pat <= text[j..])
    ensures Find(text, pat, from) == Some(k)
    decreases k - from
  {
    if from < k {
      FindAt(text, pat, from + 1, k);
    }
  }

  /** `Find` yields nothing when `pat` occurs nowhere from `from` on. */
  lemma {:induction false} FindNone(text: string, pat: string, from: nat)
    requires forall j :: from <= j <= |text| - |pat| ==> !(pat <= text[j..])
    ensures Find(text, pat, from).None?
    decreases |text| - from
  {
    if from + |pat| <= |text| {
      FindNone(text, pat, from + 1);
    }
  }

  /** `text.split(sep, 2)`: at most three parts, cut at the first two
      non-overlapping occurrences of `sep`. */
  function SplitTwice(text: string, sep: string): (parts: seq<string>)
    requires |sep| > 0
    ensures 1 <= |parts| <= 3
  {
    match Find(text, sep, 0)
    case None => [text]
    case Some(i) =>
      match Find(text, sep, i + |sep|)
      case None => [text[..i], text[i + |sep|..]]
      case Some(j) => [text[..i], text[i + |sep|..j], text[j + |sep|..]]
  }

  /** `sep` occurs nowhere in `text` at a position from `lo` up to `hi`. */
  predicate Absent(text: string, sep: string, lo: nat, hi: int) {
    forall k | lo <= k < hi :: !OccursAt(text, sep, k)
  }

  /** `split(sep, 2)` gives the whole text when `sep` does not occur;
      otherwise it cuts at the first occurrence, and then at the first
      occurrence after that one when there is one. */
  lemma SplitTwiceCuts(text: string, sep: string)
    requires |sep| > 0
    ensures |SplitTwice(text, sep)| == 1 <==> Absent(text, sep, 0, |text| - |sep| + 1)
    ensures |SplitTwice(text, sep)| == 1 ==> SplitTwice(text, sep)[0] == text
    ensures |SplitTwice(text, sep)| >= 2 ==>
              var parts := SplitTwice(text, sep);
              OccursAt(text, sep, |parts[0]|) && Absent(text, sep, 0, |parts[0]|)
    ensures |SplitTwice(text, sep)| == 2 ==>
              Absent(text, sep, |SplitTwice(text, sep)[0]| + |sep|, |text| - |sep| + 1)
    ensures |SplitTwice(text, sep)| == 3 ==>
              var parts := SplitTwice(text, sep);
              && OccursAt(text, sep, |parts[0]| + |sep| + |parts[1]|)
              && Absent(text, sep, |parts[0]| + |sep|, |parts[0]| + |sep| + |parts[1]|)
  {
    match Find(text, sep, 0)
    case None =>
      SplitTwiceNone(text, sep);
    case Some(i) =>
      match Find(text, sep, i + |sep|)
      case None =>
        SplitTwiceOnce(text, sep, i);
      case Some(j) =>
        SplitTwiceTwice(text, sep, i, j);
  }

  /** The three shapes of `SplitTwice`, one per outcome of the searches. */
  lemma SplitTwiceNone(text: string, sep: string)
    requires |sep| > 0 && Find(text, sep, 0).None?
    ensures SplitTwice(text, sep) == [text]
  {
  }

  lemma SplitTwiceOnce(text: string, sep: string, i: nat)
    requires |sep| > 0 && Find(text, sep, 0) == Some(i) && Find(text, sep, i + |sep|).None?
    ensures |SplitTwice(text, sep)| == 2 && |SplitTwice(text, sep)[0]| == i
  {
    assert SplitTwice(text, sep) == [text[..i], text[i + |sep|..]];
  }

  lemma SplitTwiceTwice(text: string, sep: string, i: nat, j: nat)
    requires |sep| > 0 && Find(text, sep, 0) == Some(i) && Find(text, sep, i + |sep|) == Some(j)
    ensures |SplitTwice(text, sep)| == 3 && |SplitTwice(text, sep)[0]| == i
    ensures j == |SplitTwice(text, sep)[0]| + |sep| + |SplitTwice(text, sep)[1]|
  {
  }

  /** The parts of `split(sep, 2)` joined with `sep` give the text back. */
  lemma SplitTwiceJoin(text: string, sep: string)
    requires |sep| > 0
    ensures |SplitTwice(text, sep)| == 2 ==>
              text == SplitTwice(text, sep)[0] + sep + SplitTwice(text, sep)[1]
    ensures |SplitTwice(text, sep)| == 3 ==>
              var parts := SplitTwice(text, sep);
              text == parts[0] + sep + parts[1] + sep + parts[2]
  {
    match Find(text, sep, 0)
    case None =>
    case Some(i) =>
      match Find(text, sep, i + |sep|)
      case None =>
        assert SplitTwice(text, sep) == [text[..i], text[i + |sep|..]];
        CutAt(text, sep, i);
      case Some(j) =>
        var parts := SplitTwice(text, sep);
        assert parts == [text[..i], text[i + |sep|..j], text[j + |sep|..]];
        CutTwice(text, sep, i, j, parts);
  }

  /** Occurrences of `sep` at `i` and, after it, at `j` cut the text in
      three. */
  lemma CutTwice(text: string, sep: string, i: nat, j: nat, parts: seq<string>)
    requires i + |sep| <= j && j + |sep| <= |text| && sep <= text[i..] && sep <= text[j..]
    requires parts == [text[..i], text[i + |sep|..j], text[j + |sep|..]]
    ensures text == parts[0] + sep + parts[1] + sep + parts[2]
  {
    var a, m, b := text[..i], text[i + |sep|..j], text[j + |sep|..];
    var rest := text[i + |sep|..];
    CutAt(text, sep, i);
    CutAt(rest, sep, j - i - |sep|);
    assert rest[..j - i - |sep|] == m;
    assert rest[j - i..] == b;
    assert rest == m + sep + b;
    ConcatAssoc5(a, sep, m, sep, b);
  }

  lemma AppendAssoc<T>(a: seq<T>, b: seq<T>, c: seq<T>)
    ensures a + b + c == a + (b + c)
  {
  }

  lemma ConcatAssoc5<T>(a: seq<T>, b: seq<T>, c: seq<T>, d: seq<T>, e: seq<T>)
    ensures a + b + (c + d + e) == a + b + c + d + e
  {
  }

  /** An occurrence of `sep` at `i` splits the text around it. */
  lemma CutAt(text: string, sep: string, i: nat)
    requires i + |sep| <= |text| && sep <= text[i..]
    ensures text == text[..i] + sep + text[i + |sep|..]
  {
    assert text[i..i + |sep|] == sep;
    assert text == text[..i] + text[i..i + |sep|] + text[i + |sep|..];
  }

  // ---------------------------------------------------------------------
  // Reading a file in text mode
  // ---------------------------------------------------------------------

  /** What `open(path, 'r')` reads from stored text: universal newlines
      turn every `\r\n`, and every `\r` on its own, into `\n`. */
  function ReadText(s: string): (r: string)
    ensures '\r' !in r
    ensures |r| <= |s|
    decreases |s|
  {
    if s == [] then []
    else if s[0] == '\r' then "\n" + ReadText(if |s| > 1 && s[1] == '\n' then s[2..] else s[1..])
    else [s[0]] + ReadText(s[1..])
  }

  /** A text reads back as it is stored exactly when it holds no carriage
      return. */
  lemma {:induction false} ReadTextIdentity(s: string)
    ensures ReadText(s) == s <==> '\r' !in s
    decreases |s|
  {
    if s != [] && s[0] != '\r' {
      ReadTextIdentity(s[1..]);
      assert s == [s[0]] + s[1..];
    }
  }

  /** Reading is piecewise, wherever the cut does not split a `\r\n`. */
  lemma {:induction false} ReadTextAppend(a: string, b: string)
    requires a == [] || a[|a| - 1] != '\r'
    ensures ReadText(a + b) == ReadText(a) + ReadText(b)
    decreases |a|
  {
    if a != [] {
      var s := a + b;
      if a[0] == '\r' && a[1] == '\n' {
        assert s[2..] == a[2..] + b;
        ReadTextAppend(a[2..], b);
        assert ReadText(s) == "\n" + ReadText(s[2..]);
        assert ReadText(a) == "\n" + ReadText(a[2..]);
      } else {
        assert s[1..] == a[1..] + b;
        ReadTextAppend(a[1..], b);
        if a[0] == '\r' {
          assert ReadText(s) == "\n" + ReadText(s[1..]);
          assert ReadText(a) == "\n" + ReadText(a[1..]);
        } else {
          assert ReadText(s) == [a[0]] + ReadText(s[1..]);
          assert ReadText(a) == [a[0]] + ReadText(a[1..]);
        }
      }
    } else {
      assert a + b == b;
    }
  }

  /** A first character other than `\r`, and a last one that is neither
      `\r` nor `\n`, are read as they are. */
  lemma {:induction false} ReadTextEnds(s: string)
    requires s != []
    ensures s[0] != '\r' ==> ReadText(s) != [] && ReadText(s)[0] == s[0]
    ensures s[|s| - 1] != '\r' && s[|s| - 1] != '\n' ==>
              ReadText(s) != [] && ReadText(s)[|ReadText(s)| - 1] == s[|s| - 1]
    decreases |s|
  {
    if |s| > 1 {
      if s[0] == '\r' && s[1] == '\n' {
        if |s| > 2 {
          ReadTextEnds(s[2..]);
        }
      } else {
        ReadTextEnds(s[1..]);
      }
    }
  }

  /** The text with every `\n` stored as `\r\n`, as a checkout with CRLF
      line endings writes it. */
  function ToCrlf(s: string): string {
    if s == [] then [] else (if s[0] == '\n' then "\r\n" else [s[0]]) + ToCrlf(s[1..])
  }

  /** A file stored with CRLF line endings reads as its LF form. */
  lemma {:induction false} ReadCrlf(s: string)
    requires '\r' !in s
    ensures ReadText(ToCrlf(s)) == s
  {
    if s != [] {
      ReadCrlf(s[1..]);
      var t := ToCrlf(s);
      if s[0] == '\n' {
        assert t[0] == '\r' && t[1] == '\n' && t[2..] == ToCrlf(s[1..]);
      } else {
        assert t[0] == s[0] && t[1..] == ToCrlf(s[1..]);
      }
      assert s == [s[0]] + s[1..];
    }
  }

  /** A character that no line holds, other than the separator, is not in
      the terminated text. */
  lemma {:induction false} TerminatedWithout(ls: seq<string>, sep: char, c: char)
    requires c != sep && forall k :: 0 <= k < |ls| ==> c !in ls[k]
    ensures c !in Terminated(ls, sep)
  {
    if ls != [] {
      TerminatedWithout(ls[1..], sep, c);
    }
  }
}

/** Python's ordering of `str` values, and sorting a set of names. */
module Lex {

  /** `s < t` on Python strings: the first differing character decides, and
      a proper prefix comes first. */
  predicate LexLess(s: string, t: string) {
    if s == [] then t != []
    else if t == [] then false
    else if s[0] != t[0] then s[0] < t[0]
    else LexLess(s[1..], t[1..])
  }

  lemma {:induction false} LexLessIrreflexive(s: string)
    ensures !LexLess(s, s)
  {
    if s != [] {
      LexLessIrreflexive(s[1..]);
    }
  }

  lemma {:induction false} LexLessTransitive(a: string, b: string, c: string)
    requires LexLess(a, b) && LexLess(b, c)
    ensures LexLess(a, c)
  {
    if a != [] && b != [] && c != [] && a[0] == b[0] && b[0] == c[0] {
      LexLessTransitive(a[1..], b[1..], c[1..]);
    }
  }

  lemma {:induction false} LexLessTotal(a: string, b: string)
    ensures a == b || LexLess(a, b) || LexLess(b, a)
  {
    if a != [] && b != [] && a[0] == b[0] {
      LexLessTotal(a[1..], b[1..]);
      if a[1..] == b[1..] {
        assert a == [a[0]] + a[1..] && b == [b[0]] + b[1..];
      }
    }
  }

  lemma LexLessAsymmetric(a: string, b: string)
    requires LexLess(a, b)
    ensures !LexLess(b, a)
  {
    if LexLess(b, a) {
      LexLessTransitive(a, b, a);
      LexLessIrreflexive(a);
    }
  }

  /** Comparing texts that start with equally long prefixes: the prefixes
      decide unless they are equal. */
  lemma {:induction false} LexLessAppend(p: string, x: string, q: string, y: string)
    requires |p| == |q|
    ensures LexLess(p + x, q + y) <==> LexLess(p, q) || (p == q && LexLess(x, y))
  {
    if p != [] {
      assert (p + x)[0] == p[0] && (q + y)[0] == q[0];
      assert (p + x)[1..] == p[1..] + x && (q + y)[1..] == q[1..] + y;
      LexLessAppend(p[1..], x, q[1..], y);
      if p[0] == q[0] && p[1..] == q[1..] {
        assert p == [p[0]] + p[1..] && q == [q[0]] + q[1..];
      }
    } else {
      assert p + x == x && q + y == y;
    }
  }

  ghost predicate IsLeast(m: string, s: set<string>) {
    m in s && forall x :: x in s && x != m ==> LexLess(m, x)
  }

  lemma {:induction false} LeastExists(s: set<string>)
    requires s != {}
    ensures exists m :: IsLeast(m, s)
    decreases |s|
  {
    var x :| x in s;
    if s != {x} {
      LeastExists(s - {x});
      var m :| IsLeast(m, s - {x});
      LexLessTotal(m, x);
      if LexLess(m, x) {
        assert IsLeast(m, s);
      } else {
        forall y | y in s && y != x
          ensures LexLess(x, y)
        {
          if y != m {
            LexLessTransitive(x, m, y);
          }
        }
        assert IsLeast(x, s);
      }
    } else {
      assert IsLeast(x, s);
    }
  }

  lemma LeastUnique(m: string, n: string, s: set<string>)
    requires IsLeast(m, s) && IsLeast(n, s)
    ensures m == n
  {
    if m != n {
      LexLessAsymmetric(m, n);
    }
  }

  /** The elements of `s` in ascending order (what `sorted()` returns). */
  ghost function SortedAsc(s: set<string>): seq<string>
    decreases |s|
  {
    if s == {} then []
    else
      LeastExists(s);
      var m :| IsLeast(m, s);
      [m] + SortedAsc(s - {m})
  }

  predicate StrictlyAscending(r: seq<string>) {
    forall i, j :: 0 <= i < j < |r| ==> LexLess(r[i], r[j])
  }

  lemma SortedAscUnfold(s: set<string>, m: string)
    requires IsLeast(m, s)
    ensures SortedAsc(s) == [m] + SortedAsc(s - {m})
  {
    var m' :| IsLeast(m', s) && SortedAsc(s) == [m'] + SortedAsc(s - {m'});
    LeastUnique(m, m', s);
  }

  /** `sorted()` of a set lists each element once, in strictly ascending
      order. */
  lemma {:induction false} SortedAscProperties(s: set<string>)
    ensures StrictlyAscending(SortedAsc(s))
    ensures forall x :: x in SortedAsc(s) <==> x in s
    ensures |SortedAsc(s)| == |s|
    decreases |s|
  {
    if s != {} {
      LeastExists(s);
      var m :| IsLeast(m, s);
      SortedAscUnfold(s, m);
      SortedAscProperties(s - {m});
      var r := SortedAsc(s);
      forall i, j | 0 <= i < j < |r|
        ensures LexLess(r[i], r[j])
      {
        if i == 0 {
          assert r[j] in s - {m};
        }
      }
    }
  }

  /** Finds the least name of a non-empty set by a linear scan. */
  method Least(s: set<string>) returns (m: string)
    requires s != {}
    ensures IsLeast(m, s)
  {
    m :| m in s;
    var rest := s - {m};
    ghost var seen := {m};
    while rest != {}
      invariant seen + rest == s && m in seen
      invariant forall x :: x in seen && x != m ==> LexLess(m, x)
      decreases |rest|
    {
      var x :| x in rest;
      LexLessTotal(m, x);
      if LexLess(x, m) {
        forall y | y in seen && y != x
          ensures LexLess(x, y)
        {
          if y != m {
            LexLessTransitive(x, m, y);
          }
        }
        m := x;
      }
      seen := seen + {x};
      rest := rest - {x};
    }
  }

  /** `sorted(s)`: repeatedly takes the least remaining name. */
  method Sort(s: set<string>) returns (r: seq<string>)
    ensures r == SortedAsc(s)
  {
    r := [];
    var rest := s;
    while rest != {}
      invariant r + SortedAsc(rest) == SortedAsc(s)
      decreases |rest|
    {
      var m := Least(rest);
      SortedAscUnfold(rest, m);
      r := r + [m];
      rest := rest - {m};
    }
  }

  /** The elements of `s` back to front. */
  function Reverse<T>(s: seq<T>): (r: seq<T>)
    ensures |r| == |s|
    ensures forall i :: 0 <= i < |s| ==> r[i] == s[|s| - 1 - i]
  {
    if s == [] then [] else Reverse(s[1..]) + [s[0]]
  }
}

=== FILE: wrappers.dfy ===
/** Optional values, standing in for Python's `None`. */
module Wrappers {

  datatype Option<+T> = None | Some(value: T) {

    /** The value, or `default` when there is none. */
    function GetOr(default: T): T {
      match this
      case Some(v) => v
      case None => default
    }
  }
}
